=== FILE: README.md ===
# yahtzee-rl core in Dafny

A model of the game logic of the yahtzee-rl reinforcement-learning environment:

- the thirteen scoring categories and their upper/lower partition;
- the per-category scorers and the scorecard state machine (mark once, upper bonus, Yahtzee bonus, reset);
- the keep advisor, which splits a roll into dice to set aside and dice to reroll for a target category;
- the Markov probability engine: four constant transition matrices, their powers, the per-category probabilities of completing a combination, and the expected-score features built from them.

Everything is pure: hands are `seq<int>`, the scorecard is an immutable `Board` holding a `map<Category, Record>`, and `mark_score` is a transition `Board -> (bool, Board)`. Probabilities use exact `real` arithmetic instead of floating point. Matrix powers are a recursive `Power`.

Modules, one per file:

| file | module | models |
|---|---|---|
| wrappers.dfy | Wrappers | `Option` and `Result` |
| sequences.dfy | Sequences | in-order selection by a mask, sums, descending sort |
| categories.dfy | Categories | `src/yahtzee_rl/__init__.py` |
| dice.dfy | Dice | counting primitives: `Counter` key order, `max`/`reduce` tie-breaks, window coverage |
| ops.dfy | ScoringOps | `src/yahtzee_rl/scoring/ops.py` |
| scorecard.dfy | Scorecard | `src/yahtzee_rl/scoring/scorecard.py` |
| matrices.dfy | Matrices | vectors, matrix products and powers, column-stochastic and lower-triangular closure |
| transitions.dfy | Transitions | the four transition matrices of `src/yahtzee_rl/markov/probabilities.py` |
| probabilities.dfy | Probabilities | the probability functions of `src/yahtzee_rl/markov/probabilities.py` |
| expected.dfy | ExpectedScores | the expected-score functions and observation vectors of the same file |
| lookaheads.dfy | KeepAdvisor | `src/yahtzee_rl/markov/lookaheads.py` |

Behaviour reproduced as the code has it:

- **Upper scorers count dice.** `dice_sum_if_equal` returns the number of matching dice, not their sum, so twos of `[2, 2, 3, 4, 5]` scores 2. The repository's tests expect face times count; the model follows the code and states the intended scorer beside it (see Findings).
- **Full house accepts two pairs**, and rejects four and five of a kind.
- **Keep-advisor ties go to the last face** in first-appearance order of roll followed by withheld dice. The probability engine's `max(counts, key=counts.get)` instead takes the first face on ties.
- **Straight probabilities use the first overlapping window**, not the best one. So `[1, 3, 4, 5, 6]` with no rerolls left has small-straight probability 0 although it scores 30.
- **Only the runs and upper-count matrices are column-stochastic.** The first column of the small-straight matrix sums to 1323/1296, and that of the large-straight matrix to 1236/1296. The large straight is still a probability; the small straight is not from 12 rerolls on (see Findings), though it never exceeds 1215/1188. The lower-section functions and vectors pass that value on unchanged, as the source does.
- **The small straight is never checked for a mark** in `lower_section_probabilities`, although its docstring says marked categories are considered: a marked small straight keeps its probability.
- `probabilities.py` calls `Scorecard.is_category_marked`, which `scorecard.py` does not define. It is modelled as reading the category's `marked` flag (`Scorecard.IsMarked`).
- The keep mask is a `seq<bool>` with `true` for a kept die. In the source, a mask value of 0 means kept.

## Model

| member | source | states |
|---|---|---|
| Categories.FromName | src/yahtzee_rl/__init__.py:18-40 | parsing a string yields a category carrying exactly that value, and yields nothing only when no category carries it |
| Categories.NameRoundTrip | src/yahtzee_rl/__init__.py:26-40 | the thirteen values are distinct: parsing a category's value gives that category back |
| Categories.IsValid | src/yahtzee_rl/__init__.py:55-58 | `is_valid(s)` holds iff `s` is the value of some category |
| Categories.UpperCategories | src/yahtzee_rl/__init__.py:43-45 | six upper categories whose faces are 1..6 in order |
| Categories.LowerCategories | src/yahtzee_rl/__init__.py:47-53 | seven categories, none of them upper |
| Categories.Index | src/yahtzee_rl/__init__.py:25-40 | every category has a position below 13 in declaration order |
| Categories.PartitionComplete | src/yahtzee_rl/__init__.py:43-53 | the two sections are disjoint, repeat nothing and together hold all thirteen categories; the upper list is exactly the upper categories |
| Categories.CategoryNamesComplete | src/yahtzee_rl/__init__.py:62-64 | `CATEGORY_NAMES` has 13 distinct entries in enumeration order, and a string is on it iff it is valid |
| Dice.Distinct | src/yahtzee_rl/scoring/ops.py:13-19 | the keys of `Counter(dice)`: no repeats, exactly the faces shown, in order of first appearance |
| Dice.CountValues | src/yahtzee_rl/scoring/ops.py:13-19 | the counter's values: each key's count, each at least 1 |
| Dice.TopCount | src/yahtzee_rl/markov/probabilities.py:433-434 | the largest sorted count bounds every face's count and is attained by a face of the hand |
| Dice.SecondCount | src/yahtzee_rl/markov/probabilities.py:433-436 | two different faces cannot both exceed the second sorted count |
| Dice.TopTwoFaces | src/yahtzee_rl/markov/probabilities.py:433-436 | the two largest sorted counts belong to two different faces of the hand |
| Dice.CountPairBound | src/yahtzee_rl/scoring/ops.py:13-19 | the counts of two different faces add up to at most the number of dice |
| Dice.FirstMaxIndex | src/yahtzee_rl/markov/probabilities.py:79-80 | `max(counts, key=counts.get)`: a face of largest count, strictly larger than every face listed before it |
| Dice.LastMaxIndex | src/yahtzee_rl/markov/lookaheads.py:81 | `reduce(lambda x, y: x if x[1] > y[1] else y)`: a face of largest count, strictly larger than every face listed after it |
| Dice.MostCommonFace | src/yahtzee_rl/markov/probabilities.py:466-467 | the chosen face occurs in the hand and no face occurs more often |
| Dice.MostCommonIsTop | src/yahtzee_rl/markov/probabilities.py:451 | the most common face's count is the largest sorted count |
| Dice.MaxValue | src/yahtzee_rl/markov/lookaheads.py:168 | `np.max`: an element of the dice no smaller than any other |
| Dice.CoverageMeaning | src/yahtzee_rl/markov/probabilities.py:336-347 | `determine_straight_state` equals the window length iff every window value is present, and is positive iff some window value is present |
| ScoringOps.DiceSumIfEqual | src/yahtzee_rl/scoring/ops.py:4-11 | the number of dice equal to the target, at most the number of dice |
| ScoringOps.ComboUnknownMove | src/yahtzee_rl/scoring/ops.py:22-77 | a move name outside the six combination names is never satisfied |
| ScoringOps.ComboByName | src/yahtzee_rl/scoring/ops.py:22-77 | `combo_satisfied` on a category's value agrees with that combination's own test |
| ScoringOps.ComboSatisfied | src/yahtzee_rl/scoring/ops.py:22-77 | only the six combination names can ever be satisfied |
| ScoringOps.Score | src/yahtzee_rl/scoring/ops.py:79-227 | an upper category scores the count of its face; three and four of a kind score 0 or the pip total; full house, small straight, large straight and Yahtzee score 0 or their fixed 25, 30, 40, 50; chance scores the pip total |
| ScoringOps.UpperScoreIsCount | src/yahtzee_rl/scoring/ops.py:79-141 | each upper scorer returns the count of its face, between 0 and the number of dice |
| ScoringOps.TwosCountsDice | src/yahtzee_rl/scoring/ops.py:89-97 | twos of `[2, 2, 3, 4, 5]` is 2, a count rather than 4 |
| ScoringOps.UpperScoreIntended | src/yahtzee_rl/scoring/ops.py:4-11 | the intended upper score: face times the counted score, between 0 and five times the face on a hand, 0 iff the face is absent |
| ScoringOps.IntendedTwosExample | src/yahtzee_rl/scoring/ops.py:4-11 | twos of `[2, 2, 3, 4, 5]`: 4 as intended, 2 as written |
| ScoringOps.IntendedBonusExample | src/yahtzee_rl/scoring/ops.py:4-11 | three of each face in the six upper categories totals 63, the bonus threshold, as intended, but 18 as written |
| ScoringOps.ThreeOfAKindMeaning | src/yahtzee_rl/scoring/ops.py:143-154 | the pip total when the largest face count is at least 3, else 0 |
| ScoringOps.FourOfAKindMeaning | src/yahtzee_rl/scoring/ops.py:157-168 | the pip total when the largest face count is at least 4, else 0 |
| ScoringOps.FullHouseMeaning | src/yahtzee_rl/scoring/ops.py:170-181 | 25 iff each of the two largest face counts is 2 or 3; otherwise 0 |
| ScoringOps.TwoPairsIsFullHouse | src/yahtzee_rl/scoring/ops.py:44-52 | two pairs and a single, `[2, 2, 3, 3, 4]`, score 25 |
| ScoringOps.TripleAndPairIsFullHouse | src/yahtzee_rl/scoring/ops.py:170-181 | `[2, 2, 2, 5, 5]` scores 25 |
| ScoringOps.FourOfAKindIsNotFullHouse | src/yahtzee_rl/scoring/ops.py:44-52 | `[3, 3, 3, 3, 5]` scores 0 as a full house |
| ScoringOps.FiveOfAKindIsNotFullHouse | src/yahtzee_rl/scoring/ops.py:44-52 | `[5, 5, 5, 5, 5]` scores 0 as a full house |
| ScoringOps.SmallStraightMeaning | src/yahtzee_rl/scoring/ops.py:184-194 | 30 iff one of 1-4, 2-5, 3-6 is wholly present; otherwise 0 |
| ScoringOps.LargeStraightMeaning | src/yahtzee_rl/scoring/ops.py:197-207 | 40 iff 1-5 or 2-6 is wholly present; otherwise 0 |
| ScoringOps.YahtzeeMeaning | src/yahtzee_rl/scoring/ops.py:210-219 | 50 iff all five dice are equal; otherwise 0 |
| ScoringOps.ScoreBounds | src/yahtzee_rl/scoring/ops.py:79-227 | on a hand every category scores between 0 and its most: 5 for an upper category, 30 for three or four of a kind, small straight and chance, 25, 40 and 50 for full house, large straight and Yahtzee |
| ScoringOps.HandSumBounds | src/yahtzee_rl/scoring/ops.py:221-227 | chance of a hand, its pip total, lies between 5 and 30 |
| Scorecard.New | src/yahtzee_rl/scoring/scorecard.py:35-45 | a fresh card has a record for every category, each unmarked with score 0 and no achievement |
| Scorecard.Reset | src/yahtzee_rl/scoring/scorecard.py:47-53 | reset gives exactly a fresh card with turn number 0 |
| Scorecard.MarkScore | src/yahtzee_rl/scoring/scorecard.py:55-72 | refuses a marked category and leaves the card unchanged; otherwise marks it, stores its score for the dice, counts one more achievement and changes nothing else |
| Scorecard.UpperScore | src/yahtzee_rl/scoring/scorecard.py:74-93 | the marked upper total, with 35 added iff that total is at least 63 |
| Scorecard.LowerScore | src/yahtzee_rl/scoring/scorecard.py:95-114 | the marked lower total, plus 100 for each Yahtzee achievement beyond the first |
| Scorecard.FinalScore | src/yahtzee_rl/scoring/scorecard.py:116-123 | the two section totals plus 35 when the upper total reaches 63 and plus 100 for each Yahtzee achievement beyond the first; so at least the two totals, and equal to them iff neither the upper bonus (total below 63) nor a Yahtzee bonus (at most one achievement) is paid |
| Scorecard.CategoryScore | src/yahtzee_rl/scoring/scorecard.py:125-135 | a marked category reports the score it contributes; on a played card an open category reports 0 |
| Scorecard.MarkedTotalUpdate | src/yahtzee_rl/scoring/scorecard.py:86-88 | changing one record changes a section total by exactly that record's change of contribution |
| Scorecard.MarkAddsToSection | src/yahtzee_rl/scoring/scorecard.py:69-72 | marking an open category adds its score to its own section's total and leaves the other section's total alone |
| Scorecard.MarkTwiceRefused | src/yahtzee_rl/scoring/scorecard.py:66-67 | after marking a category, marking it again is refused and the first score stays |
| Scorecard.UnmarkedTotalZero | src/yahtzee_rl/scoring/scorecard.py:84-88 | a card with nothing marked totals 0 over any list of categories |
| Scorecard.FreshCardScoresZero | src/yahtzee_rl/scoring/scorecard.py:116-123 | a fresh or reset card has final score 0, and reset is idempotent |
| Scorecard.PlayedPreserved | src/yahtzee_rl/scoring/scorecard.py:35-72 | constructing, resetting and marking with five-die hands keep the invariant: achievements exactly for marked categories, unmarked scores 0, every score between 0 and its category's most |
| Scorecard.PlayedTotalBound | src/yahtzee_rl/scoring/scorecard.py:86-88 | on such a card a list of upper categories totals at most 5 per category |
| Scorecard.PlayedCardHasNoBonus | src/yahtzee_rl/scoring/scorecard.py:90-112 | on such a card neither bonus is ever paid: the upper total stays at most 30 and the Yahtzee is achieved at most once |
| Scorecard.PlayedSectionBound | src/yahtzee_rl/scoring/scorecard.py:84-88 | on a played card a list of categories totals between 0 and the sum of their most |
| Scorecard.PlayedFinalScore | src/yahtzee_rl/scoring/scorecard.py:116-123 | a played card's final score lies between 0 and 265 (30 upper, 235 lower, no bonus) |
| Matrices.PowerSmall | src/yahtzee_rl/markov/probabilities.py:34-37 | `matrix_power` with exponent 0 is the identity, 1 the matrix, 2 its square |
| Matrices.Power | src/yahtzee_rl/markov/probabilities.py:34-52 | `matrix_power` keeps the square shape; its values are characterised by PowerSmall, PowerStochastic, PowerNonNegative, PowerSubStochastic and PowerAbsorbing |
| Matrices.MatMulIdentity | src/yahtzee_rl/markov/probabilities.py:34-37 | multiplying by the identity changes nothing |
| Matrices.MatVecOneHot | src/yahtzee_rl/markov/probabilities.py:310-312 | a matrix applied to a one-hot state is that state's column |
| Matrices.ColumnOfProduct | src/yahtzee_rl/markov/probabilities.py:312 | a column of a product is the left factor applied to the right factor's column |
| Matrices.StochasticConservesTotal | src/yahtzee_rl/markov/probabilities.py:312 | a column-stochastic matrix keeps the total mass of a distribution |
| Matrices.DotAtMostTotal | src/yahtzee_rl/markov/probabilities.py:312-313 | weights at most 1 over non-negative mass give at most the total mass |
| Matrices.SubStochasticMatVec | src/yahtzee_rl/markov/probabilities.py:312 | a matrix whose columns from a state onwards total at most 1 never increases the mass of a distribution living on those states |
| Matrices.TotalMatVec | src/yahtzee_rl/markov/probabilities.py:312 | the total of a matrix-vector product is the column totals weighted by the vector |
| Matrices.MatMulStochastic | src/yahtzee_rl/markov/probabilities.py:34-42 | a product of column-stochastic matrices is column-stochastic |
| Matrices.MatMulLowerTriangular | src/yahtzee_rl/markov/probabilities.py:34-52 | a product of lower-triangular matrices is lower-triangular |
| Matrices.PowerStochastic | src/yahtzee_rl/markov/probabilities.py:34-42 | every power of a lower-triangular column-stochastic matrix is lower-triangular and column-stochastic |
| Matrices.PowerNonNegative | src/yahtzee_rl/markov/probabilities.py:34-52 | every power of a non-negative lower-triangular matrix is non-negative and lower-triangular |
| Matrices.MatMulSubStochastic | src/yahtzee_rl/markov/probabilities.py:34-52 | products of non-negative lower-triangular matrices whose columns from a state onwards total at most 1 keep that property |
| Matrices.PowerSubStochastic | src/yahtzee_rl/markov/probabilities.py:34-52 | so does every power of such a matrix |
| Matrices.PowerAbsorbing | src/yahtzee_rl/markov/probabilities.py:34-52 | an absorbing last state stays absorbing in every power |
| Matrices.DotBounded | src/yahtzee_rl/markov/probabilities.py:313 | weights in [0, c] over non-negative mass give a weighted sum in [0, c times the mass] |
| Matrices.TailBounds | src/yahtzee_rl/markov/probabilities.py:334 | the mass from a state onwards is between 0 and the total mass |
| Matrices.TailMonotone | src/yahtzee_rl/markov/probabilities.py:333-334 | one more step of a lower-triangular column-stochastic chain never lowers the mass from any state onwards |
| Transitions.RunsIsChain | src/yahtzee_rl/markov/probabilities.py:470-482 | the runs matrix is non-negative, lower-triangular, column-stochastic, with its last state absorbing |
| Transitions.SmallStraightIsChain | src/yahtzee_rl/markov/probabilities.py:485-494 | the small-straight matrix is non-negative, lower-triangular, last state absorbing; its first column sums to 1323/1296, so it gains mass from the first state, and the others to 1 |
| Transitions.LargeStraightIsChain | src/yahtzee_rl/markov/probabilities.py:497-506 | the large-straight matrix is non-negative, lower-triangular, last state absorbing; its first column sums to 1236/1296 and the others to 1, so it never gains mass |
| Transitions.UpperCountIsChain | src/yahtzee_rl/markov/probabilities.py:508-517 | the upper-count matrix is non-negative, lower-triangular, column-stochastic, with its last state absorbing |
| Probabilities.Project | src/yahtzee_rl/markov/probabilities.py:310-312 | the power applied to a one-hot start is the power's column for that start |
| Probabilities.ProjectShape | src/yahtzee_rl/markov/probabilities.py:310-312 | the projected distribution is non-negative, has no mass below the start, and with no rerolls left is the start itself |
| Probabilities.ProjectTotal | src/yahtzee_rl/markov/probabilities.py:310-312 | on a column-stochastic chain the projected distribution has total mass 1 |
| Probabilities.ProjectTotalAtMost | src/yahtzee_rl/markov/probabilities.py:363-366 | on a chain that never gains mass from the start state onwards the projected distribution has total mass at most 1 |
| Probabilities.UpperSectionMarkov | src/yahtzee_rl/markov/probabilities.py:292-314 | a distribution over 0..5 dice with total 1 and no mass below the current count; the expected count lies in [0, 5]; with no rerolls left the distribution is the current count and so is the expectation |
| Probabilities.UpperSectionProbability | src/yahtzee_rl/markov/probabilities.py:97-118 | a probability; 0 for a marked or non-upper category; 1 once the face shows 3 times; with no rerolls left, 1 iff it already does |
| Probabilities.ReachingX | src/yahtzee_rl/markov/probabilities.py:316-334 | a probability; 1 when the target state is already reached; with no rerolls left, 1 iff it is reached and 0 otherwise |
| Probabilities.ReachingXMonotone | src/yahtzee_rl/markov/probabilities.py:316-334 | one more reroll never lowers the chance of reaching a state |
| Probabilities.SimpleThreeOfAKind | src/yahtzee_rl/markov/probabilities.py:392-404 | a probability; 1 once the face shows 3 times; with no rerolls left, 1 iff it does |
| Probabilities.SimpleFourOfAKind | src/yahtzee_rl/markov/probabilities.py:407-419 | a probability; 1 once the face shows 4 times; with no rerolls left, 1 iff it does |
| Probabilities.YahtzeeProbability | src/yahtzee_rl/markov/probabilities.py:459-468 | a probability, and 1 for five equal dice whatever the rerolls |
| Probabilities.TopCountsFullHouse | src/yahtzee_rl/markov/probabilities.py:433-439 | on five dice the two largest counts reach 3 and 2 iff one face shows three times and another twice |
| Probabilities.FullHouseProbability | src/yahtzee_rl/markov/probabilities.py:422-457 | non-negative, at most 1 up to 20 rerolls, 1 for a 3+2 hand; with no rerolls left, 1 for a 3+2 hand and 0 otherwise |
| Probabilities.FullHouseInHandIsCertain | src/yahtzee_rl/markov/probabilities.py:437-439 | a hand holding three of one face and two of another gets probability 1 |
| Probabilities.FullHouseExample | src/yahtzee_rl/markov/probabilities.py:437-439 | `[2, 2, 2, 5, 5]` gets probability 1 for any number of rerolls |
| Probabilities.FirstOverlap | src/yahtzee_rl/markov/probabilities.py:356-359 | the first window, in listed order, that shares a value with the dice; every earlier window shares none |
| Probabilities.FirstCoverage | src/yahtzee_rl/markov/probabilities.py:357-359 | 0 iff no window shares a value with the dice, otherwise the coverage of the first window that does |
| Probabilities.CoveredMass | src/yahtzee_rl/markov/probabilities.py:363-366 | the projected mass in the covered state: non-negative, 0 with no rerolls from below it, at most 1 on a chain that never gains mass from the start |
| Probabilities.StraightProbability | src/yahtzee_rl/markov/probabilities.py:349-390 | non-negative; 0 when no window overlaps; 1 when the first overlapping window is covered, and with no rerolls left 1 iff it is; otherwise the covered-state mass projected from one below its coverage, at most 1 whenever the chain never gains mass from there |
| Probabilities.FromCoverage | src/yahtzee_rl/markov/probabilities.py:360-367 | certain when the window is full, otherwise the covered-state mass from one below the coverage; with no rerolls left 1 iff full; at most 1 on a chain that never gains mass from there |
| Probabilities.SmallStraightProbability | src/yahtzee_rl/markov/probabilities.py:349-368 | between 0 and 1215/1188 for every number of rerolls; 1 when the first overlapping window of 1-4, 2-5, 3-6 is covered, and with no rerolls left 1 iff it is; at most 1 unless exactly one value of that window is shown, and for up to 11 rerolls in any case; from one value it follows the exact table |
| Probabilities.LargeStraightProbability | src/yahtzee_rl/markov/probabilities.py:370-390 | a probability in [0, 1]; 1 when the first overlapping window of 1-5, 2-6 is covered, and with no rerolls left 1 iff it is |
| Probabilities.SmallFromOneIsProject | src/yahtzee_rl/markov/probabilities.py:363-366 | the exact table for a start at one covered value equals the matrix power applied to that start, for 0 to 12 rerolls |
| Probabilities.SmallMassInvariant | src/yahtzee_rl/markov/probabilities.py:485-494 | from the first state, the total mass plus 27/1188 of the mass left in the first state stays exactly 1215/1188 after any number of rerolls |
| Probabilities.SmallMassStep | src/yahtzee_rl/markov/probabilities.py:365 | one reroll of the small-straight matrix keeps that quantity |
| Probabilities.SmallFromStartBound | src/yahtzee_rl/markov/probabilities.py:363-366 | from the first state the covered-state mass never exceeds 1215/1188 |
| Probabilities.SmallStraightExceedsOne | src/yahtzee_rl/markov/probabilities.py:485-494 | `[1, 1, 1, 1, 1]` covers one value of 1-4, and with 12 rerolls its small-straight value exceeds 1 |
| Probabilities.SmallStraightChance | src/yahtzee_rl/markov/probabilities.py:349-368 | a probability in [0, 1]; equal to the source's value wherever that is at most 1, in particular for up to 11 rerolls; 1 when covered; with no rerolls left 1 iff covered |
| Probabilities.SmallStraightFirstWindow | src/yahtzee_rl/markov/probabilities.py:356-367 | `[1, 3, 4, 5, 6]` scores 30 as a small straight but, judged against 1-4 at coverage 3, has probability 0 with no rerolls left |
| Probabilities.LargeStraightFirstWindow | src/yahtzee_rl/markov/probabilities.py:378-389 | `[2, 3, 4, 5, 6]` scores 40 as a large straight but, judged against 1-5, has probability 0 with no rerolls left |
| Probabilities.ComboProbability | src/yahtzee_rl/markov/probabilities.py:74-91 | non-negative; 0 for upper categories; 1 for chance; the small straight is the source's uncapped value; at most 1 except the full house beyond 20 rerolls and the small straight beyond 11 rerolls from one covered value; at most 1215/1188 except the full house beyond 20 rerolls |
| Probabilities.LowerSectionProbability | src/yahtzee_rl/markov/probabilities.py:58-93 | non-negative, with the same upper bounds as ComboProbability; 0 for upper categories and for marked ones except the small straight, which is never checked for a mark and is the source's uncapped value; chance is certain while open |
| Probabilities.AlreadyScoredIsCertain | src/yahtzee_rl/markov/probabilities.py:74-89 | dice already scoring in an open three of a kind, four of a kind or Yahtzee make it certain |
| ExpectedScores.Denominator | src/yahtzee_rl/markov/probabilities.py:136-137 | positive; 375 minus the final score while that is positive, exactly 375 once the final score reaches 375 |
| ExpectedScores.UpperWeight | src/yahtzee_rl/markov/probabilities.py:138-141 | the urgency weight is non-negative iff the upper score is at most 378, at least 1 iff it is at most 63, and at most 1.2 for a non-negative upper score |
| ExpectedScores.UpperExpectedScore | src/yahtzee_rl/markov/probabilities.py:121-145 | 0 for a marked or non-upper category; non-negative; with no rerolls left, face times the current count, weighted, over the denominator |
| ExpectedScores.PlayedUpperExpected | src/yahtzee_rl/markov/probabilities.py:136-145 | on a card played through its own operations an open upper category is valued at least face times current count over the denominator |
| ExpectedScores.LowerExpectedScore | src/yahtzee_rl/markov/probabilities.py:149-202 | non-negative; 0 for upper categories and marked three/four of a kind, full house, large straight; otherwise the category's probability times its points over the denominator: the pip total for three/four of a kind and chance, 25 and 40 for full house and large straight, 30 times the uncapped small-straight value, Yahtzee 50 open, 100 marked and achieved, 0 marked and never achieved; small straight and chance valued even when marked |
| ExpectedScores.ScoringHandExpected | src/yahtzee_rl/markov/probabilities.py:186-193 | dice already scoring in an open three of a kind, four of a kind or Yahtzee are valued at that score over the denominator |
| ExpectedScores.UpperProbVector | src/yahtzee_rl/markov/probabilities.py:206-223 | six probabilities in [0, 1], 0 where marked, 1 where the face already shows 3 times and the category is open |
| ExpectedScores.UpperExpectedVector | src/yahtzee_rl/markov/probabilities.py:226-247 | six entries, 0 where marked, non-negative when the upper score is at most 378, and with no rerolls left the weighted face times current count |
| ExpectedScores.LowerProbVector | src/yahtzee_rl/markov/probabilities.py:250-267 | seven non-negative entries, at most 1 except the full house beyond 20 rerolls and the small straight beyond 11 rerolls from one covered value, and at most 1215/1188 except that full house; 0 where marked except the small straight, which is the uncapped value; chance certain while open |
| ExpectedScores.LowerExpectedVector | src/yahtzee_rl/markov/probabilities.py:270-289 | seven non-negative entries, 0 for marked three/four of a kind, full house and large straight; chance is the pip total over the denominator |
| ExpectedScores.PlayedDenominator | src/yahtzee_rl/markov/probabilities.py:136-137 | on a played card at least 110 points are still available |
| ExpectedScores.ShareAtMostOne | src/yahtzee_rl/markov/probabilities.py:187-195 | a probability times at most the available points, over them, is at most 1 |
| ExpectedScores.ShareOfSurplusAtMostOne | src/yahtzee_rl/markov/probabilities.py:187-195 | a value up to 2 times at most half the available points, over them, is at most 1 |
| ExpectedScores.PlayedUpperExpectedBounded | src/yahtzee_rl/markov/probabilities.py:121-145 | on a played card every upper expected score lies in [0, 1] |
| ExpectedScores.PlayedLowerExpectedBounded | src/yahtzee_rl/markov/probabilities.py:149-202 | on a played card, up to 20 rerolls, every lower expected score lies in [0, 1] |
| ExpectedScores.PlayedUpperVectorBounded | src/yahtzee_rl/markov/probabilities.py:226-247 | on a played card every entry of the upper expected-score vector lies in [0, 1] |
| ExpectedScores.PlayedLowerVectorBounded | src/yahtzee_rl/markov/probabilities.py:270-289 | on a played card, up to 20 rerolls, every entry of the lower expected-score vector lies in [0, 1] |
| Sequences.SelectPartition | src/yahtzee_rl/markov/lookaheads.py:173-176 | the kept and rerolled dice together are the roll, nothing lost or duplicated |
| Sequences.SelectOrder | src/yahtzee_rl/markov/lookaheads.py:173-176 | each selection lists, in strictly increasing order, exactly the positions of the roll whose mask bit matches, so roll order is kept and no matching die is skipped |
| Sequences.SelectMembers | src/yahtzee_rl/markov/lookaheads.py:173-176 | a value is selected iff some die with that value has the matching mask bit |
| Sequences.SelectCountUniform | src/yahtzee_rl/markov/lookaheads.py:173-176 | when every copy of a value has the same mask bit, the selection holds all its copies if that bit is picked and none otherwise |
| KeepAdvisor.ResolveMove | src/yahtzee_rl/markov/lookaheads.py:61-68 | a category is used as is; a string becomes the category carrying it, or an invalid-category error when none does |
| KeepAdvisor.TopFace | src/yahtzee_rl/markov/lookaheads.py:79-85 | the target face occurs in roll and withheld dice, no face occurs more often, and every face appearing after it occurs strictly less often |
| KeepAdvisor.SecondFace | src/yahtzee_rl/markov/lookaheads.py:99-105 | none iff only the top face occurs; otherwise a different face, as frequent as any other non-top face, strictly more than any later one |
| KeepAdvisor.BestWindow | src/yahtzee_rl/markov/lookaheads.py:120-138 | the first window reaching the largest coverage of roll and withheld dice |
| KeepAdvisor.GreedyKeep | src/yahtzee_rl/markov/lookaheads.py:124-128 | a die is kept iff its value is still needed and it is that value's first occurrence in the roll |
| KeepAdvisor.KeepMask | src/yahtzee_rl/markov/lookaheads.py:70-171 | fails only for a branch needing a maximum with no dice at all; otherwise keeps, per category, the dice of the face, of the top face(s), of the greedy window pass, or at least the maximum |
| KeepAdvisor.DetermineKeepPositions | src/yahtzee_rl/markov/lookaheads.py:61-71 | an invalid name gives that error, and a category needing a maximum fails only when there are no dice at all; otherwise the new withheld dice start with the old ones, and withheld plus rerolled dice are exactly the old withheld plus the roll (which rolled dice are kept is stated by AdviceKeepsRollOrder and the per-category keep lemmas) |
| KeepAdvisor.AdviceKeepsRollOrder | src/yahtzee_rl/markov/lookaheads.py:173-179 | the newly kept dice and the rerolled dice are read off two strictly increasing lists of roll positions, every position of the roll is on exactly one of the two, and a position is kept iff the category's keep mask picks it |
| KeepAdvisor.UpperKeep | src/yahtzee_rl/markov/lookaheads.py:74-78 | for an upper category exactly the rolled dice showing its face are kept |
| KeepAdvisor.OfAKindKeep | src/yahtzee_rl/markov/lookaheads.py:79-92 | for the of-a-kind categories and Yahtzee exactly the rolled dice showing the top face are kept |
| KeepAdvisor.StraightKeep | src/yahtzee_rl/markov/lookaheads.py:110-159 | for a straight the kept values are distinct, and are exactly the rolled values in the pursued window that are not withheld |
| KeepAdvisor.FullHouseKeep | src/yahtzee_rl/markov/lookaheads.py:93-109 | for a full house each value is kept as often as the roll shows it when it is the top face or the second face, and never otherwise |
| KeepAdvisor.ChanceKeep | src/yahtzee_rl/markov/lookaheads.py:167-171 | for chance each value is kept as often as the roll shows it when it is at least the highest die of roll and withheld dice, and never otherwise |
| KeepAdvisor.ChanceBlockedByWithheld | src/yahtzee_rl/markov/lookaheads.py:167-171 | for chance a withheld die above every rolled die means nothing is kept and the whole roll is rerolled |
| KeepAdvisor.InvalidNameRefused | src/yahtzee_rl/markov/lookaheads.py:62-67 | the name "sevens" is refused with an invalid-category error naming it |
| KeepAdvisor.NameMeansCategory | src/yahtzee_rl/markov/lookaheads.py:62-68 | a category's value gives the same advice as the category itself |
| KeepAdvisor.AcesExample | src/yahtzee_rl/markov/lookaheads.py:55-59 | keeping for aces from `[1, 2, 3, 1, 5]` keeps `[1, 1]` and rerolls `[2, 3, 5]` |
| KeepAdvisor.OfAKindTieGoesLast | src/yahtzee_rl/markov/lookaheads.py:79-85 | with 2 and 5 both shown twice in `[2, 2, 5, 5, 1]`, the later face 5 is pursued |
| KeepAdvisor.SmallStraightExample | src/yahtzee_rl/markov/lookaheads.py:110-138 | from `[1, 2, 3, 4, 6]` the small straight keeps `[1, 2, 3, 4]` and rerolls `[6]` |

## Left out

- `dice_roll` and `main` (src/yahtzee_rl/__init__.py:67-82): random sampling and printing, no stateable behaviour.
- The `lru_cache` wrappers around the matrix powers: memoisation is transparent, so `Power` is a plain recursive function.
- `float32` casts and floating-point rounding: the model computes with exact rationals.
- The unused constants `MAX_DICE_SUM` and `MEAN_DICE_SUM`.
- The scorecard's stored scorer callables and section tags: the scorer is `ScoringOps.Score` by category, the section is `Categories.IsUpper`.
- numpy masked arrays in the keep advisor: modelled as the in-order filter `Sequences.Select`.
- A move that is neither a string nor a category: excluded by the `Move` datatype.
- The turn number is carried but no operation other than construction and reset touches it.
- Probabilities.ReachingX, Probabilities.SimpleThreeOfAKind, Probabilities.SimpleFourOfAKind: require the face to occur at least once. With a count of 0 the source indexes state −1, which wraps to the last state; every caller passes a face that occurs.
- Probabilities.UpperSectionMarkov: requires a five-die hand with faces 1..6, as do all probability and expected-score functions. A count above 5 would index outside the state vector in the source.
- Probabilities.FullHouseProbability: bounded by 1 only up to 20 rerolls, because the all-singles approximation 0.05 × r exceeds 1 beyond that.
- Probabilities.StraightProbability: the upper bound of 1 is stated only for chains that never gain mass from the start state, since the small-straight matrix does. "1 iff covered" is stated for no rerolls left; with rerolls left only "covered implies 1" is stated.
- Probabilities.SmallStraightProbability: at most 1 only up to 11 rerolls or from a start above one covered value; the value from one covered value is given exactly only up to 12 rerolls.
- ExpectedScores.LowerProbVector, ExpectedScores.PlayedLowerExpectedBounded, ExpectedScores.PlayedLowerVectorBounded, Probabilities.ComboProbability, Probabilities.LowerSectionProbability: the full-house entry is bounded only up to 20 rerolls, for the reason given for FullHouseProbability; the small-straight entry is bounded by 1 only where SmallStraightProbability is, and otherwise by 1215/1188.
- ExpectedScores.UpperExpectedVector, ExpectedScores.LowerExpectedVector: entries are bounded above by 1 only on cards built by the scorecard's own operations (`Scorecard.Played`), in PlayedUpperVectorBounded and PlayedLowerVectorBounded; an arbitrary card can total more than 375 or carry scores no hand gives.
- KeepAdvisor.KeepMask: a branch that takes a maximum over no dice at all raises in the source (an empty `reduce` or `np.max`); the model returns `EmptyDice` instead.
- ExpectedScores.UpperExpectedScore: non-negativity is stated only for an upper score of at most 378; above that the urgency weight is negative. Cards played through their own operations never exceed 30.

## Findings

| source | as written | input that shows it | evidently intended | confidence | as-written member | corrected member |
|---|---|---|---|---|---|---|
| src/yahtzee_rl/markov/probabilities.py:485-494 | the first column of the small-straight matrix totals 1323/1296, so mass in the first state grows each reroll and the value read from the covered state can exceed 1 | dice `[1, 1, 1, 1, 1]` with 12 rerolls: 1121038927696885176546931/1119186718586212624367616, about 1.0017 | a probability in [0, 1], as the vector's docstring (probabilities.py:252-254) promises | not executed | Probabilities.SmallStraightExceedsOne | Probabilities.SmallStraightChance |
| src/yahtzee_rl/scoring/ops.py:4-11 | `np.sum(dice == target)` counts the matching dice, so every upper category scores at most 5 and the 63-point upper bonus can never be paid (`Scorecard.PlayedCardHasNoBonus`) | `twos([2, 2, 3, 4, 5])` is 2; the repository's tests expect 4, and three of each face 63 | face times the number of matching dice | not executed | ScoringOps.IntendedTwosExample | ScoringOps.UpperScoreIntended |

The lower-section functions keep the as-written small-straight value and the scorecard keeps counted upper scores, so that they model the code; the corrected members are stated beside them.

=== FILE: categories.dfy ===
/** The thirteen scoring categories of the game and their fixed
    upper/lower partition (src/yahtzee_rl/__init__.py). */
module Categories {
  import opened Wrappers
  import opened Sequences

  datatype Category =
    | Aces | Twos | Threes | Fours | Fives | Sixes
    | ThreeOfAKind | FourOfAKind | FullHouse
    | SmallStraight | LargeStraight | Yahtzee | Chance

  /** The string value each enumeration member carries. */
  function Name(c: Category): string
  {
    match c
    case Aces => "aces"
    case Twos => "twos"
    case Threes => "threes"
    case Fours => "fours"
    case Fives => "fives"
    case Sixes => "sixes"
    case ThreeOfAKind => "three_of_a_kind"
    case FourOfAKind => "four_of_a_kind"
    case FullHouse => "full_house"
    case SmallStraight => "small_straight"
    case LargeStraight => "large_straight"
    case Yahtzee => "yahtzee"
    case Chance => "chance"
  }

  /** `Category(s)`: the member whose value is `s`, if there is one. */
  function FromName(s: string): (r: Option<Category>)
    ensures r.Some? ==> Name(r.value) == s
    ensures r.None? ==> forall c: Category :: Name(c) != s
  {
    if s == "aces" then Some(Aces)
    else if s == "twos" then Some(Twos)
    else if s == "threes" then Some(Threes)
    else if s == "fours" then Some(Fours)
    else if s == "fives" then Some(Fives)
    else if s == "sixes" then Some(Sixes)
    else if s == "three_of_a_kind" then Some(ThreeOfAKind)
    else if s == "four_of_a_kind" then Some(FourOfAKind)
    else if s == "full_house" then Some(FullHouse)
    else if s == "small_straight" then Some(SmallStraight)
    else if s == "large_straight" then Some(LargeStraight)
    else if s == "yahtzee" then Some(Yahtzee)
    else if s == "chance" then Some(Chance)
    else None
  }

  /** Every category has a distinct value, and parsing a value gives its member back. */
  lemma NameRoundTrip(c: Category)
    ensures FromName(Name(c)) == Some(c)
  {
  }

  /** `is_valid`: membership of `s` among the thirteen values. */
  predicate IsValid(s: string): (ok: bool)
    ensures ok <==> exists c: Category :: Name(c) == s
  {
    match FromName(s)
    case Some(c) => assert Name(c) == s; true
    case None => false
  }

  /** The upper section: the six face categories. */
  predicate IsUpper(c: Category)
  {
    c.Aces? || c.Twos? || c.Threes? || c.Fours? || c.Fives? || c.Sixes?
  }

  /** The die face an upper category collects. */
  function Face(c: Category): (f: int)
    requires IsUpper(c)
    ensures 1 <= f <= 6
  {
    match c
    case Aces => 1
    case Twos => 2
    case Threes => 3
    case Fours => 4
    case Fives => 5
    case Sixes => 6
  }

  function UpperCategories(): (r: seq<Category>)
    ensures |r| == 6
    ensures forall i :: 0 <= i < |r| ==> IsUpper(r[i]) && Face(r[i]) == i + 1
  {
    [Aces, Twos, Threes, Fours, Fives, Sixes]
  }

  function LowerCategories(): (r: seq<Category>)
    ensures |r| == 7
    ensures forall i :: 0 <= i < |r| ==> !IsUpper(r[i])
  {
    [ThreeOfAKind, FourOfAKind, FullHouse, SmallStraight, LargeStraight, Yahtzee, Chance]
  }

  /** The enumeration in declaration order, as the scorecard lists it. */
  function AllCategories(): seq<Category>
  {
    UpperCategories() + LowerCategories()
  }

  /** The position of a category in declaration order. */
  function Index(c: Category): (k: nat)
    ensures k < 13 && AllCategories()[k] == c
  {
    match c
    case Aces => 0
    case Twos => 1
    case Threes => 2
    case Fours => 3
    case Fives => 4
    case Sixes => 5
    case ThreeOfAKind => 6
    case FourOfAKind => 7
    case FullHouse => 8
    case SmallStraight => 9
    case LargeStraight => 10
    case Yahtzee => 11
    case Chance => 12
  }

  /** The two sections are disjoint, neither repeats a category, and together
      they hold every category; the upper list is exactly the upper categories. */
  lemma PartitionComplete()
    ensures NoDuplicates(AllCategories())
    ensures forall c: Category :: c in AllCategories()
    ensures forall c: Category :: c in UpperCategories() <==> IsUpper(c)
    ensures forall c: Category :: c in LowerCategories() <==> !IsUpper(c)
    ensures forall c :: c in UpperCategories() ==> c !in LowerCategories()
  {
    forall c: Category
      ensures c in AllCategories()
    {
      assert AllCategories()[Index(c)] == c;
    }
  }

  function UpperCategoryNames(): seq<string>
  {
    seq(6, i requires 0 <= i < 6 => Name(UpperCategories()[i]))
  }

  function LowerCategoryNames(): seq<string>
  {
    seq(7, i requires 0 <= i < 7 => Name(LowerCategories()[i]))
  }

  /** `CATEGORY_NAMES`: upper names then lower names. */
  function CategoryNames(): seq<string>
  {
    UpperCategoryNames() + LowerCategoryNames()
  }

  /** The name list has thirteen distinct entries, in enumeration order, and a
      string is valid exactly when it is on the list. */
  lemma CategoryNamesComplete(s: string)
    ensures |CategoryNames()| == 13
    ensures forall i :: 0 <= i < 13 ==> CategoryNames()[i] == Name(AllCategories()[i])
    ensures NoDuplicates(CategoryNames())
    ensures s in CategoryNames() <==> IsValid(s)
  {
    var names := CategoryNames();
    forall i | 0 <= i < 13
      ensures names[i] == Name(AllCategories()[i])
    {
    }
    forall i, j | 0 <= i < j < 13
      ensures names[i] != names[j]
    {
      NameRoundTrip(AllCategories()[i]);
      NameRoundTrip(AllCategories()[j]);
    }
    if IsValid(s) {
      var c := FromName(s).value;
      assert names[Index(c)] == s;
    }
    if s in names {
      var k :| 0 <= k < 13 && names[k] == s;
      NameRoundTrip(AllCategories()[k]);
    }
  }
}

=== FILE: dice.dfy ===
/** Counting primitives over dice: `dice_count` (a Counter, whose keys keep
    first-appearance order), the sorted list of its counts, the argmax rules
    the callers apply to it, and the window coverage of the straight checks
    (src/yahtzee_rl/scoring/ops.py, src/yahtzee_rl/markov/probabilities.py). */
module Dice {
  import opened Sequences

  /** A five-die hand, each die showing a face 1..6. */
  predicate IsHand(d: seq<int>)
  {
    |d| == 5 && forall i :: 0 <= i < |d| ==> 1 <= d[i] <= 6
  }

  /** How many dice show `x`. */
  function Count(s: seq<int>, x: int): nat
  {
    multiset(s)[x]
  }

  lemma CountBound(s: seq<int>, x: int)
    ensures Count(s, x) <= |s|
    ensures x !in s ==> Count(s, x) == 0
  {
    assert multiset(s)[x] <= |multiset(s)|;
  }

  /** Two different faces together cannot be counted more often than there are dice. */
  lemma {:induction false} CountPairBound(s: seq<int>, x: int, y: int)
    requires x != y
    ensures Count(s, x) + Count(s, y) <= |s|
    decreases |s|
  {
    if |s| > 0 {
      CountPairBound(s[1..], x, y);
      assert s == [s[0]] + s[1..];
    }
  }

  /** When every die shows the same face, that face is counted on every die. */
  lemma {:induction false} AllSameCount(s: seq<int>, v: int)
    requires forall i :: 0 <= i < |s| ==> s[i] == v
    ensures Count(s, v) == |s|
    decreases |s|
  {
    if |s| > 0 {
      AllSameCount(s[1..], v);
      assert s == [s[0]] + s[1..];
    }
  }

  /** Position of the first occurrence of `x`. */
  function FirstIndex(s: seq<int>, x: int): (k: nat)
    requires x in s
    ensures k < |s| && s[k] == x
    ensures forall j :: 0 <= j < k ==> s[j] != x
  {
    if s[0] == x then 0 else 1 + FirstIndex(s[1..], x)
  }

  /** The faces of `s` without repetition, in order of first appearance:
      the key order of a Python Counter built from `s`. */
  function Distinct(s: seq<int>): (r: seq<int>)
    ensures NoDuplicates(r)
    ensures forall x :: x in r <==> x in s
    ensures forall i, j :: 0 <= i < j < |r| ==> FirstIndex(s, r[i]) < FirstIndex(s, r[j])
    ensures |r| <= |s|
  {
    if |s| == 0 then []
    else
      var s' := s[..|s| - 1];
      var p := Distinct(s');
      assert s == s' + [s[|s| - 1]];
      assert forall x :: x in s' ==> FirstIndex(s, x) == FirstIndex(s', x);
      if s[|s| - 1] in p then p
      else
        assert FirstIndex(s, s[|s| - 1]) == |s| - 1;
        p + [s[|s| - 1]]
  }

  /** `dice_count(s).values()`: the count of each distinct face, in key order. */
  function CountValues(s: seq<int>): (r: seq<int>)
    ensures |r| == |Distinct(s)|
    ensures forall i :: 0 <= i < |r| ==> r[i] == Count(s, Distinct(s)[i]) >= 1
  {
    var d := Distinct(s);
    forall i | 0 <= i < |d|
      ensures d[i] in multiset(s)
    {
      assert d[i] in d;
    }
    seq(|d|, i requires 0 <= i < |d| => Count(s, d[i]))
  }

  /** `sorted(dice_count(s).values(), reverse=True)`. */
  function SortedCounts(s: seq<int>): seq<int>
  {
    SortDesc(CountValues(s))
  }

  /** The largest count belongs to some die and bounds every face's count. */
  lemma TopCount(s: seq<int>)
    requires |s| > 0
    ensures |SortedCounts(s)| >= 1
    ensures forall x :: Count(s, x) <= SortedCounts(s)[0]
    ensures exists i :: 0 <= i < |s| && Count(s, s[i]) == SortedCounts(s)[0]
  {
    var d := Distinct(s);
    assert s[0] in d;
    forall x
      ensures Count(s, x) <= SortedCounts(s)[0]
    {
      if x in s {
        var k :| 0 <= k < |d| && d[k] == x;
        SortedHeadIsMax(SortedCounts(s), CountValues(s), k);
      } else {
        CountBound(s, x);
        SortedHeadIsMax(SortedCounts(s), CountValues(s), 0);
      }
    }
    var i, j := SortedTopTwoFromOne(SortedCounts(s), CountValues(s));
    var m := FirstIndex(s, d[i]);
  }

  lemma SortedTopTwoFromOne(st: seq<int>, cs: seq<int>) returns (i: nat, j: nat)
    requires SortDesc(cs) == st && |st| >= 1
    ensures i < |cs| && cs[i] == st[0]
  {
    assert st[0] in multiset(cs);
    i := InMultiset(cs, st[0]);
    j := 0;
  }

  /** There is a second count exactly when two different faces occur; it is at
      least the smaller count of any two different faces, and the two largest
      counts belong to two different faces. */
  lemma SecondCount(s: seq<int>, x: int, y: int)
    requires x in s && y in s && x != y
    ensures |SortedCounts(s)| >= 2
    ensures SortedCounts(s)[1] >= Count(s, x) || SortedCounts(s)[1] >= Count(s, y)
  {
    var d := Distinct(s);
    var i :| 0 <= i < |d| && d[i] == x;
    var j :| 0 <= j < |d| && d[j] == y;
    SortedSecondBound(SortedCounts(s), CountValues(s), i, j);
  }

  lemma TopTwoFaces(s: seq<int>) returns (a: int, b: int)
    requires |SortedCounts(s)| >= 2
    ensures a in s && b in s && a != b
    ensures Count(s, a) == SortedCounts(s)[0] && Count(s, b) == SortedCounts(s)[1]
  {
    var d := Distinct(s);
    var i, j := SortedTopTwoFrom(SortedCounts(s), CountValues(s));
    a, b := d[i], d[j];
  }

  /** Index, in `fs`, of the face that Python's `max(counts, key=counts.get)`
      returns: a face of largest count, the first one on ties. */
  function FirstMaxIndex(fs: seq<int>, s: seq<int>): (k: nat)
    requires |fs| > 0
    ensures k < |fs|
    ensures forall j :: 0 <= j < |fs| ==> Count(s, fs[j]) <= Count(s, fs[k])
    ensures forall j :: 0 <= j < k ==> Count(s, fs[j]) < Count(s, fs[k])
  {
    if |fs| == 1 then 0
    else
      var k := FirstMaxIndex(fs[..|fs| - 1], s);
      if Count(s, fs[|fs| - 1]) > Count(s, fs[k]) then |fs| - 1 else k
  }

  /** Index, in `fs`, of the face that `reduce(lambda x, y: x if x[1] > y[1] else y)`
      returns: a face of largest count, the last one on ties. */
  function LastMaxIndex(fs: seq<int>, s: seq<int>): (k: nat)
    requires |fs| > 0
    ensures k < |fs|
    ensures forall j :: 0 <= j < |fs| ==> Count(s, fs[j]) <= Count(s, fs[k])
    ensures forall j :: k < j < |fs| ==> Count(s, fs[j]) < Count(s, fs[k])
  {
    if |fs| == 1 then 0
    else
      var k := LastMaxIndex(fs[..|fs| - 1], s);
      if Count(s, fs[k]) > Count(s, fs[|fs| - 1]) then k else |fs| - 1
  }

  /** The most frequent face of the hand, the first in Counter order on ties. */
  function MostCommonFace(s: seq<int>): (f: int)
    requires |s| > 0
    ensures f in s && Count(s, f) >= 1
    ensures forall x :: Count(s, x) <= Count(s, f)
  {
    var d := Distinct(s);
    assert s[0] in d;
    var f := d[FirstMaxIndex(d, s)];
    assert f in multiset(s);
    assert forall x :: Count(s, x) <= Count(s, f) by {
      forall x
        ensures Count(s, x) <= Count(s, f)
      {
        if x in s {
          var j :| 0 <= j < |d| && d[j] == x;
        } else {
          CountBound(s, x);
        }
      }
    }
    f
  }

  /** The most frequent face attains the largest sorted count. */
  lemma MostCommonIsTop(s: seq<int>)
    requires |s| > 0
    ensures Count(s, MostCommonFace(s)) == SortedCounts(s)[0]
  {
    TopCount(s);
    var i :| 0 <= i < |s| && Count(s, s[i]) == SortedCounts(s)[0];
  }

  /** Largest element, `np.max`. */
  function MaxValue(s: seq<int>): (m: int)
    requires |s| > 0
    ensures m in s
    ensures forall i :: 0 <= i < |s| ==> s[i] <= m
  {
    if |s| == 1 then s[0]
    else
      var m := MaxValue(s[1..]);
      assert forall i :: 1 <= i < |s| ==> s[i] == s[1..][i - 1];
      if s[0] >= m then s[0] else m
  }

  /** Number of values of the window `w` present in `s`: the size of
      `np.intersect1d(s, w)` for a window without repeated values. */
  function Coverage(s: seq<int>, w: seq<int>): (n: nat)
    ensures n <= |w|
  {
    if |w| == 0 then 0 else (if w[0] in s then 1 else 0) + Coverage(s, w[1..])
  }

  /** Full coverage means every window value is present; any coverage means
      some window value is present. */
  lemma {:induction false} CoverageMeaning(s: seq<int>, w: seq<int>)
    ensures Coverage(s, w) == |w| <==> forall i :: 0 <= i < |w| ==> w[i] in s
    ensures Coverage(s, w) > 0 <==> exists i :: 0 <= i < |w| && w[i] in s
  {
    if |w| > 0 {
      CoverageMeaning(s, w[1..]);
      assert forall i :: 1 <= i < |w| ==> w[i] == w[1..][i - 1];
      if exists i :: 0 <= i < |w| && w[i] in s {
        var i :| 0 <= i < |w| && w[i] in s;
        if i > 0 {
          assert w[1..][i - 1] in s;
        }
      }
    }
  }

  /** The pip total of the hand. */
  function DiceSum(s: seq<int>): int
  {
    Sum(s)
  }
}

=== FILE: expected.dfy ===
/** Expected scores and the observation vectors built from the probability
    engine (src/yahtzee_rl/markov/probabilities.py). */
module ExpectedScores {
  import opened Categories
  import opened Sequences
  import opened Dice
  import opened ScoringOps
  import opened Scorecard
  import opened Probabilities

  /** Points still available on a card, counted against a 375-point ceiling;
      once the card reaches the ceiling the full 375 is used instead. */
  function Denominator(b: Board): (d: real)
    requires WellFormed(b)
    ensures d > 0.0
    ensures d >= 375.0 - FinalScore(b) as real
    ensures FinalScore(b) < 375 ==> d + FinalScore(b) as real == 375.0
    ensures FinalScore(b) >= 375 ==> d == 375.0
  {
    var remaining := 375.0 - FinalScore(b) as real;
    if remaining > 0.0 then remaining else 375.0
  }

  /** The upper-section urgency weight `1 + 0.2 * (63 - upper) / 63`: larger the
      further the upper score is from the bonus threshold. */
  function UpperWeight(b: Board): (w: real)
    requires WellFormed(b)
    ensures UpperScore(b) <= 378 <==> w >= 0.0
    ensures UpperScore(b) <= 63 <==> w >= 1.0
    ensures UpperScore(b) >= 0 ==> w <= 1.2
  {
    1.0 + 0.2 * ((63.0 - UpperScore(b) as real) / 63.0)
  }

  /** `x * y * z / d`, the shape of every expected score. */
  function Scaled(x: real, y: real, z: real, d: real): (s: real)
    requires d > 0.0
    ensures x >= 0.0 && y >= 0.0 && z >= 0.0 ==> s >= 0.0
  {
    assert x >= 0.0 && y >= 0.0 ==> x * y >= 0.0;
    assert x * y >= 0.0 && z >= 0.0 ==> x * y * z >= 0.0;
    x * y * z / d
  }

  /** `p * points / d`: a probability times the points it pays, over the
      points still available. */
  function Share(p: real, points: real, d: real): (s: real)
    requires d > 0.0
    ensures p >= 0.0 && points >= 0.0 ==> s >= 0.0
    ensures p == 1.0 ==> s == points / d
  {
    assert p >= 0.0 && points >= 0.0 ==> p * points >= 0.0;
    p * points / d
  }

  /** A probability times at most the points still available is at most 1. */
  lemma ShareAtMostOne(p: real, points: real, d: real)
    requires 0.0 <= p <= 1.0 && 0.0 <= points <= d && d > 0.0
    ensures Share(p, points, d) <= 1.0
  {
    assert (1.0 - p) * points >= 0.0;
    assert p * points <= d;
    RatioAtMostOne(p * points, d);
  }

  /** Likewise for a value up to 2 paying at most half the points available. */
  lemma ShareOfSurplusAtMostOne(p: real, points: real, d: real)
    requires 0.0 <= p <= 2.0 && 0.0 <= 2.0 * points <= d && d > 0.0
    ensures Share(p, points, d) <= 1.0
  {
    assert (2.0 - p) * points >= 0.0;
    assert p * points <= d;
    RatioAtMostOne(p * points, d);
  }

  lemma RatioAtMostOne(x: real, d: real)
    requires x <= d && d > 0.0
    ensures x / d <= 1.0
  {
    var q := x / d;
    assert q * d == x;
    assert (1.0 - q) * d == d - x;
  }

  /** A face of at most 6, an expected count of at most 5 and a weight of at
      most 1.2 give at most 36 points, at most 1 over 36 or more available. */
  lemma ScaledAtMostOne(x: real, y: real, z: real, d: real)
    requires 0.0 <= x <= 6.0 && 0.0 <= y <= 5.0 && 0.0 <= z <= 1.2 && d >= 36.0
    ensures Scaled(x, y, z, d) <= 1.0
  {
    assert (6.0 - x) * y >= 0.0;
    assert x * y <= 30.0;
    assert (30.0 - x * y) * z >= 0.0;
    assert x * y * z <= 36.0;
    RatioAtMostOne(x * y * z, d);
  }

  /** A weight of at least 1 does not lower the scaled value. */
  lemma ScaledAtLeast(x: real, y: real, z: real, d: real)
    requires x >= 0.0 && y >= 0.0 && z >= 1.0 && d > 0.0
    ensures Scaled(x, y, z, d) >= Share(x, y, d)
  {
    assert x * y >= 0.0;
    assert x * y * z >= x * y;
  }

  /** `upper_section_expected_score`: face times the expected count of the face,
      weighted by urgency, over the points still available; 0 for a marked or
      non-upper category. */
  function UpperExpectedScore(dice: seq<int>, b: Board, c: Category, r: nat): (e: real)
    requires IsHand(dice) && WellFormed(b)
    ensures !IsUpper(c) || IsMarked(b, c) ==> e == 0.0
    ensures UpperScore(b) <= 378 ==> e >= 0.0
    ensures IsUpper(c) && !IsMarked(b, c) && r == 0 ==>
      e == Scaled(Face(c) as real, Count(dice, Face(c)) as real, UpperWeight(b), Denominator(b))
  {
    if !IsUpper(c) || IsMarked(b, c) then 0.0
    else
      var expected := UpperSectionMarkov(dice, c, r).expected;
      Scaled(Face(c) as real, expected, UpperWeight(b), Denominator(b))
  }

  /** On a card played through its own operations the urgency weight is at
      least 1, so with no rerolls left every open upper category is valued at
      no less than its face times the dice already showing it, over the points
      still available. */
  lemma PlayedUpperExpected(dice: seq<int>, b: Board, c: Category)
    requires IsHand(dice) && Played(b) && IsUpper(c) && !IsMarked(b, c)
    ensures UpperExpectedScore(dice, b, c, 0) >=
      Share(Face(c) as real, Count(dice, Face(c)) as real, Denominator(b))
  {
    PlayedWeight(b);
    ScaledAtLeast(Face(c) as real, Count(dice, Face(c)) as real, UpperWeight(b), Denominator(b));
  }

  lemma PlayedWeight(b: Board)
    requires Played(b)
    ensures UpperWeight(b) >= 1.0
  {
    PlayedCardHasNoBonus(b);
  }

  /** `lower_section_expected_score`: the probability of the combination times
      its points, over the points still available. Yahtzee is worth 50 while
      open, and 100 once marked if it was achieved; the small straight and
      chance are valued even when marked; upper categories are worth 0. */
  function LowerExpectedScore(dice: seq<int>, b: Board, c: Category, r: nat): (e: real)
    requires IsHand(dice) && WellFormed(b)
    ensures e >= 0.0
    ensures IsUpper(c) ==> e == 0.0
    ensures IsMarked(b, c) && (c == ThreeOfAKind || c == FourOfAKind || c == FullHouse || c == LargeStraight)
      ==> e == 0.0
    ensures c == Yahtzee && IsMarked(b, c) && TimesAchieved(b, c) < 1 ==> e == 0.0
    ensures c == Yahtzee && IsMarked(b, c) && TimesAchieved(b, c) >= 1 ==>
      e == Share(YahtzeeProbability(dice, r), 100.0, Denominator(b))
    ensures c == Yahtzee && !IsMarked(b, c) ==> e == Share(YahtzeeProbability(dice, r), 50.0, Denominator(b))
    ensures c == ThreeOfAKind || c == FourOfAKind ==>
      e == Share(LowerSectionProbability(dice, b, c, r), Sum(dice) as real, Denominator(b))
    ensures c == FullHouse ==> e == Share(LowerSectionProbability(dice, b, c, r), 25.0, Denominator(b))
    ensures c == SmallStraight ==> e == Share(SmallStraightProbability(dice, r), 30.0, Denominator(b))
    ensures c == LargeStraight ==> e == Share(LowerSectionProbability(dice, b, c, r), 40.0, Denominator(b))
    ensures c == Chance ==> e == Share(1.0, Sum(dice) as real, Denominator(b))
  {
    var d := Denominator(b);
    HandSumBounds(dice);
    if IsUpper(c) then 0.0
    else if c == Yahtzee then
      var p := YahtzeeProbability(dice, r);
      if IsMarked(b, Yahtzee) then
        if TimesAchieved(b, Yahtzee) >= 1 then Share(p, 100.0, d) else 0.0
      else Share(p, 50.0, d)
    else
      var p := LowerSectionProbability(dice, b, c, r);
      if c == FullHouse then Share(p, 25.0, d)
      else if c == SmallStraight then Share(p, 30.0, d)
      else if c == LargeStraight then Share(p, 40.0, d)
      else if c == ThreeOfAKind || c == FourOfAKind then Share(p, Sum(dice) as real, d)
      else Share(1.0, Sum(dice) as real, d)
  }

  /** Dice already scoring in an open three of a kind, four of a kind or
      Yahtzee are valued at exactly that score over the points still available. */
  lemma ScoringHandExpected(dice: seq<int>, b: Board, c: Category, r: nat)
    requires IsHand(dice) && WellFormed(b) && !IsMarked(b, c)
    requires c == ThreeOfAKind || c == FourOfAKind || c == Yahtzee
    requires Score(c, dice) > 0
    ensures LowerExpectedScore(dice, b, c, r) == Share(1.0, Score(c, dice) as real, Denominator(b))
  {
    AlreadyScoredIsCertain(dice, b, c, r);
    YahtzeeMeaning(dice);
  }

  /** `upper_section_prob_vector`: per upper category, in card order, the
      chance of three or more of its face. */
  function UpperProbVector(dice: seq<int>, b: Board, r: nat): (v: seq<real>)
    requires IsHand(dice) && WellFormed(b)
    ensures |v| == 6
    ensures forall i :: 0 <= i < 6 ==> 0.0 <= v[i] <= 1.0
    ensures forall i :: 0 <= i < 6 ==> IsMarked(b, UpperCategories()[i]) ==> v[i] == 0.0
    ensures forall i :: 0 <= i < 6 ==> !IsMarked(b, UpperCategories()[i]) && Count(dice, i + 1) >= 3 ==> v[i] == 1.0
  {
    var cats := UpperCategories();
    seq(6, i requires 0 <= i < 6 => UpperSectionProbability(dice, b, cats[i], r))
  }

  /** `upper_section_expected_score_vector`: per upper category the expected
      score, 0 where marked. */
  function UpperExpectedVector(dice: seq<int>, b: Board, r: nat): (v: seq<real>)
    requires IsHand(dice) && WellFormed(b)
    ensures |v| == 6
    ensures forall i :: 0 <= i < 6 ==> IsMarked(b, UpperCategories()[i]) ==> v[i] == 0.0
    ensures UpperScore(b) <= 378 ==> forall i :: 0 <= i < 6 ==> v[i] >= 0.0
    ensures r == 0 ==> forall i :: 0 <= i < 6 ==> !IsMarked(b, UpperCategories()[i]) ==>
      v[i] == Scaled((i + 1) as real, Count(dice, i + 1) as real, UpperWeight(b), Denominator(b))
  {
    var cats := UpperCategories();
    seq(6, i requires 0 <= i < 6 =>
      if IsMarked(b, cats[i]) then 0.0 else UpperExpectedScore(dice, b, cats[i], r))
  }

  /** `lower_section_prob_vector`: per lower category, in card order, the
      probability of the combination. */
  function LowerProbVector(dice: seq<int>, b: Board, r: nat): (v: seq<real>)
    requires IsHand(dice) && WellFormed(b)
    ensures |v| == 7
    ensures forall i :: 0 <= i < 7 ==> v[i] >= 0.0
    ensures forall i :: 0 <= i < 7 ==> IsMarked(b, LowerCategories()[i]) && i != 3 ==> v[i] == 0.0
    ensures forall i :: 0 <= i < 7 && WithinOne(dice, LowerCategories()[i], r) ==> v[i] <= 1.0
    ensures forall i :: 0 <= i < 7 && (i != 2 || r <= 20) ==> v[i] <= 1215.0 / 1188.0
    ensures v[3] == SmallStraightProbability(dice, r)
    ensures !IsMarked(b, Chance) ==> v[6] == 1.0
  {
    seq(7, i requires 0 <= i < 7 => LowerProbEntry(dice, b, i, r))
  }

  /** Entry `i` of `LowerProbVector`: the probability for the `i`-th lower category. */
  function LowerProbEntry(dice: seq<int>, b: Board, i: nat, r: nat): (p: real)
    requires IsHand(dice) && WellFormed(b) && i < 7
    ensures p >= 0.0
    ensures IsMarked(b, LowerCategories()[i]) && i != 3 ==> p == 0.0
    ensures WithinOne(dice, LowerCategories()[i], r) ==> p <= 1.0
    ensures i != 2 || r <= 20 ==> p <= 1215.0 / 1188.0
    ensures i == 3 ==> p == SmallStraightProbability(dice, r)
    ensures i == 6 && !IsMarked(b, Chance) ==> p == 1.0
  {
    LowerSectionProbability(dice, b, LowerCategories()[i], r)
  }

  /** `lower_section_expected_score_vector`: per lower category, in card order,
      the expected score. */
  function LowerExpectedVector(dice: seq<int>, b: Board, r: nat): (v: seq<real>)
    requires IsHand(dice) && WellFormed(b)
    ensures |v| == 7
    ensures forall i :: 0 <= i < 7 ==> v[i] >= 0.0
    ensures forall i :: 0 <= i < 7 ==> IsMarked(b, LowerCategories()[i]) && i in {0, 1, 2, 4} ==> v[i] == 0.0
    ensures v[6] == Share(1.0, Sum(dice) as real, Denominator(b))
  {
    var cats := LowerCategories();
    seq(7, i requires 0 <= i < 7 => LowerExpectedScore(dice, b, cats[i], r))
  }

  /** On a card played through its own operations at least 110 points are
      still available, since such a card totals at most 265. */
  lemma PlayedDenominator(b: Board)
    requires Played(b)
    ensures Denominator(b) >= 110.0
  {
    PlayedFinalScore(b);
  }

  /** On a played card every upper expected score lies in [0, 1]. */
  lemma PlayedUpperExpectedBounded(dice: seq<int>, b: Board, c: Category, r: nat)
    requires IsHand(dice) && Played(b)
    ensures 0.0 <= UpperExpectedScore(dice, b, c, r) <= 1.0
  {
    PlayedCardHasNoBonus(b);
    PlayedTotalBound(b, UpperCategories());
    PlayedDenominator(b);
    if IsUpper(c) && !IsMarked(b, c) {
      var o := UpperSectionMarkov(dice, c, r);
      ScaledAtMostOne(Face(c) as real, o.expected, UpperWeight(b), Denominator(b));
    }
  }

  /** On a played card, with at most 20 rerolls, every lower expected score
      lies in [0, 1]: no category pays more than 100 points, with probability
      at most 1, over at least 110 points available. */
  lemma PlayedLowerExpectedBounded(dice: seq<int>, b: Board, c: Category, r: nat)
    requires IsHand(dice) && Played(b) && r <= 20
    ensures 0.0 <= LowerExpectedScore(dice, b, c, r) <= 1.0
  {
    PlayedDenominator(b);
    HandSumBounds(dice);
    var d := Denominator(b);
    if c == Yahtzee {
      ShareAtMostOne(YahtzeeProbability(dice, r), 100.0, d);
      ShareAtMostOne(YahtzeeProbability(dice, r), 50.0, d);
    } else if c == SmallStraight {
      ShareOfSurplusAtMostOne(SmallStraightProbability(dice, r), 30.0, d);
    } else if c == Chance {
      ShareAtMostOne(1.0, Sum(dice) as real, d);
    } else if !IsUpper(c) {
      var p := LowerSectionProbability(dice, b, c, r);
      ShareAtMostOne(p, Sum(dice) as real, d);
      ShareAtMostOne(p, 25.0, d);
      ShareAtMostOne(p, 40.0, d);
    }
  }

  /** On a card played through its own operations every entry of the upper
      expected-score vector lies in [0, 1]. */
  lemma PlayedUpperVectorBounded(dice: seq<int>, b: Board, r: nat)
    requires IsHand(dice) && Played(b)
    ensures forall i :: 0 <= i < 6 ==> 0.0 <= UpperExpectedVector(dice, b, r)[i] <= 1.0
  {
    var cats := UpperCategories();
    forall i | 0 <= i < 6
      ensures 0.0 <= UpperExpectedVector(dice, b, r)[i] <= 1.0
    {
      PlayedUpperExpectedBounded(dice, b, cats[i], r);
    }
  }

  /** On a card played through its own operations, with at most 20 rerolls,
      every entry of the lower expected-score vector lies in [0, 1]. */
  lemma PlayedLowerVectorBounded(dice: seq<int>, b: Board, r: nat)
    requires IsHand(dice) && Played(b) && r <= 20
    ensures forall i :: 0 <= i < 7 ==> 0.0 <= LowerExpectedVector(dice, b, r)[i] <= 1.0
  {
    var cats := LowerCategories();
    forall i | 0 <= i < 7
      ensures 0.0 <= LowerExpectedVector(dice, b, r)[i] <= 1.0
    {
      PlayedLowerExpectedBounded(dice, b, cats[i], r);
    }
  }
}

=== FILE: lookaheads.dfy ===
/** The keep advisor: for a target category, which dice of the current roll to
    set aside and which to reroll (src/yahtzee_rl/markov/lookaheads.py). */
module KeepAdvisor {
  import opened Wrappers
  import opened Sequences
  import opened Categories
  import opened Dice
  import opened ScoringOps

  /** The target may be given as a category or as its string value. */
  datatype Move = ByCategory(category: Category) | ByName(name: string)

  datatype KeepError =
    | InvalidCategory(name: string)  // a string that is no category value (`ValueError`)
    | EmptyDice                      // no dice at all where a maximum is taken

  /** The advice: the withheld dice followed by the newly kept ones, and the
      dice to reroll. */
  datatype Keep = Keep(finalWithheld: seq<int>, remaining: seq<int>)

  /** Validating and converting the move. */
  function ResolveMove(move: Move): (r: Result<Category, KeepError>)
    ensures move.ByCategory? ==> r == Ok(move.category)
    ensures move.ByName? && r.Ok? ==> Name(r.value) == move.name
    ensures move.ByName? && r.Err? ==> r.error == InvalidCategory(move.name) && !IsValid(move.name)
    ensures move.ByName? ==> (r.Err? <==> forall c: Category :: Name(c) != move.name)
  {
    match move
    case ByCategory(c) => Ok(c)
    case ByName(s) =>
      match FromName(s)
      case Some(c) => Ok(c)
      case None => Err(InvalidCategory(s))
  }

  /** `fs` lists faces of `s` in order of first appearance. */
  predicate AppearanceOrdered(fs: seq<int>, s: seq<int>)
  {
    && (forall i :: 0 <= i < |fs| ==> fs[i] in s)
    && (forall i, j :: 0 <= i < j < |fs| ==> FirstIndex(s, fs[i]) < FirstIndex(s, fs[j]))
  }

  /** `fs` without the face `x`, order kept. */
  function Without(fs: seq<int>, x: int): (r: seq<int>)
    ensures forall y :: y in r <==> y in fs && y != x
  {
    if |fs| == 0 then []
    else if fs[0] == x then Without(fs[1..], x)
    else [fs[0]] + Without(fs[1..], x)
  }

  lemma {:induction false} WithoutOrdered(fs: seq<int>, x: int, s: seq<int>)
    requires AppearanceOrdered(fs, s)
    ensures AppearanceOrdered(Without(fs, x), s)
    decreases |fs|
  {
    if |fs| > 0 {
      assert AppearanceOrdered(fs[1..], s);
      WithoutOrdered(fs[1..], x, s);
      var rest := Without(fs[1..], x);
      if fs[0] != x {
        forall j | 0 <= j < |rest|
          ensures FirstIndex(s, fs[0]) < FirstIndex(s, rest[j])
        {
          assert rest[j] in fs[1..];
          var k :| 0 <= k < |fs[1..]| && fs[1..][k] == rest[j];
          assert fs[k + 1] == rest[j];
        }
      }
    }
  }

  /** Among faces listed in appearance order, the `reduce` winner beats every
      face that appears after it. */
  lemma LastMaxBeatsLater(fs: seq<int>, s: seq<int>, y: int)
    requires |fs| > 0 && AppearanceOrdered(fs, s)
    requires y in fs
    ensures fs[LastMaxIndex(fs, s)] in s
    ensures FirstIndex(s, y) > FirstIndex(s, fs[LastMaxIndex(fs, s)]) ==> Count(s, y) < Count(s, fs[LastMaxIndex(fs, s)])
  {
    var k := LastMaxIndex(fs, s);
    var j :| 0 <= j < |fs| && fs[j] == y;
    if j < k {
      assert FirstIndex(s, fs[j]) < FirstIndex(s, fs[k]);
    }
  }

  lemma DistinctOrdered(s: seq<int>)
    ensures AppearanceOrdered(Distinct(s), s)
  {
    var d := Distinct(s);
    forall i | 0 <= i < |d|
      ensures d[i] in s
    {
      assert d[i] in d;
    }
  }

  /** The target face of the of-a-kind branches: the face of `s` with the
      largest count, the last one in first-appearance order on ties. */
  function TopFace(s: seq<int>): (f: int)
    requires |s| > 0
    ensures f in s
    ensures forall x :: Count(s, x) <= Count(s, f)
    ensures forall x :: x in s && FirstIndex(s, x) > FirstIndex(s, f) ==> Count(s, x) < Count(s, f)
  {
    var d := Distinct(s);
    assert s[0] in d;
    DistinctOrdered(s);
    var k := LastMaxIndex(d, s);
    assert forall x :: Count(s, x) <= Count(s, d[k]) by {
      forall x
        ensures Count(s, x) <= Count(s, d[k])
      {
        if x in s {
          var j :| 0 <= j < |d| && d[j] == x;
        }
      }
    }
    assert forall x :: x in s && FirstIndex(s, x) > FirstIndex(s, d[k]) ==> Count(s, x) < Count(s, d[k]) by {
      forall x | x in s
        ensures FirstIndex(s, x) > FirstIndex(s, d[k]) ==> Count(s, x) < Count(s, d[k])
      {
        LastMaxBeatsLater(d, s, x);
      }
    }
    d[k]
  }

  /** The full house's second face: among the faces other than `top`, the one
      with the largest count, the last in first-appearance order on ties;
      `None` when `top` is the only face. */
  function SecondFace(s: seq<int>, top: int): (g: Option<int>)
    ensures g.None? ==> forall x :: x in s ==> x == top
    ensures g.Some? ==> g.value in s && g.value != top
    ensures g.Some? ==> forall x :: x != top ==> Count(s, x) <= Count(s, g.value)
    ensures g.Some? ==> forall x :: x in s && x != top && FirstIndex(s, x) > FirstIndex(s, g.value) ==>
      Count(s, x) < Count(s, g.value)
  {
    var others := Without(Distinct(s), top);
    if |others| == 0 then None
    else
      DistinctOrdered(s);
      WithoutOrdered(Distinct(s), top, s);
      var k := LastMaxIndex(others, s);
      assert others[k] in others;
      assert forall x :: x != top ==> Count(s, x) <= Count(s, others[k]) by {
        forall x | x != top
          ensures Count(s, x) <= Count(s, others[k])
        {
          if x in s {
            assert x in others;
            var j :| 0 <= j < |others| && others[j] == x;
          }
        }
      }
      assert forall x :: x in s && x != top && FirstIndex(s, x) > FirstIndex(s, others[k]) ==>
        Count(s, x) < Count(s, others[k]) by {
        forall x | x in s && x != top
          ensures FirstIndex(s, x) > FirstIndex(s, others[k]) ==> Count(s, x) < Count(s, others[k])
        {
          assert x in others;
          LastMaxBeatsLater(others, s, x);
        }
      }
      Some(others[k])
  }

  /** Index of the window the straight branches pursue: the first one, in
      listed order, reaching the largest coverage of `s`. */
  function BestWindow(s: seq<int>, windows: seq<seq<int>>): (k: nat)
    requires |windows| > 0
    ensures k < |windows|
    ensures forall j :: 0 <= j < |windows| ==> Coverage(s, windows[j]) <= Coverage(s, windows[k])
    ensures forall j :: 0 <= j < k ==> Coverage(s, windows[j]) < Coverage(s, windows[k])
  {
    if |windows| == 1 then 0
    else
      var k := BestWindow(s, windows[..|windows| - 1]);
      if Coverage(s, windows[|windows| - 1]) > Coverage(s, windows[k]) then |windows| - 1 else k
  }

  /** The window values still needed: those not already withheld. */
  function Needed(window: seq<int>, withheld: seq<int>): (need: set<int>)
    ensures forall v :: v in need <==> v in window && v !in withheld
  {
    set v | v in window && v !in withheld
  }

  /** The straight branches' keep loop: scanning the roll in order, keep a die
      whose value is still needed and strike that value off. */
  function GreedyKeep(dice: seq<int>, need: set<int>): (mask: seq<bool>)
    ensures |mask| == |dice|
    ensures forall i :: 0 <= i < |dice| ==> (mask[i] <==> dice[i] in need && dice[i] !in dice[..i])
  {
    if |dice| == 0 then []
    else
      var rest := GreedyKeep(dice[1..], need - {dice[0]});
      var mask := [dice[0] in need] + rest;
      assert forall i :: 1 <= i < |dice| ==> dice[..i] == [dice[0]] + dice[1..][..i - 1];
      mask
  }

  /** Keep the dice showing `f`. */
  function FaceMask(dice: seq<int>, f: int): (mask: seq<bool>)
    ensures |mask| == |dice| && forall i :: 0 <= i < |dice| ==> (mask[i] <==> dice[i] == f)
  {
    seq(|dice|, i requires 0 <= i < |dice| => dice[i] == f)
  }

  /** The categories whose branch takes a maximum over the combined dice and
      so fails on no dice at all. */
  predicate NeedsDice(c: Category)
  {
    c == ThreeOfAKind || c == FourOfAKind || c == FullHouse || c == Yahtzee || c == Chance
  }

  /** The per-category keep mask over the roll (`true` = keep; the source's
      mask value 0). */
  function KeepMask(dice: seq<int>, withheld: seq<int>, c: Category): (r: Result<seq<bool>, KeepError>)
    ensures r.Err? <==> NeedsDice(c) && |dice| + |withheld| == 0
    ensures r.Err? ==> r.error == EmptyDice
    ensures r.Ok? ==> |r.value| == |dice|
    ensures IsUpper(c) ==> forall i :: 0 <= i < |dice| ==> (r.value[i] <==> dice[i] == Face(c))
    ensures (c == ThreeOfAKind || c == FourOfAKind || c == Yahtzee) && r.Ok? ==>
      forall i :: 0 <= i < |dice| ==> (r.value[i] <==> dice[i] == TopFace(dice + withheld))
    ensures c == FullHouse && r.Ok? ==> forall i :: 0 <= i < |dice| ==>
      (r.value[i] <==> dice[i] == TopFace(dice + withheld) || SecondFace(dice + withheld, TopFace(dice + withheld)) == Some(dice[i]))
    ensures c == SmallStraight ==> forall i :: 0 <= i < |dice| ==>
      (r.value[i] <==> dice[i] in Needed(SmallWindows[BestWindow(dice + withheld, SmallWindows)], withheld) && dice[i] !in dice[..i])
    ensures c == LargeStraight ==> forall i :: 0 <= i < |dice| ==>
      (r.value[i] <==> dice[i] in Needed(LargeWindows[BestWindow(dice + withheld, LargeWindows)], withheld) && dice[i] !in dice[..i])
    ensures c == Chance && r.Ok? ==> forall i :: 0 <= i < |dice| ==>
      (r.value[i] <==> dice[i] >= MaxValue(dice + withheld))
  {
    if c == ThreeOfAKind || c == FourOfAKind || c == Yahtzee then KindMask(dice, withheld)
    else if c == FullHouse then FullHouseMask(dice, withheld)
    else if c == SmallStraight then Ok(StraightMask(dice, withheld, SmallWindows))
    else if c == LargeStraight then Ok(StraightMask(dice, withheld, LargeWindows))
    else if c == Chance then ChanceMask(dice, withheld)
    else Ok(FaceMask(dice, Face(c)))
  }

  /** Three of a kind, four of a kind and Yahtzee: keep the rolled dice
      showing the top face of roll and withheld dice together. */
  function KindMask(dice: seq<int>, withheld: seq<int>): (r: Result<seq<bool>, KeepError>)
    ensures r.Err? <==> |dice| + |withheld| == 0
    ensures r.Err? ==> r.error == EmptyDice
    ensures r.Ok? ==> |r.value| == |dice|
    ensures r.Ok? ==> forall i :: 0 <= i < |dice| ==> (r.value[i] <==> dice[i] == TopFace(dice + withheld))
  {
    var combined := dice + withheld;
    if |combined| == 0 then Err(EmptyDice) else Ok(FaceMask(dice, TopFace(combined)))
  }

  /** Full house: keep the rolled dice showing the top face or the second face. */
  function FullHouseMask(dice: seq<int>, withheld: seq<int>): (r: Result<seq<bool>, KeepError>)
    ensures r.Err? <==> |dice| + |withheld| == 0
    ensures r.Err? ==> r.error == EmptyDice
    ensures r.Ok? ==> |r.value| == |dice|
    ensures r.Ok? ==> forall i :: 0 <= i < |dice| ==>
      (r.value[i] <==> dice[i] == TopFace(dice + withheld) || SecondFace(dice + withheld, TopFace(dice + withheld)) == Some(dice[i]))
  {
    var combined := dice + withheld;
    if |combined| == 0 then Err(EmptyDice)
    else
      var top := TopFace(combined);
      var second := SecondFace(combined, top);
      Ok(seq(|dice|, i requires 0 <= i < |dice| => dice[i] == top || second == Some(dice[i])))
  }

  /** Straights: pursue the best-covered window and keep, greedily, the first
      rolled die of each value of it not already withheld. */
  function StraightMask(dice: seq<int>, withheld: seq<int>, windows: seq<seq<int>>): (mask: seq<bool>)
    requires |windows| > 0
    ensures |mask| == |dice|
    ensures forall i :: 0 <= i < |dice| ==>
      (mask[i] <==> dice[i] in Needed(windows[BestWindow(dice + withheld, windows)], withheld) && dice[i] !in dice[..i])
  {
    GreedyKeep(dice, Needed(windows[BestWindow(dice + withheld, windows)], withheld))
  }

  /** Chance: keep the rolled dice at least as high as the highest die overall. */
  function ChanceMask(dice: seq<int>, withheld: seq<int>): (r: Result<seq<bool>, KeepError>)
    ensures r.Err? <==> |dice| + |withheld| == 0
    ensures r.Err? ==> r.error == EmptyDice
    ensures r.Ok? ==> |r.value| == |dice|
    ensures r.Ok? ==> forall i :: 0 <= i < |dice| ==> (r.value[i] <==> dice[i] >= MaxValue(dice + withheld))
  {
    var combined := dice + withheld;
    if |combined| == 0 then Err(EmptyDice)
    else
      var top := MaxValue(combined);
      Ok(seq(|dice|, i requires 0 <= i < |dice| => dice[i] >= top))
  }

  /** `determine_keep_positions`: resolve the move, build the keep mask and
      split the roll by it. The kept dice are appended to the withheld ones;
      the rest are rerolled; no die is lost or invented. */
  function DetermineKeepPositions(dice: seq<int>, withheld: seq<int>, move: Move): (r: Result<Keep, KeepError>)
    ensures ResolveMove(move).Err? ==> r == Err(ResolveMove(move).error)
    ensures ResolveMove(move).Ok? ==>
      (r.Err? <==> NeedsDice(ResolveMove(move).value) && |dice| + |withheld| == 0)
    ensures r.Ok? ==> |r.value.finalWithheld| >= |withheld| && r.value.finalWithheld[..|withheld|] == withheld
    ensures r.Ok? ==> multiset(r.value.finalWithheld) + multiset(r.value.remaining) == multiset(withheld) + multiset(dice)
    ensures r.Ok? ==> |r.value.finalWithheld| + |r.value.remaining| == |withheld| + |dice|
  {
    match ResolveMove(move)
    case Err(e) => Err(e)
    case Ok(c) =>
      match KeepMask(dice, withheld, c)
      case Err(e) => Err(e)
      case Ok(mask) =>
        SelectPartition(dice, mask);
        var kept := Select(dice, mask, true);
        assert (withheld + kept)[..|withheld|] == withheld;
        Ok(Keep(withheld + kept, Select(dice, mask, false)))
  }

  /** The dice newly kept by an advice. */
  function Kept(k: Keep, withheld: seq<int>): seq<int>
    requires |k.finalWithheld| >= |withheld|
  {
    k.finalWithheld[|withheld|..]
  }

  /** An advice splits the roll in order: the newly kept dice and the
      rerolled dice are read off two strictly increasing lists of roll
      positions, every position of the roll is in exactly one of them, and
      the kept positions are exactly those the category's keep mask picks. */
  lemma AdviceKeepsRollOrder(dice: seq<int>, withheld: seq<int>, move: Move)
    returns (keptAt: seq<nat>, rerolledAt: seq<nat>)
    requires DetermineKeepPositions(dice, withheld, move).Ok?
    ensures var k := DetermineKeepPositions(dice, withheld, move).value;
      && |keptAt| == |Kept(k, withheld)|
      && forall i :: 0 <= i < |keptAt| ==> keptAt[i] < |dice| && Kept(k, withheld)[i] == dice[keptAt[i]]
    ensures var k := DetermineKeepPositions(dice, withheld, move).value;
      && |rerolledAt| == |k.remaining|
      && forall i :: 0 <= i < |rerolledAt| ==> rerolledAt[i] < |dice| && k.remaining[i] == dice[rerolledAt[i]]
    ensures forall i, j :: 0 <= i < j < |keptAt| ==> keptAt[i] < keptAt[j]
    ensures forall i, j :: 0 <= i < j < |rerolledAt| ==> rerolledAt[i] < rerolledAt[j]
    ensures forall p :: 0 <= p < |dice| ==> (p in keptAt <==> p !in rerolledAt)
    ensures forall p :: 0 <= p < |dice| ==>
      (p in keptAt <==> KeepMask(dice, withheld, ResolveMove(move).value).value[p])
  {
    var mask := KeepMask(dice, withheld, ResolveMove(move).value).value;
    keptAt := SelectOrder(dice, mask, true);
    rerolledAt := SelectOrder(dice, mask, false);
    forall p | 0 <= p < |dice|
      ensures p in keptAt <==> p !in rerolledAt
    {
      if p in keptAt && p in rerolledAt {
        assert false;
      }
    }
  }

  /** Keeping exactly the dice equal to `f` keeps all of them: as many copies
      of `f` as the roll shows. */
  lemma {:induction false} SelectFace(dice: seq<int>, mask: seq<bool>, f: int)
    requires |mask| == |dice|
    requires forall i :: 0 <= i < |dice| ==> (mask[i] <==> dice[i] == f)
    ensures Select(dice, mask, true) == seq(Count(dice, f), _ => f)
    decreases |dice|
  {
    if |dice| > 0 {
      SelectFace(dice[1..], mask[1..], f);
      assert dice == [dice[0]] + dice[1..];
      assert multiset(dice) == multiset([dice[0]]) + multiset(dice[1..]);
    }
  }

  /** For an upper category the kept dice are all the rolled dice showing its
      face, and only those. */
  lemma UpperKeep(dice: seq<int>, withheld: seq<int>, c: Category)
    requires IsUpper(c)
    ensures DetermineKeepPositions(dice, withheld, ByCategory(c)).Ok?
    ensures var k := DetermineKeepPositions(dice, withheld, ByCategory(c)).value;
      Kept(k, withheld) == seq(Count(dice, Face(c)), _ => Face(c))
  {
    var mask := KeepMask(dice, withheld, c).value;
    SelectFace(dice, mask, Face(c));
  }

  /** For three and four of a kind and Yahtzee the kept dice are all the
      rolled dice showing the most common face of roll and withheld dice. */
  lemma OfAKindKeep(dice: seq<int>, withheld: seq<int>, c: Category)
    requires c == ThreeOfAKind || c == FourOfAKind || c == Yahtzee
    requires |dice| + |withheld| > 0
    ensures DetermineKeepPositions(dice, withheld, ByCategory(c)).Ok?
    ensures var k := DetermineKeepPositions(dice, withheld, ByCategory(c)).value;
      var f := TopFace(dice + withheld);
      Kept(k, withheld) == seq(Count(dice, f), _ => f)
  {
    var mask := KeepMask(dice, withheld, c).value;
    SelectFace(dice, mask, TopFace(dice + withheld));
  }

  /** A selection whose mask never picks is empty, and its complement is the
      whole sequence. */
  lemma {:induction false} SelectNone(dice: seq<int>, mask: seq<bool>)
    requires |mask| == |dice| && forall i :: 0 <= i < |dice| ==> !mask[i]
    ensures Select(dice, mask, true) == []
    ensures Select(dice, mask, false) == dice
    decreases |dice|
  {
    if |dice| > 0 {
      SelectNone(dice[1..], mask[1..]);
      assert dice == [dice[0]] + dice[1..];
    }
  }

  /** For chance a larger withheld die blocks every rolled die: nothing is
      kept and the whole roll is rerolled. */
  lemma ChanceBlockedByWithheld(dice: seq<int>, withheld: seq<int>, w: int)
    requires w in withheld && forall i :: 0 <= i < |dice| ==> dice[i] < w
    ensures DetermineKeepPositions(dice, withheld, ByCategory(Chance)) == Ok(Keep(withheld, dice))
  {
    var mask := KeepMask(dice, withheld, Chance).value;
    var j :| 0 <= j < |withheld| && withheld[j] == w;
    assert (dice + withheld)[|dice| + j] == w;
    SelectNone(dice, mask);
    assert withheld + [] == withheld;
  }

  /** For a full house every rolled die showing the top face or the second
      face is kept, and no other: each value is kept as often as the roll
      shows it, or not at all. */
  lemma FullHouseKeep(dice: seq<int>, withheld: seq<int>)
    requires |dice| + |withheld| > 0
    ensures DetermineKeepPositions(dice, withheld, ByCategory(FullHouse)).Ok?
    ensures var k := DetermineKeepPositions(dice, withheld, ByCategory(FullHouse)).value;
      var top := TopFace(dice + withheld);
      forall v :: multiset(Kept(k, withheld))[v] ==
        if v == top || SecondFace(dice + withheld, top) == Some(v) then Count(dice, v) else 0
  {
    var top := TopFace(dice + withheld);
    var second := SecondFace(dice + withheld, top);
    var mask := KeepMask(dice, withheld, FullHouse).value;
    forall v
      ensures multiset(Select(dice, mask, true))[v] == if v == top || second == Some(v) then Count(dice, v) else 0
    {
      SelectCountUniform(dice, mask, true, v, v == top || second == Some(v));
    }
  }

  /** For chance every rolled die at least as high as the highest die of
      roll and withheld dice is kept, and no other. */
  lemma ChanceKeep(dice: seq<int>, withheld: seq<int>)
    requires |dice| + |withheld| > 0
    ensures DetermineKeepPositions(dice, withheld, ByCategory(Chance)).Ok?
    ensures var k := DetermineKeepPositions(dice, withheld, ByCategory(Chance)).value;
      forall v :: multiset(Kept(k, withheld))[v] ==
        if v >= MaxValue(dice + withheld) then Count(dice, v) else 0
  {
    var mask := KeepMask(dice, withheld, Chance).value;
    forall v
      ensures multiset(Select(dice, mask, true))[v] == if v >= MaxValue(dice + withheld) then Count(dice, v) else 0
    {
      SelectCountUniform(dice, mask, true, v, v >= MaxValue(dice + withheld));
    }
  }

  /** For a straight the kept values are distinct, lie in the pursued window
      and are not already withheld; every such value the roll shows is kept. */
  lemma StraightKeep(dice: seq<int>, withheld: seq<int>, c: Category)
    requires c == SmallStraight || c == LargeStraight
    ensures DetermineKeepPositions(dice, withheld, ByCategory(c)).Ok?
    ensures var k := DetermineKeepPositions(dice, withheld, ByCategory(c)).value;
      var windows := if c == SmallStraight then SmallWindows else LargeWindows;
      var window := windows[BestWindow(dice + withheld, windows)];
      && NoDuplicates(Kept(k, withheld))
      && (forall v :: v in Kept(k, withheld) <==> v in dice && v in window && v !in withheld)
  {
    var windows := if c == SmallStraight then SmallWindows else LargeWindows;
    var window := windows[BestWindow(dice + withheld, windows)];
    var mask := KeepMask(dice, withheld, c).value;
    var kept := Select(dice, mask, true);
    var idx := SelectOrder(dice, mask, true);
    forall a, b | 0 <= a < b < |kept|
      ensures kept[a] != kept[b]
    {
      assert idx[a] < idx[b];
      assert dice[idx[a]] in dice[..idx[b]];
    }
    forall v
      ensures v in kept <==> v in dice && v in window && v !in withheld
    {
      SelectMembers(dice, mask, true, v);
      if v in dice && v in window && v !in withheld {
        var i := FirstIndex(dice, v);
        assert dice[i] !in dice[..i];
      }
    }
  }

  /** An invalid name is refused with that name. */
  lemma InvalidNameRefused(dice: seq<int>, withheld: seq<int>)
    ensures DetermineKeepPositions(dice, withheld, ByName("sevens")) == Err(InvalidCategory("sevens"))
  {
    assert "sevens"[1] == 'e';
  }

  /** A valid name is the same move as its category. */
  lemma NameMeansCategory(dice: seq<int>, withheld: seq<int>, c: Category)
    ensures DetermineKeepPositions(dice, withheld, ByName(Name(c))) ==
      DetermineKeepPositions(dice, withheld, ByCategory(c))
  {
    NameRoundTrip(c);
  }

  /** The documented example: keeping for aces from `[1, 2, 3, 1, 5]`. */
  lemma AcesExample(dice: seq<int>, withheld: seq<int>)
    requires dice == [1, 2, 3, 1, 5] && withheld == []
    ensures DetermineKeepPositions(dice, withheld, ByCategory(Aces)) == Ok(Keep([1, 1], [2, 3, 5]))
  {
    var mask := KeepMask(dice, withheld, Aces).value;
    assert mask == [true, false, false, true, false];
    AcesSplit(dice, mask);
  }

  lemma AcesSplit(dice: seq<int>, mask: seq<bool>)
    requires dice == [1, 2, 3, 1, 5] && mask == [true, false, false, true, false]
    ensures Select(dice, mask, true) == [1, 1]
    ensures Select(dice, mask, false) == [2, 3, 5]
  {
    assert Select(dice[4..], mask[4..], true) == [];
    assert Select(dice[3..], mask[3..], true) == [1];
    assert Select(dice[1..], mask[1..], true) == [1];
    assert Select(dice[4..], mask[4..], false) == [5];
    assert Select(dice[3..], mask[3..], false) == [5];
    assert Select(dice[2..], mask[2..], false) == [3, 5];
    assert Select(dice[1..], mask[1..], false) == [2, 3, 5];
  }

  /** Ties go to the later face: with 2 and 5 both shown twice, three of a
      kind pursues the 5s. */
  lemma OfAKindTieGoesLast(dice: seq<int>)
    requires dice == [2, 2, 5, 5, 1]
    ensures TopFace(dice) == 5
  {
    assert multiset(dice) == multiset{2, 2, 5, 5, 1};
    assert Count(dice, 2) == 2 && Count(dice, 5) == 2 && Count(dice, 1) == 1;
    assert FirstIndex(dice, 2) == 0;
    assert dice[1..][1..] == [5, 5, 1];
    assert FirstIndex(dice[1..][1..], 5) == 0;
    assert FirstIndex(dice, 5) == 2;
    var f := TopFace(dice);
    assert f in {1, 2, 5};
  }

  /** The documented straight example: from `[1, 2, 3, 4, 6]` the window 1-4
      is already complete, so its four dice are kept and the 6 rerolled. */
  lemma SmallStraightExample(dice: seq<int>, withheld: seq<int>)
    requires dice == [1, 2, 3, 4, 6] && withheld == []
    ensures DetermineKeepPositions(dice, withheld, ByCategory(SmallStraight)) == Ok(Keep([1, 2, 3, 4], [6]))
  {
    SmallStraightExampleMask(dice, withheld);
    SplitFourOne(dice, [true, true, true, true, false]);
    assert withheld + dice[..4] == [1, 2, 3, 4];
  }

  lemma SmallStraightExampleMask(dice: seq<int>, withheld: seq<int>)
    requires dice == [1, 2, 3, 4, 6] && withheld == []
    ensures KeepMask(dice, withheld, SmallStraight) == Ok([true, true, true, true, false])
  {
    SmallStraightExampleWindow(dice, withheld);
    var need := Needed(SmallWindows[0], withheld);
    LowWindowNeeded(withheld);
    var r := KeepMask(dice, withheld, SmallStraight);
    assert r.Ok? && |r.value| == 5;
    var mask := r.value;
    assert forall i :: 0 <= i < 5 ==> (mask[i] <==> dice[i] in need && dice[i] !in dice[..i]);
    assert dice[..1] == [1] && dice[..2] == [1, 2] && dice[..3] == [1, 2, 3];
    assert mask[0] && mask[1] && mask[2] && mask[3] && !mask[4];
    assert mask == [true, true, true, true, false];
  }

  lemma LowWindowNeeded(withheld: seq<int>)
    requires withheld == []
    ensures Needed(SmallWindows[0], withheld) == {1, 2, 3, 4}
  {
  }

  lemma SmallStraightExampleWindow(dice: seq<int>, withheld: seq<int>)
    requires dice == [1, 2, 3, 4, 6] && withheld == []
    ensures BestWindow(dice + withheld, SmallWindows) == 0
  {
    assert dice + withheld == dice;
    CoverageMeaning(dice, SmallWindows[0]);
    assert forall i :: 0 <= i < 4 ==> SmallWindows[0][i] == dice[i];
    assert Coverage(dice, SmallWindows[0]) == 4;
  }

  lemma SplitFourOne(dice: seq<int>, mask: seq<bool>)
    requires |dice| == 5 && mask == [true, true, true, true, false]
    ensures Select(dice, mask, true) == dice[..4]
    ensures Select(dice, mask, false) == [dice[4]]
  {
    assert Select(dice[4..], mask[4..], true) == [];
    assert Select(dice[3..], mask[3..], true) == [dice[3]];
    assert Select(dice[2..], mask[2..], true) == [dice[2], dice[3]];
    assert Select(dice[1..], mask[1..], true) == [dice[1], dice[2], dice[3]];
    assert Select(dice[4..], mask[4..], false) == [dice[4]];
    assert Select(dice[3..], mask[3..], false) == [dice[4]];
    assert Select(dice[2..], mask[2..], false) == [dice[4]];
    assert Select(dice[1..], mask[1..], false) == [dice[4]];
  }
}

=== FILE: matrices.dfy ===
/** Exact linear algebra over `real` for the small transition matrices:
    products, powers (`np.linalg.matrix_power`), projection of a state vector,
    and the facts about column-stochastic and lower-triangular matrices the
    probability engine depends on. */
module Matrices {

  type Vector = seq<real>
  type Matrix = seq<seq<real>>

  function Total(v: Vector): real
  {
    if |v| == 0 then 0.0 else Total(v[..|v| - 1]) + v[|v| - 1]
  }

  function Dot(a: Vector, b: Vector): real
    requires |a| == |b|
  {
    if |a| == 0 then 0.0 else Dot(a[..|a| - 1], b[..|b| - 1]) + a[|a| - 1] * b[|b| - 1]
  }

  predicate NonNegative(v: Vector)
  {
    forall i :: 0 <= i < |v| ==> v[i] >= 0.0
  }

  /** Every row has `w` entries. */
  predicate HasWidth(m: Matrix, w: nat)
  {
    forall i :: 0 <= i < |m| ==> |m[i]| == w
  }

  predicate IsSquare(m: Matrix, n: nat)
  {
    |m| == n && HasWidth(m, n)
  }

  predicate NonNegativeEntries(m: Matrix)
  {
    forall i, j :: 0 <= i < |m| && 0 <= j < |m[i]| ==> m[i][j] >= 0.0
  }

  /** Every entry above the diagonal is zero: a state never moves to a lower index. */
  predicate LowerTriangular(m: Matrix)
    requires IsSquare(m, |m|)
  {
    forall i, j :: 0 <= i < j < |m| ==> m[i][j] == 0.0
  }

  function Column(m: Matrix, j: nat): (c: Vector)
    requires forall i :: 0 <= i < |m| ==> j < |m[i]|
    ensures |c| == |m|
    ensures forall i :: 0 <= i < |m| ==> c[i] == m[i][j]
  {
    seq(|m|, i requires 0 <= i < |m| => m[i][j])
  }

  /** Every column sums to 1 and no entry is negative. */
  predicate ColumnStochastic(m: Matrix)
  {
    && IsSquare(m, |m|)
    && NonNegativeEntries(m)
    && forall j :: 0 <= j < |m| ==> Total(Column(m, j)) == 1.0
  }

  /** The standard basis vector: all probability mass on state `k`. */
  function OneHot(n: nat, k: nat): (v: Vector)
    requires k < n
    ensures |v| == n
    ensures forall i :: 0 <= i < n ==> v[i] == if i == k then 1.0 else 0.0
  {
    seq(n, i requires 0 <= i < n => if i == k then 1.0 else 0.0)
  }

  function MatVec(m: Matrix, v: Vector): (r: Vector)
    requires HasWidth(m, |v|)
    ensures |r| == |m|
    ensures forall i :: 0 <= i < |m| ==> r[i] == Dot(m[i], v)
  {
    seq(|m|, i requires 0 <= i < |m| => Dot(m[i], v))
  }

  function MatMul(a: Matrix, b: Matrix): (r: Matrix)
    requires IsSquare(a, |a|) && IsSquare(b, |a|)
    ensures IsSquare(r, |a|)
    ensures forall i, j :: 0 <= i < |a| && 0 <= j < |a| ==> r[i][j] == Dot(a[i], Column(b, j))
  {
    seq(|a|, i requires 0 <= i < |a| => seq(|a|, j requires 0 <= j < |a| => Dot(a[i], Column(b, j))))
  }

  function Identity(n: nat): (r: Matrix)
    ensures IsSquare(r, n)
    ensures forall i, j :: 0 <= i < n && 0 <= j < n ==> r[i][j] == if i == j then 1.0 else 0.0
  {
    seq(n, i requires 0 <= i < n => OneHot(n, i))
  }

  /** `np.linalg.matrix_power(m, k)`: `k` factors of `m`, the identity for
      `k = 0`. */
  function Power(m: Matrix, k: nat): (r: Matrix)
    requires IsSquare(m, |m|)
    ensures IsSquare(r, |m|)
  {
    if k == 0 then Identity(|m|) else MatMul(m, Power(m, k - 1))
  }

  /** Mass at the states `t` and above (`np.sum(v[t:])`). */
  function Tail(v: Vector, t: nat): real
  {
    if t >= |v| then 0.0 else Total(v[t..])
  }

  // ----- dot products -----

  lemma {:induction false} DotOneHot(a: Vector, k: nat)
    requires k < |a|
    ensures Dot(a, OneHot(|a|, k)) == a[k]
    decreases |a|
  {
    var n := |a|;
    if k < n - 1 {
      assert OneHot(n, k)[..n - 1] == OneHot(n - 1, k);
      DotOneHot(a[..n - 1], k);
    } else {
      assert OneHot(n, k)[..n - 1] == seq(n - 1, i => 0.0);
      DotZeroRight(a[..n - 1], OneHot(n, k)[..n - 1]);
    }
  }

  lemma {:induction false} DotZeroRight(a: Vector, b: Vector)
    requires |a| == |b| && forall i :: 0 <= i < |b| ==> b[i] == 0.0
    ensures Dot(a, b) == 0.0
    decreases |a|
  {
    if |a| > 0 {
      DotZeroRight(a[..|a| - 1], b[..|b| - 1]);
    }
  }

  /** A dot product whose every term vanishes is zero. */
  lemma {:induction false} DotZeroTerms(a: Vector, b: Vector)
    requires |a| == |b| && forall i :: 0 <= i < |a| ==> a[i] * b[i] == 0.0
    ensures Dot(a, b) == 0.0
    decreases |a|
  {
    if |a| > 0 {
      DotZeroTerms(a[..|a| - 1], b[..|b| - 1]);
    }
  }

  lemma {:induction false} DotNonNegative(a: Vector, b: Vector)
    requires |a| == |b| && NonNegative(a) && NonNegative(b)
    ensures Dot(a, b) >= 0.0
    decreases |a|
  {
    if |a| > 0 {
      DotNonNegative(a[..|a| - 1], b[..|b| - 1]);
      assert a[|a| - 1] * b[|b| - 1] >= 0.0;
    }
  }

  function Add(x: Vector, y: Vector): (r: Vector)
    requires |x| == |y|
    ensures |r| == |x|
    ensures forall i :: 0 <= i < |x| ==> r[i] == x[i] + y[i]
  {
    seq(|x|, i requires 0 <= i < |x| => x[i] + y[i])
  }

  lemma {:induction false} DotAdd(x: Vector, y: Vector, v: Vector)
    requires |x| == |y| == |v|
    ensures Dot(Add(x, y), v) == Dot(x, v) + Dot(y, v)
    decreases |x|
  {
    var n := |x|;
    if n > 0 {
      assert Add(x, y)[..n - 1] == Add(x[..n - 1], y[..n - 1]);
      DotAdd(x[..n - 1], y[..n - 1], v[..n - 1]);
    }
  }

  /** With non-negative weights `v`, a pointwise larger `x` gives a larger dot product. */
  lemma {:induction false} DotMonotone(x: Vector, y: Vector, v: Vector)
    requires |x| == |y| == |v| && NonNegative(v)
    requires forall i :: 0 <= i < |x| ==> x[i] >= y[i]
    ensures Dot(x, v) >= Dot(y, v)
    decreases |x|
  {
    var n := |x|;
    if n > 0 {
      DotMonotone(x[..n - 1], y[..n - 1], v[..n - 1]);
      assert x[n - 1] * v[n - 1] >= y[n - 1] * v[n - 1];
    }
  }

  /** A weighted sum with weights in [0, c] over non-negative mass lies in [0, c * total]. */
  lemma {:induction false} DotBounded(w: Vector, v: Vector, c: real)
    requires |w| == |v| && NonNegative(v)
    requires forall i :: 0 <= i < |w| ==> 0.0 <= w[i] <= c
    ensures 0.0 <= Dot(w, v) <= c * Total(v)
    decreases |w|
  {
    var n := |w|;
    if n > 0 {
      DotBounded(w[..n - 1], v[..n - 1], c);
      assert v[..n - 1] == v[..|v| - 1];
      assert 0.0 <= w[n - 1] * v[n - 1] <= c * v[n - 1];
    }
  }

  /** Indicator of the states `t` and above. */
  function Indicator(n: nat, t: nat): (r: Vector)
    ensures |r| == n
    ensures forall i :: 0 <= i < n ==> r[i] == if i >= t then 1.0 else 0.0
  {
    seq(n, i requires 0 <= i < n => if i >= t then 1.0 else 0.0)
  }

  lemma {:induction false} DotIndicator(v: Vector, t: nat)
    ensures Dot(Indicator(|v|, t), v) == Tail(v, t)
    decreases |v|
  {
    var n := |v|;
    if n > 0 {
      assert Indicator(n, t)[..n - 1] == Indicator(n - 1, t);
      DotIndicator(v[..n - 1], t);
      if t < n - 1 {
        assert v[t..][..|v[t..]| - 1] == v[..n - 1][t..];
      } else if t == n - 1 {
        var ind := Indicator(n, t);
        assert Dot(ind, v) == Dot(ind[..n - 1], v[..n - 1]) + ind[n - 1] * v[n - 1];
        assert Tail(v[..n - 1], t) == 0.0;
        assert v[t..] == [v[n - 1]];
        assert [v[n - 1]][..0] == [];
        assert Total([v[n - 1]]) == Total([]) + v[n - 1];
      }
    }
  }

  // ----- totals -----

  lemma {:induction false} TotalAppend(a: Vector, b: Vector)
    ensures Total(a + b) == Total(a) + Total(b)
    decreases |b|
  {
    if |b| > 0 {
      assert (a + b)[..|a + b| - 1] == a + b[..|b| - 1];
      TotalAppend(a, b[..|b| - 1]);
    } else {
      assert a + b == a;
    }
  }

  lemma TotalOnes(v: Vector)
    ensures Dot(Indicator(|v|, 0), v) == Total(v)
  {
    DotIndicator(v, 0);
    assert v[0..] == v;
  }

  lemma {:induction false} TotalNonNegative(v: Vector)
    requires NonNegative(v)
    ensures Total(v) >= 0.0
    decreases |v|
  {
    if |v| > 0 {
      TotalNonNegative(v[..|v| - 1]);
    }
  }

  lemma {:induction false} TotalZero(v: Vector)
    requires forall i :: 0 <= i < |v| ==> v[i] == 0.0
    ensures Total(v) == 0.0
    decreases |v|
  {
    if |v| > 0 {
      TotalZero(v[..|v| - 1]);
    }
  }

  /** The mass from `t` on is a part of the whole. */
  lemma TailBounds(v: Vector, t: nat)
    requires NonNegative(v)
    ensures 0.0 <= Tail(v, t) <= Total(v)
  {
    if t < |v| {
      assert v == v[..t] + v[t..];
      TotalAppend(v[..t], v[t..]);
      TotalNonNegative(v[..t]);
      TotalNonNegative(v[t..]);
    } else {
      TotalNonNegative(v);
    }
  }

  function ColumnTotals(m: Matrix, w: nat): (r: Vector)
    requires HasWidth(m, w)
    ensures |r| == w
    ensures forall k :: 0 <= k < w ==> r[k] == Total(Column(m, k))
  {
    seq(w, k requires 0 <= k < w => Total(Column(m, k)))
  }

  /** The total of `m v` weighs each entry of `v` by its column's total. */
  lemma {:induction false} TotalMatVec(m: Matrix, v: Vector)
    requires HasWidth(m, |v|)
    ensures Total(MatVec(m, v)) == Dot(ColumnTotals(m, |v|), v)
    decreases |m|
  {
    var w := |v|;
    if |m| == 0 {
      DotZeroRight(v, ColumnTotals(m, w));
      DotCommutes(ColumnTotals(m, w), v);
    } else {
      var m' := m[..|m| - 1];
      var row := m[|m| - 1];
      TotalMatVec(m', v);
      assert MatVec(m, v)[..|m| - 1] == MatVec(m', v);
      forall k | 0 <= k < w
        ensures ColumnTotals(m, w)[k] == Add(ColumnTotals(m', w), row)[k]
      {
        assert Column(m, k)[..|m| - 1] == Column(m', k);
      }
      assert ColumnTotals(m, w) == Add(ColumnTotals(m', w), row);
      DotAdd(ColumnTotals(m', w), row, v);
    }
  }

  lemma {:induction false} DotCommutes(a: Vector, b: Vector)
    requires |a| == |b|
    ensures Dot(a, b) == Dot(b, a)
    decreases |a|
  {
    if |a| > 0 {
      DotCommutes(a[..|a| - 1], b[..|b| - 1]);
    }
  }

  /** A column-stochastic matrix conserves total mass. */
  lemma StochasticConservesTotal(m: Matrix, v: Vector)
    requires ColumnStochastic(m) && |v| == |m|
    ensures Total(MatVec(m, v)) == Total(v)
  {
    TotalMatVec(m, v);
    assert ColumnTotals(m, |v|) == Indicator(|v|, 0);
    TotalOnes(v);
  }

  /** No entry is negative and every column from `s` on sums to at most 1: the
      chain may lose mass from those states but never gains any. */
  predicate SubStochasticFrom(m: Matrix, s: nat)
  {
    && IsSquare(m, |m|)
    && NonNegativeEntries(m)
    && forall j :: s <= j < |m| ==> Total(Column(m, j)) <= 1.0
  }

  /** Weights of at most 1 on the part of `v` that carries mass give at most its total. */
  lemma {:induction false} DotAtMostTotal(w: Vector, v: Vector, s: nat)
    requires |w| == |v| && NonNegative(v)
    requires forall i :: 0 <= i < |v| && i < s ==> v[i] == 0.0
    requires forall i :: s <= i < |w| ==> w[i] <= 1.0
    ensures Dot(w, v) <= Total(v)
    decreases |w|
  {
    var n := |w|;
    if n > 0 {
      DotAtMostTotal(w[..n - 1], v[..n - 1], s);
      assert v[..n - 1] == v[..|v| - 1];
      if n - 1 >= s {
        WeightAtMostOne(w[n - 1], v[n - 1]);
      }
    }
  }

  lemma WeightAtMostOne(w: real, x: real)
    requires w <= 1.0 && x >= 0.0
    ensures w * x <= x
  {
    assert (1.0 - w) * x >= 0.0;
  }

  /** A matrix that never gains mass from the states `s` on does not raise the
      total of a distribution that has no mass below `s`. */
  lemma SubStochasticMatVec(m: Matrix, v: Vector, s: nat)
    requires SubStochasticFrom(m, s) && |v| == |m| && NonNegative(v)
    requires forall i :: 0 <= i < |v| && i < s ==> v[i] == 0.0
    ensures Total(MatVec(m, v)) <= Total(v)
  {
    TotalMatVec(m, v);
    DotAtMostTotal(ColumnTotals(m, |v|), v, s);
  }

  lemma NonNegativeMatVec(m: Matrix, v: Vector)
    requires HasWidth(m, |v|) && NonNegativeEntries(m) && NonNegative(v)
    ensures NonNegative(MatVec(m, v))
  {
    forall i | 0 <= i < |m|
      ensures MatVec(m, v)[i] >= 0.0
    {
      DotNonNegative(m[i], v);
    }
  }

  // ----- products and powers -----

  /** Column `j` of a product is the left factor applied to column `j` of the right one. */
  lemma ColumnOfProduct(a: Matrix, b: Matrix, j: nat)
    requires IsSquare(a, |a|) && IsSquare(b, |a|) && j < |a|
    ensures Column(MatMul(a, b), j) == MatVec(a, Column(b, j))
  {
  }

  /** Applying a matrix to a one-hot state reads off a column. */
  lemma MatVecOneHot(m: Matrix, k: nat)
    requires IsSquare(m, |m|) && k < |m|
    ensures MatVec(m, OneHot(|m|, k)) == Column(m, k)
  {
    forall i | 0 <= i < |m|
      ensures Dot(m[i], OneHot(|m|, k)) == m[i][k]
    {
      DotOneHot(m[i], k);
    }
  }

  lemma MatMulIdentity(m: Matrix)
    requires IsSquare(m, |m|)
    ensures MatMul(m, Identity(|m|)) == m
  {
    var n := |m|;
    forall i | 0 <= i < n
      ensures MatMul(m, Identity(n))[i] == m[i]
    {
      forall j | 0 <= j < n
        ensures MatMul(m, Identity(n))[i][j] == m[i][j]
      {
        assert Column(Identity(n), j) == OneHot(n, j);
        DotOneHot(m[i], j);
      }
    }
  }

  /** `matrix_power` at 0, 1 and 2: the identity, the matrix, its square. */
  lemma PowerSmall(m: Matrix)
    requires IsSquare(m, |m|)
    ensures Power(m, 0) == Identity(|m|)
    ensures Power(m, 1) == m
    ensures Power(m, 2) == MatMul(m, m)
  {
    MatMulIdentity(m);
  }

  lemma IdentityStochastic(n: nat)
    ensures ColumnStochastic(Identity(n))
    ensures LowerTriangular(Identity(n))
  {
    forall j | 0 <= j < n
      ensures Total(Column(Identity(n), j)) == 1.0
    {
      assert Column(Identity(n), j) == OneHot(n, j);
      TotalOnes(OneHot(n, j));
      DotOneHot(Indicator(n, 0), j);
      DotCommutes(Indicator(n, 0), OneHot(n, j));
    }
  }

  /** Column-stochastic matrices are closed under products. */
  lemma MatMulStochastic(a: Matrix, b: Matrix)
    requires ColumnStochastic(a) && ColumnStochastic(b) && |b| == |a|
    ensures ColumnStochastic(MatMul(a, b))
  {
    var p := MatMul(a, b);
    forall j | 0 <= j < |a|
      ensures Total(Column(p, j)) == 1.0
      ensures NonNegative(Column(p, j))
    {
      ColumnOfProduct(a, b, j);
      StochasticConservesTotal(a, Column(b, j));
      NonNegativeMatVec(a, Column(b, j));
    }
    forall i, j | 0 <= i < |p| && 0 <= j < |p[i]|
      ensures p[i][j] >= 0.0
    {
      assert Column(p, j)[i] == p[i][j];
    }
  }

  /** Lower-triangular matrices are closed under products. */
  lemma MatMulLowerTriangular(a: Matrix, b: Matrix)
    requires IsSquare(a, |a|) && IsSquare(b, |a|) && LowerTriangular(a) && LowerTriangular(b)
    ensures LowerTriangular(MatMul(a, b))
  {
    forall i, j | 0 <= i < j < |a|
      ensures MatMul(a, b)[i][j] == 0.0
    {
      var col := Column(b, j);
      forall k | 0 <= k < |a|
        ensures a[i][k] * col[k] == 0.0
      {
        if k > i {
          assert a[i][k] == 0.0;
        } else {
          assert col[k] == b[k][j] == 0.0;
        }
      }
      DotZeroTerms(a[i], col);
    }
  }

  /** Every power of a column-stochastic, lower-triangular matrix is again both. */
  lemma {:induction false} PowerStochastic(m: Matrix, k: nat)
    requires ColumnStochastic(m) && LowerTriangular(m)
    ensures ColumnStochastic(Power(m, k))
    ensures LowerTriangular(Power(m, k))
    decreases k
  {
    if k == 0 {
      IdentityStochastic(|m|);
    } else {
      PowerStochastic(m, k - 1);
      MatMulStochastic(m, Power(m, k - 1));
      MatMulLowerTriangular(m, Power(m, k - 1));
    }
  }

  /** Powers of a lower-triangular matrix with non-negative entries stay so. */
  lemma {:induction false} PowerNonNegative(m: Matrix, k: nat)
    requires IsSquare(m, |m|) && NonNegativeEntries(m) && LowerTriangular(m)
    ensures NonNegativeEntries(Power(m, k))
    ensures LowerTriangular(Power(m, k))
    decreases k
  {
    if k == 0 {
      IdentityStochastic(|m|);
    } else {
      var p := Power(m, k - 1);
      PowerNonNegative(m, k - 1);
      MatMulLowerTriangular(m, p);
      forall i, j | 0 <= i < |m| && 0 <= j < |m|
        ensures MatMul(m, p)[i][j] >= 0.0
      {
        DotNonNegative(m[i], Column(p, j));
      }
    }
  }

  /** Matrices that never gain mass from the states `s` on are closed under
      products, as long as the right factor is lower-triangular. */
  lemma MatMulSubStochastic(a: Matrix, b: Matrix, s: nat)
    requires SubStochasticFrom(a, s) && SubStochasticFrom(b, s) && |b| == |a| && LowerTriangular(b)
    ensures SubStochasticFrom(MatMul(a, b), s)
  {
    var p := MatMul(a, b);
    forall j | s <= j < |a|
      ensures Total(Column(p, j)) <= 1.0
    {
      var col := Column(b, j);
      ColumnOfProduct(a, b, j);
      forall i | 0 <= i < |col| && i < s
        ensures col[i] == 0.0
      {
        assert col[i] == b[i][j];
      }
      SubStochasticMatVec(a, col, s);
    }
    forall i, j | 0 <= i < |p| && 0 <= j < |p[i]|
      ensures p[i][j] >= 0.0
    {
      DotNonNegative(a[i], Column(b, j));
    }
  }

  /** Every power of a lower-triangular matrix that never gains mass from the
      states `s` on keeps that property. */
  lemma {:induction false} PowerSubStochastic(m: Matrix, k: nat, s: nat)
    requires SubStochasticFrom(m, s) && LowerTriangular(m)
    ensures SubStochasticFrom(Power(m, k), s)
    decreases k
  {
    if k == 0 {
      IdentityStochastic(|m|);
    } else {
      PowerSubStochastic(m, k - 1, s);
      PowerNonNegative(m, k - 1);
      MatMulSubStochastic(m, Power(m, k - 1), s);
    }
  }

  /** A last state that only leads to itself stays absorbing under every power. */
  lemma {:induction false} PowerAbsorbing(m: Matrix, k: nat)
    requires IsSquare(m, |m|) && |m| > 0
    requires Column(m, |m| - 1) == OneHot(|m|, |m| - 1)
    ensures Column(Power(m, k), |m| - 1) == OneHot(|m|, |m| - 1)
    decreases k
  {
    var n := |m|;
    if k == 0 {
      assert Column(Identity(n), n - 1) == OneHot(n, n - 1);
    } else {
      PowerAbsorbing(m, k - 1);
      ColumnOfProduct(m, Power(m, k - 1), n - 1);
      MatVecOneHot(m, n - 1);
    }
  }

  /** The rows from `t` down of a lower-triangular column-stochastic matrix
      keep the whole mass of every column `t` or later. */
  lemma LowerRowsColumnTotals(m: Matrix, t: nat)
    requires ColumnStochastic(m) && LowerTriangular(m) && t < |m|
    ensures forall k :: 0 <= k < |m| ==> ColumnTotals(m[t..], |m|)[k] >= Indicator(|m|, t)[k]
  {
    var n := |m|;
    var low := m[t..];
    forall k | 0 <= k < n
      ensures ColumnTotals(low, n)[k] >= Indicator(n, t)[k]
    {
      assert Column(m, k) == Column(m[..t], k) + Column(low, k);
      TotalAppend(Column(m[..t], k), Column(low, k));
      if k >= t {
        TotalZero(Column(m[..t], k));
      } else {
        TotalNonNegative(Column(low, k));
        TotalNonNegative(Column(m[..t], k));
      }
    }
  }

  /** One step of a lower-triangular column-stochastic chain never lowers the
      mass at or above any state: progress is never lost. */
  lemma TailMonotone(m: Matrix, v: Vector, t: nat)
    requires ColumnStochastic(m) && LowerTriangular(m) && |v| == |m| && NonNegative(v)
    ensures Tail(MatVec(m, v), t) >= Tail(v, t)
  {
    var n := |m|;
    if t < n {
      var low := m[t..];
      TailOfMatVec(m, v, t);
      TotalMatVec(low, v);
      LowerRowsColumnTotals(m, t);
      DotMonotone(ColumnTotals(low, n), Indicator(n, t), v);
      DotIndicator(v, t);
    }
  }

  lemma TailOfMatVec(m: Matrix, v: Vector, t: nat)
    requires HasWidth(m, |v|) && t < |m|
    ensures HasWidth(m[t..], |v|)
    ensures Tail(MatVec(m, v), t) == Total(MatVec(m[t..], v))
  {
    assert MatVec(m, v)[t..] == MatVec(m[t..], v);
  }
}

=== FILE: ops.dfy ===
/** The per-category scoring rules (src/yahtzee_rl/scoring/ops.py). */
module ScoringOps {
  import opened Sequences
  import opened Dice
  import opened Categories

  /** `dice_sum_if_equal`: `np.sum(dice == target)` adds up booleans, so despite
      its name the result is the number of dice showing `target`, not their pip sum. */
  function DiceSumIfEqual(dice: seq<int>, target: int): (n: nat)
    ensures n == Count(dice, target)
    ensures n <= |dice|
  {
    CountMatches(dice, target);
    CountBound(dice, target);
    Sum(Matches(dice, target))
  }

  /** The boolean array `dice == target` as 0/1 integers. */
  function Matches(dice: seq<int>, target: int): seq<int>
  {
    seq(|dice|, i requires 0 <= i < |dice| => if dice[i] == target then 1 else 0)
  }

  lemma {:induction false} CountMatches(dice: seq<int>, target: int)
    ensures Sum(Matches(dice, target)) == Count(dice, target)
    decreases |dice|
  {
    if |dice| > 0 {
      CountMatches(dice[1..], target);
      assert Matches(dice, target)[1..] == Matches(dice[1..], target);
      assert dice == [dice[0]] + dice[1..];
    }
  }

  const SmallWindows: seq<seq<int>> := [[1, 2, 3, 4], [2, 3, 4, 5], [3, 4, 5, 6]]
  const LargeWindows: seq<seq<int>> := [[1, 2, 3, 4, 5], [2, 3, 4, 5, 6]]

  predicate ThreeOfAKindHolds(dice: seq<int>)
  {
    exists i :: 0 <= i < |dice| && Count(dice, dice[i]) >= 3
  }

  predicate FourOfAKindHolds(dice: seq<int>)
  {
    exists i :: 0 <= i < |dice| && Count(dice, dice[i]) >= 4
  }

  /** `most_common(2)`: the (up to) two largest counts must each be 2 or 3. */
  predicate FullHouseHolds(dice: seq<int>)
  {
    var top := SortedCounts(dice);
    forall k :: 0 <= k < |top| && k < 2 ==> top[k] == 2 || top[k] == 3
  }

  predicate SmallStraightHolds(dice: seq<int>)
  {
    Coverage(dice, SmallWindows[0]) == 4 || Coverage(dice, SmallWindows[1]) == 4
      || Coverage(dice, SmallWindows[2]) == 4
  }

  predicate LargeStraightHolds(dice: seq<int>)
  {
    Coverage(dice, LargeWindows[0]) == 5 || Coverage(dice, LargeWindows[1]) == 5
  }

  predicate YahtzeeHolds(dice: seq<int>)
  {
    exists i :: 0 <= i < |dice| && Count(dice, dice[i]) == 5
  }

  /** `combo_satisfied`: whether the dice meet the named combination. Names it
      does not list (the upper categories, "chance", anything else) give false. */
  function ComboSatisfied(dice: seq<int>, move: string): (holds: bool)
    ensures holds ==> IsComboName(move)
  {
    if move == "three_of_a_kind" then ThreeOfAKindHolds(dice)
    else if move == "four_of_a_kind" then FourOfAKindHolds(dice)
    else if move == "full_house" then FullHouseHolds(dice)
    else if move == "small_straight" then SmallStraightHolds(dice)
    else if move == "large_straight" then LargeStraightHolds(dice)
    else if move == "yahtzee" then YahtzeeHolds(dice)
    else false
  }

  /** The names `combo_satisfied` recognises. */
  predicate IsComboName(move: string)
  {
    move in ["three_of_a_kind", "four_of_a_kind", "full_house", "small_straight",
             "large_straight", "yahtzee"]
  }

  lemma ComboUnknownMove(dice: seq<int>, move: string)
    requires !IsComboName(move)
    ensures !ComboSatisfied(dice, move)
  {
  }

  /** Each lower scorer asks `combo_satisfied` with its own category's name;
      "chance" is not a combination name. */
  lemma ComboByName(dice: seq<int>, c: Category)
    ensures ComboSatisfied(dice, Name(c)) ==
      match c
      case ThreeOfAKind => ThreeOfAKindHolds(dice)
      case FourOfAKind => FourOfAKindHolds(dice)
      case FullHouse => FullHouseHolds(dice)
      case SmallStraight => SmallStraightHolds(dice)
      case LargeStraight => LargeStraightHolds(dice)
      case Yahtzee => YahtzeeHolds(dice)
      case _ => false
  {
    var n := Name(c);
    var t, f, h, s, l, y := "three_of_a_kind", "four_of_a_kind", "full_house",
      "small_straight", "large_straight", "yahtzee";
    match c
    case ThreeOfAKind =>
    case FourOfAKind => assert n[1] != t[1];
    case FullHouse => assert |n| != |t| && n[1] != f[1];
    case SmallStraight => assert n[0] != t[0] && n[0] != f[0] && |n| != |h|;
    case LargeStraight => assert n[0] != t[0] && n[0] != f[0] && |n| != |h| && n[0] != s[0];
    case Yahtzee => assert |n| != |t| && |n| != |f| && |n| != |h| && |n| != |s| && |n| != |l|;
    case _ =>
      assert |n| <= 6;
  }

  /** Score of `dice` in category `c`: the scorer the scorecard stores for it. */
  function Score(c: Category, dice: seq<int>): (s: int)
    ensures IsUpper(c) ==> s == Count(dice, Face(c))
    ensures c == ThreeOfAKind || c == FourOfAKind ==> s == 0 || s == Sum(dice)
    ensures c == FullHouse ==> s == 0 || s == 25
    ensures c == SmallStraight ==> s == 0 || s == 30
    ensures c == LargeStraight ==> s == 0 || s == 40
    ensures c == Yahtzee ==> s == 0 || s == 50
    ensures c == Chance ==> s == Sum(dice)
  {
    match c
    case Aces => DiceSumIfEqual(dice, 1)
    case Twos => DiceSumIfEqual(dice, 2)
    case Threes => DiceSumIfEqual(dice, 3)
    case Fours => DiceSumIfEqual(dice, 4)
    case Fives => DiceSumIfEqual(dice, 5)
    case Sixes => DiceSumIfEqual(dice, 6)
    case ThreeOfAKind => if ThreeOfAKindHolds(dice) then Sum(dice) else 0
    case FourOfAKind => if FourOfAKindHolds(dice) then Sum(dice) else 0
    case FullHouse => if FullHouseHolds(dice) then 25 else 0
    case SmallStraight => if SmallStraightHolds(dice) then 30 else 0
    case LargeStraight => if LargeStraightHolds(dice) then 40 else 0
    case Yahtzee => if YahtzeeHolds(dice) then 50 else 0
    case Chance => Sum(dice)
  }

  /** An upper category scores the number of dice showing its face (at most the
      number of dice), not face times that number. */
  lemma UpperScoreIsCount(c: Category, dice: seq<int>)
    requires IsUpper(c)
    ensures Score(c, dice) == Count(dice, Face(c))
    ensures 0 <= Score(c, dice) <= |dice|
  {
  }

  /** `twos([2, 2, 3, 4, 5])` is 2, where face-weighted scoring would give 4. */
  lemma TwosCountsDice()
    ensures Score(Twos, [2, 2, 3, 4, 5]) == 2
  {
    var d := [2, 2, 3, 4, 5];
    assert d == [2, 2] + [3, 4, 5];
    assert Count(d, 2) == 2;
  }

  /** Upper scoring as evidently intended: face times the number of dice
      showing it, which the 63-point bonus threshold presupposes. It is the
      counted score weighted by the face. */
  function UpperScoreIntended(c: Category, dice: seq<int>): (s: int)
    requires IsUpper(c)
    ensures s == Face(c) * Score(c, dice)
    ensures IsHand(dice) ==> 0 <= s <= 5 * Face(c)
    ensures s == 0 <==> Face(c) !in dice
  {
    var n := DiceSumIfEqual(dice, Face(c));
    CountBound(dice, Face(c));
    assert IsHand(dice) ==> (5 - n) * Face(c) >= 0;
    assert n > 0 <==> Face(c) in multiset(dice);
    Face(c) * n
  }

  /** The repository's expected `twos([2, 2, 3, 4, 5])`, 4, is met by the
      intended scorer and missed by the counting one, which gives 2. */
  lemma IntendedTwosExample(d: seq<int>)
    requires d == [2, 2, 3, 4, 5]
    ensures UpperScoreIntended(Twos, d) == 4
    ensures Score(Twos, d) == 2
  {
    assert d == [2, 2] + [3, 4, 5];
    assert Count(d, 2) == 2;
  }

  /** Three of each face, as in the repository's bonus example, totals 63 under
      the intended scorer and only 18 when dice are counted. */
  lemma IntendedBonusExample(d1: seq<int>, d2: seq<int>, d3: seq<int>, d4: seq<int>, d5: seq<int>, d6: seq<int>)
    requires d1 == [1, 1, 1, 2, 3] && d2 == [2, 2, 2, 4, 5] && d3 == [3, 3, 3, 1, 2]
    requires d4 == [4, 4, 4, 1, 2] && d5 == [5, 5, 5, 1, 2] && d6 == [6, 6, 6, 1, 2]
    ensures UpperScoreIntended(Aces, d1) + UpperScoreIntended(Twos, d2) + UpperScoreIntended(Threes, d3)
      + UpperScoreIntended(Fours, d4) + UpperScoreIntended(Fives, d5) + UpperScoreIntended(Sixes, d6) == 63
    ensures Score(Aces, d1) + Score(Twos, d2) + Score(Threes, d3)
      + Score(Fours, d4) + Score(Fives, d5) + Score(Sixes, d6) == 18
  {
    ThreeOfFace(Aces, d1);
    ThreeOfFace(Twos, d2);
    ThreeOfFace(Threes, d3);
    ThreeOfFace(Fours, d4);
    ThreeOfFace(Fives, d5);
    ThreeOfFace(Sixes, d6);
  }

  /** Five dice whose first three show the face and last two do not score 3
      counted, and three times the face intended. */
  lemma ThreeOfFace(c: Category, d: seq<int>)
    requires IsUpper(c) && |d| == 5
    requires d[0] == Face(c) && d[1] == Face(c) && d[2] == Face(c)
    requires d[3] != Face(c) && d[4] != Face(c)
    ensures Score(c, d) == 3
    ensures UpperScoreIntended(c, d) == 3 * Face(c)
  {
    var f := Face(c);
    assert d == [f, f, f] + [d[3], d[4]];
    assert multiset(d) == multiset([f, f, f]) + multiset([d[3], d[4]]);
    assert multiset([d[3], d[4]])[f] == 0;
  }

  /** Three of a kind scores the pip total exactly when the largest face count
      reaches 3, and 0 otherwise. */
  lemma ThreeOfAKindMeaning(dice: seq<int>)
    requires |dice| > 0
    ensures Score(ThreeOfAKind, dice) == (if SortedCounts(dice)[0] >= 3 then Sum(dice) else 0)
  {
    TopCount(dice);
  }

  /** Four of a kind scores the pip total exactly when the largest face count
      reaches 4, and 0 otherwise. */
  lemma FourOfAKindMeaning(dice: seq<int>)
    requires |dice| > 0
    ensures Score(FourOfAKind, dice) == (if SortedCounts(dice)[0] >= 4 then Sum(dice) else 0)
  {
    TopCount(dice);
  }

  /** On five dice, Yahtzee scores 50 exactly when all five dice agree. */
  lemma YahtzeeMeaning(dice: seq<int>)
    requires |dice| == 5
    ensures Score(Yahtzee, dice) == (if forall i :: 0 <= i < 5 ==> dice[i] == dice[0] then 50 else 0)
  {
    if forall i :: 0 <= i < 5 ==> dice[i] == dice[0] {
      AllSameCount(dice, dice[0]);
    }
    if exists i :: 0 <= i < 5 && Count(dice, dice[i]) == 5 {
      var i :| 0 <= i < 5 && Count(dice, dice[i]) == 5;
      forall k | 0 <= k < 5
        ensures dice[k] == dice[i]
      {
        if dice[k] != dice[i] {
          CountPairBound(dice, dice[k], dice[i]);
        }
      }
    }
  }

  /** On five dice the full-house rule accepts exactly the hands with one face
      shown two or three times and a different face shown exactly twice: a true
      full house, or two pairs plus a single. */
  lemma FullHouseMeaning(dice: seq<int>)
    requires |dice| == 5
    ensures Score(FullHouse, dice) == 25 <==>
      exists i, j :: 0 <= i < 5 && 0 <= j < 5 && dice[i] != dice[j]
        && 2 <= Count(dice, dice[i]) <= 3 && Count(dice, dice[j]) == 2
    ensures Score(FullHouse, dice) == 0 || Score(FullHouse, dice) == 25
  {
    if FullHouseHolds(dice) {
      FullHouseWitness(dice);
    }
    if exists i, j :: 0 <= i < 5 && 0 <= j < 5 && dice[i] != dice[j]
        && 2 <= Count(dice, dice[i]) <= 3 && Count(dice, dice[j]) == 2 {
      var i, j :| 0 <= i < 5 && 0 <= j < 5 && dice[i] != dice[j]
        && 2 <= Count(dice, dice[i]) <= 3 && Count(dice, dice[j]) == 2;
      FullHouseFromWitness(dice, i, j);
    }
  }

  /** A hand passing the rule has two different faces with the counts it checks. */
  lemma FullHouseWitness(dice: seq<int>)
    requires |dice| == 5 && FullHouseHolds(dice)
    ensures exists i, j ::
      0 <= i < 5 && 0 <= j < 5 && dice[i] != dice[j] && 2 <= Count(dice, dice[i]) <= 3 && Count(dice, dice[j]) == 2
  {
    var top := SortedCounts(dice);
    TopCount(dice);
    if |top| < 2 {
      forall k | 0 <= k < 5
        ensures dice[k] == dice[0]
      {
        if dice[k] != dice[0] {
          SecondCount(dice, dice[k], dice[0]);
        }
      }
      AllSameCount(dice, dice[0]);
      assert false;
    }
    var a, b := TopTwoFaces(dice);
    CountPairBound(dice, a, b);
    var i, j := FirstIndex(dice, a), FirstIndex(dice, b);
    assert dice[i] != dice[j] && 2 <= Count(dice, dice[i]) <= 3 && Count(dice, dice[j]) == 2;
  }

  /** Two different faces counted 2 or 3 and exactly 2 make the rule pass. */
  lemma FullHouseFromWitness(dice: seq<int>, i: nat, j: nat)
    requires |dice| == 5 && i < 5 && j < 5 && dice[i] != dice[j]
    requires 2 <= Count(dice, dice[i]) <= 3 && Count(dice, dice[j]) == 2
    ensures FullHouseHolds(dice)
  {
    var top := SortedCounts(dice);
    TopCount(dice);
    SecondCount(dice, dice[i], dice[j]);
    var a, b := TopTwoFaces(dice);
    CountPairBound(dice, a, b);
    assert top[0] >= top[1];
  }

  /** Two pairs and a single pass the full-house rule. */
  lemma TwoPairsIsFullHouse(d: seq<int>)
    requires d == [2, 2, 3, 3, 4]
    ensures Score(FullHouse, d) == 25
  {
    FullHouseMeaning(d);
    assert multiset(d) == multiset{2, 2, 3, 3, 4};
    assert Count(d, d[0]) == 2 && Count(d, d[2]) == 2;
  }

  lemma TripleAndPairIsFullHouse(d: seq<int>)
    requires d == [2, 2, 2, 5, 5]
    ensures Score(FullHouse, d) == 25
  {
    FullHouseMeaning(d);
    assert multiset(d) == multiset{2, 2, 2, 5, 5};
    assert Count(d, d[0]) == 3 && Count(d, d[3]) == 2;
  }

  /** Four of a kind fails the full-house rule. */
  lemma FourOfAKindIsNotFullHouse(d: seq<int>)
    requires d == [3, 3, 3, 3, 5]
    ensures Score(FullHouse, d) == 0
  {
    TopCount(d);
    assert d == [3, 3, 3, 3] + [5];
    assert Count(d, 3) == 4;
  }

  /** Five of a kind fails the full-house rule. */
  lemma FiveOfAKindIsNotFullHouse(d: seq<int>)
    requires d == [5, 5, 5, 5, 5]
    ensures Score(FullHouse, d) == 0
  {
    TopCount(d);
    AllSameCount(d, 5);
  }

  /** Small straight scores 30 exactly when one of 1-4, 2-5, 3-6 is fully
      present among the dice, and 0 otherwise. */
  lemma SmallStraightMeaning(dice: seq<int>)
    ensures Score(SmallStraight, dice) == 30 <==>
      exists w :: 0 <= w < 3 && forall v :: v in SmallWindows[w] ==> v in dice
    ensures Score(SmallStraight, dice) == 0 || Score(SmallStraight, dice) == 30
  {
    CoverageMeaning(dice, SmallWindows[0]);
    CoverageMeaning(dice, SmallWindows[1]);
    CoverageMeaning(dice, SmallWindows[2]);
  }

  /** Large straight scores 40 exactly when 1-5 or 2-6 is fully present. */
  lemma LargeStraightMeaning(dice: seq<int>)
    ensures Score(LargeStraight, dice) == 40 <==>
      exists w :: 0 <= w < 2 && forall v :: v in LargeWindows[w] ==> v in dice
    ensures Score(LargeStraight, dice) == 0 || Score(LargeStraight, dice) == 40
  {
    CoverageMeaning(dice, LargeWindows[0]);
    CoverageMeaning(dice, LargeWindows[1]);
  }

  /** The most a five-die hand can score in each category: 5 counted dice in
      the upper section, five sixes for the pip-total categories, the fixed
      value for the others. */
  function MaxScore(c: Category): nat
  {
    if IsUpper(c) then 5
    else match c
      case FullHouse => 25
      case LargeStraight => 40
      case Yahtzee => 50
      case _ => 30
  }

  /** Every score of a five-die hand lies between 0 and 50, and at most its
      category's most; the upper ones are at most 5. */
  lemma ScoreBounds(c: Category, dice: seq<int>)
    requires IsHand(dice)
    ensures 0 <= Score(c, dice) <= 50
    ensures IsUpper(c) ==> Score(c, dice) <= 5
    ensures Score(c, dice) <= MaxScore(c)
  {
    HandSumBounds(dice);
  }

  lemma HandSumBounds(dice: seq<int>)
    requires IsHand(dice)
    ensures 5 <= Sum(dice) <= 30
  {
    assert dice[1..][1..] == dice[2..];
    assert dice[2..][1..] == dice[3..];
    assert dice[3..][1..] == dice[4..];
    assert dice[4..][1..] == [];
    assert Sum(dice) == dice[0] + Sum(dice[1..]);
    assert Sum(dice[1..]) == dice[1] + Sum(dice[2..]);
    assert Sum(dice[2..]) == dice[2] + Sum(dice[3..]);
    assert Sum(dice[3..]) == dice[3] + Sum(dice[4..]);
    assert Sum(dice[4..]) == dice[4];
  }
}

=== FILE: probabilities.dfy ===
/** The probability engine: projects a hand onto a chain's starting state,
    pushes it through the matrix power for the remaining rerolls and reads off
    the chance of reaching the category (src/yahtzee_rl/markov/probabilities.py). */
module Probabilities {
  import opened Wrappers
  import opened Categories
  import opened Dice
  import opened Matrices
  import opened Transitions
  import opened ScoringOps
  import opened Scorecard

  /** Real power `x^n`, the `(5/6) ** remaining_rolls` of the source. */
  function Pow(x: real, n: nat): real
  {
    if n == 0 then 1.0 else x * Pow(x, n - 1)
  }

  lemma {:induction false} PowUnit(x: real, n: nat)
    requires 0.0 <= x <= 1.0
    ensures 0.0 <= Pow(x, n) <= 1.0
    decreases n
  {
    if n > 0 {
      PowUnit(x, n - 1);
      ProductUnit(x, Pow(x, n - 1));
    }
  }

  lemma ProductUnit(a: real, b: real)
    requires 0.0 <= a <= 1.0 && 0.0 <= b <= 1.0
    ensures 0.0 <= a * b <= 1.0
  {
    assert 0.0 <= a * b;
    assert a * b <= b;
  }

  /** `np.arange(6)`: the dice count each upper-count state stands for. */
  function CountWeights(): (w: Vector)
    ensures |w| == 6 && forall i :: 0 <= i < 6 ==> w[i] == i as real
  {
    [0.0, 1.0, 2.0, 3.0, 4.0, 5.0]
  }

  /** The distribution of a chain `r` rerolls after starting in state `k`:
      column `k` of the matrix power. */
  function Project(m: Matrix, r: nat, k: nat): (v: Vector)
    requires IsSquare(m, |m|) && k < |m|
    ensures |v| == |m|
    ensures v == Column(Power(m, r), k)
  {
    MatVecOneHot(Power(m, r), k);
    MatVec(Power(m, r), OneHot(|m|, k))
  }

  /** Facts about a projected distribution of a lower-triangular chain: no mass
      below the start (progress is never lost), and with no rerolls left all of
      it stays on the start. */
  lemma ProjectShape(m: Matrix, r: nat, k: nat)
    requires IsSquare(m, |m|) && NonNegativeEntries(m) && LowerTriangular(m) && k < |m|
    ensures NonNegative(Project(m, r, k))
    ensures forall i :: 0 <= i < k ==> Project(m, r, k)[i] == 0.0
    ensures r == 0 ==> Project(m, r, k) == OneHot(|m|, k)
  {
    PowerNonNegative(m, r);
  }

  /** A projected distribution of a column-stochastic chain has total mass 1. */
  lemma ProjectTotal(m: Matrix, r: nat, k: nat)
    requires ColumnStochastic(m) && LowerTriangular(m) && k < |m|
    ensures Total(Project(m, r, k)) == 1.0
  {
    PowerStochastic(m, r);
  }

  /** A distribution with no mass below `k` has all its mass at `k` and above. */
  lemma TailFromStart(v: Vector, k: nat, t: nat)
    requires t <= k < |v| && forall i :: 0 <= i < k ==> v[i] == 0.0
    ensures Tail(v, t) == Total(v)
  {
    assert v == v[..t] + v[t..];
    TotalAppend(v[..t], v[t..]);
    TotalZero(v[..t]);
  }

  /** One more reroll applies the matrix once more to the distribution. */
  lemma ProjectStep(m: Matrix, r: nat, k: nat)
    requires IsSquare(m, |m|) && k < |m|
    ensures Project(m, r + 1, k) == MatVec(m, Project(m, r, k))
  {
    ColumnOfProduct(m, Power(m, r), k);
  }

  /** A chain that never gains mass from the states `s` on, started in one of
      them, has total mass at most 1 after any number of rerolls. */
  lemma ProjectTotalAtMost(m: Matrix, r: nat, k: nat, s: nat)
    requires SubStochasticFrom(m, s) && LowerTriangular(m) && s <= k < |m|
    ensures Total(Project(m, r, k)) <= 1.0
  {
    PowerSubStochastic(m, r, s);
  }

  /** Hence no single state of such a chain holds more than 1. */
  lemma ProjectEntryAtMostOne(m: Matrix, r: nat, k: nat, i: nat)
    requires SubStochasticFrom(m, k) && LowerTriangular(m) && k < |m| && i < |m|
    ensures Project(m, r, k)[i] <= 1.0
  {
    var v := Project(m, r, k);
    ProjectShape(m, r, k);
    ProjectTotalAtMost(m, r, k, k);
    EntryAtMostTotal(v, i);
  }

  lemma EntryAtMostTotal(v: Vector, i: nat)
    requires NonNegative(v) && i < |v|
    ensures v[i] <= Total(v)
  {
    TailBounds(v, i);
    TailBounds(v, i + 1);
    assert v[i..] == [v[i]] + v[i + 1..];
    TotalAppend([v[i]], v[i + 1..]);
    assert [v[i]][..0] == [];
  }

  datatype UpperOutlook = UpperOutlook(expected: real, dist: Vector)

  /** `upper_section_markov`: the distribution over 0..5 dice showing the
      category's face after `r` rerolls, and its expected count. */
  function UpperSectionMarkov(dice: seq<int>, c: Category, r: nat): (o: UpperOutlook)
    requires IsHand(dice) && IsUpper(c)
    ensures |o.dist| == 6 && NonNegative(o.dist) && Total(o.dist) == 1.0
    ensures 0.0 <= o.expected <= 5.0
    ensures forall i :: 0 <= i < Count(dice, Face(c)) ==> o.dist[i] == 0.0
    ensures r == 0 ==> o.dist == OneHot(6, Count(dice, Face(c)))
    ensures r == 0 ==> o.expected == Count(dice, Face(c)) as real
  {
    var count := Count(dice, Face(c));
    CountBound(dice, Face(c));
    UpperCountIsChain();
    var dist := Project(UpperCount, r, count);
    ProjectShape(UpperCount, r, count);
    ProjectTotal(UpperCount, r, count);
    var expected := Dot(CountWeights(), dist);
    DotBounded(CountWeights(), dist, 5.0);
    if r == 0 then
      DotCommutes(CountWeights(), dist);
      DotOneHot(CountWeights(), count);
      UpperOutlook(expected, dist)
    else UpperOutlook(expected, dist)
  }

  /** `upper_section_probability`: the chance of ending with 3 or more of the
      face; 0 for a marked or non-upper category. */
  function UpperSectionProbability(dice: seq<int>, b: Board, c: Category, r: nat): (p: real)
    requires IsHand(dice) && WellFormed(b)
    ensures 0.0 <= p <= 1.0
    ensures !IsUpper(c) || IsMarked(b, c) ==> p == 0.0
    ensures IsUpper(c) && !IsMarked(b, c) && Count(dice, Face(c)) >= 3 ==> p == 1.0
    ensures IsUpper(c) && !IsMarked(b, c) && r == 0 ==> (p == 1.0 <==> Count(dice, Face(c)) >= 3)
  {
    if !IsUpper(c) || IsMarked(b, c) then 0.0
    else
      var dist := UpperSectionMarkov(dice, c, r).dist;
      TailBounds(dist, 3);
      var count := Count(dice, Face(c));
      if count >= 3 then
        TailFromStart(dist, count, 3);
        Tail(dist, 3)
      else if r == 0 then
        assert dist[3..] == OneHot(6, count)[3..];
        TotalZero(dist[3..]);
        Tail(dist, 3)
      else Tail(dist, 3)
  }

  /** `reaching_x`: the chance of ending with the run matrix in state `target`
      or beyond (at least target + 1 dice showing `face`). The source reads a
      wrapped-around state when the face is absent; every caller passes a face
      that occurs, which is required here. */
  function ReachingX(dice: seq<int>, face: int, target: nat, r: nat): (p: real)
    requires IsHand(dice) && Count(dice, face) >= 1
    ensures 0.0 <= p <= 1.0
    ensures Count(dice, face) - 1 >= target ==> p == 1.0
    ensures r == 0 ==> p == (if Count(dice, face) - 1 >= target then 1.0 else 0.0)
  {
    var count := Count(dice, face);
    CountBound(dice, face);
    RunsIsChain();
    var v := Project(Runs, r, count - 1);
    ProjectShape(Runs, r, count - 1);
    ProjectTotal(Runs, r, count - 1);
    TailBounds(v, target);
    if count - 1 >= target then
      TailFromStart(v, count - 1, target);
      Tail(v, target)
    else if r == 0 && target < 5 then
      assert v[target..] == OneHot(5, count - 1)[target..];
      TotalZero(v[target..]);
      Tail(v, target)
    else Tail(v, target)
  }

  /** Another reroll never lowers the chance of reaching a state. */
  lemma ReachingXMonotone(dice: seq<int>, face: int, target: nat, r: nat)
    requires IsHand(dice) && Count(dice, face) >= 1
    ensures ReachingX(dice, face, target, r) <= ReachingX(dice, face, target, r + 1)
  {
    var k := Count(dice, face) - 1;
    CountBound(dice, face);
    RunsIsChain();
    var v := Project(Runs, r, k);
    ProjectShape(Runs, r, k);
    ColumnOfProduct(Runs, Power(Runs, r), k);
    assert Project(Runs, r + 1, k) == MatVec(Runs, v);
    TailMonotone(Runs, v, target);
  }

  /** `simple_three_of_a_kind`: certain once the face shows 3 times, else the
      chance of reaching the run state 2 (three dice). */
  function SimpleThreeOfAKind(dice: seq<int>, face: int, r: nat): (p: real)
    requires IsHand(dice) && Count(dice, face) >= 1
    ensures 0.0 <= p <= 1.0
    ensures Count(dice, face) >= 3 ==> p == 1.0
    ensures r == 0 ==> (p == 1.0 <==> Count(dice, face) >= 3)
  {
    if Count(dice, face) >= 3 then 1.0 else ReachingX(dice, face, 2, r)
  }

  /** `simple_four_of_a_kind`: certain once the face shows 4 times, else the
      chance of reaching the run state 3 (four dice). */
  function SimpleFourOfAKind(dice: seq<int>, face: int, r: nat): (p: real)
    requires IsHand(dice) && Count(dice, face) >= 1
    ensures 0.0 <= p <= 1.0
    ensures Count(dice, face) >= 4 ==> p == 1.0
    ensures r == 0 ==> (p == 1.0 <==> Count(dice, face) >= 4)
  {
    if Count(dice, face) >= 4 then 1.0 else ReachingX(dice, face, 3, r)
  }

  /** `yahtzee` (probability): the chance that the most common face reaches
      five dice; certain for five equal dice, since that state is absorbing. */
  function YahtzeeProbability(dice: seq<int>, r: nat): (p: real)
    requires IsHand(dice)
    ensures 0.0 <= p <= 1.0
    ensures Score(Yahtzee, dice) == 50 ==> p == 1.0
  {
    var face := MostCommonFace(dice);
    YahtzeeMeaning(dice);
    if Score(Yahtzee, dice) == 50 then
      AllSameCount(dice, dice[0]);
      assert Count(dice, face) >= Count(dice, dice[0]);
      ReachingX(dice, face, 4, r)
    else ReachingX(dice, face, 4, r)
  }

  /** The largest face count, and the second largest or 0 when only one face
      occurs (`sorted_counts` padded to two entries). */
  function TopCounts(dice: seq<int>): (int, int)
    requires |dice| > 0
  {
    TopCount(dice);
    var top := SortedCounts(dice);
    (top[0], if |top| >= 2 then top[1] else 0)
  }

  /** On five dice, the two largest counts reach 3 and 2 exactly for a true
      full house: one face three times and another twice. */
  lemma TopCountsFullHouse(dice: seq<int>)
    requires |dice| == 5
    ensures TopCounts(dice).0 >= 3 && TopCounts(dice).1 >= 2 <==>
      exists i, j :: 0 <= i < 5 && 0 <= j < 5 && Count(dice, dice[i]) == 3 && Count(dice, dice[j]) == 2
  {
    TopCount(dice);
    var top := SortedCounts(dice);
    if TopCounts(dice).0 >= 3 && TopCounts(dice).1 >= 2 {
      var a, b := TopTwoFaces(dice);
      CountPairBound(dice, a, b);
      var i, j := FirstIndex(dice, a), FirstIndex(dice, b);
      assert Count(dice, dice[i]) == 3 && Count(dice, dice[j]) == 2;
    }
    if exists i, j :: 0 <= i < 5 && 0 <= j < 5 && Count(dice, dice[i]) == 3 && Count(dice, dice[j]) == 2 {
      var i, j :| 0 <= i < 5 && 0 <= j < 5 && Count(dice, dice[i]) == 3 && Count(dice, dice[j]) == 2;
      SecondCount(dice, dice[i], dice[j]);
    }
  }

  /** `full_house` (probability): the five-way case split on the two largest
      counts. The all-distinct case is the source's stated approximation
      0.05 * r, which stays a probability only up to 20 rerolls. */
  function FullHouseProbability(dice: seq<int>, r: nat): (p: real)
    requires IsHand(dice)
    ensures p >= 0.0
    ensures r <= 20 ==> p <= 1.0
    ensures TopCounts(dice).0 >= 3 && TopCounts(dice).1 >= 2 ==> p == 1.0
    ensures r == 0 ==> (p == 1.0 <==> TopCounts(dice).0 >= 3 && TopCounts(dice).1 >= 2)
    ensures r == 0 ==> p == 0.0 || p == 1.0
  {
    var (c0, c1) := TopCounts(dice);
    if c0 >= 3 && c1 >= 2 then 1.0
    else if c0 >= 3 then Miss(5.0 / 6.0, r)
    else if c0 >= 2 && c1 >= 2 then Miss(4.0 / 6.0, r)
    else if c0 >= 2 then PairToFullHouse(dice, r)
    else SinglesToFullHouse(r)
  }

  /** `1 - p ** r`: the chance that an event of per-roll miss probability `p`
      happens within `r` rolls; impossible with no rolls left. */
  function Miss(x: real, r: nat): (p: real)
    requires 0.0 <= x <= 1.0
    ensures 0.0 <= p <= 1.0
    ensures r == 0 ==> p == 0.0
  {
    PowUnit(x, r);
    1.0 - Pow(x, r)
  }

  /** The one-pair case: the most common face reaching three dice, times the
      chance of completing the pair; 0 with no rerolls left, since the most
      common face then shows fewer than three times. */
  function PairToFullHouse(dice: seq<int>, r: nat): (p: real)
    requires IsHand(dice)
    ensures 0.0 <= p <= 1.0
    ensures r == 0 ==> p == 0.0
  {
    var face := MostCommonFace(dice);
    var pTriple := ReachingX(dice, face, 2, r);
    var pPair := Miss(120.0 / 216.0, r);
    ProductUnit(pTriple, pPair);
    pTriple * pPair
  }

  /** The all-singles case: the approximation 0.05 per reroll, a probability
      only up to 20 rerolls. */
  function SinglesToFullHouse(r: nat): (p: real)
    ensures p >= 0.0
    ensures r <= 20 ==> p <= 1.0
    ensures r == 0 ==> p == 0.0
  {
    0.05 * r as real
  }

  /** A hand holding a true full house is certain to score it. */
  lemma FullHouseInHandIsCertain(dice: seq<int>, r: nat)
    requires IsHand(dice)
    requires exists i, j :: 0 <= i < 5 && 0 <= j < 5 && Count(dice, dice[i]) == 3 && Count(dice, dice[j]) == 2
    ensures FullHouseProbability(dice, r) == 1.0
  {
    TopCountsFullHouse(dice);
  }

  /** `[2, 2, 2, 5, 5]` is a full house whatever the number of rerolls. */
  lemma FullHouseExample(dice: seq<int>, r: nat)
    requires dice == [2, 2, 2, 5, 5]
    ensures FullHouseProbability(dice, r) == 1.0
  {
    assert dice == [2, 2, 2] + [5, 5];
    assert Count(dice, dice[0]) == 3 && Count(dice, dice[3]) == 2;
    FullHouseInHandIsCertain(dice, r);
  }

  /** Index of the first window, in listed order, that shares a value with the
      dice (not the one that shares the most). */
  function FirstOverlap(dice: seq<int>, windows: seq<seq<int>>): (k: Option<nat>)
    ensures k.Some? ==> k.value < |windows| && Coverage(dice, windows[k.value]) >= 1
    ensures k.Some? ==> forall j :: 0 <= j < k.value ==> Coverage(dice, windows[j]) == 0
    ensures k.None? ==> forall j :: 0 <= j < |windows| ==> Coverage(dice, windows[j]) == 0
  {
    if |windows| == 0 then None
    else if Coverage(dice, windows[0]) >= 1 then Some(0)
    else match FirstOverlap(dice, windows[1..])
      case None => None
      case Some(k) => Some(k + 1)
  }

  /** Every window has as many values as the chain has states. */
  predicate WindowsFit(windows: seq<seq<int>>, m: Matrix)
  {
    IsSquare(m, |m|) && |m| > 0 && forall j :: 0 <= j < |windows| ==> |windows[j]| == |m|
  }

  /** The first overlapping window is fully covered by the dice. */
  predicate StraightCovered(dice: seq<int>, windows: seq<seq<int>>, size: nat)
  {
    var k := FirstOverlap(dice, windows);
    k.Some? && Coverage(dice, windows[k.value]) == size
  }

  /** How many values of the first overlapping window the dice hold; 0 when no
      window overlaps. The chain starts in the state one below this. */
  function FirstCoverage(dice: seq<int>, windows: seq<seq<int>>): (n: nat)
    ensures FirstOverlap(dice, windows).None? <==> n == 0
    ensures FirstOverlap(dice, windows).Some? ==> n == Coverage(dice, windows[FirstOverlap(dice, windows).value])
  {
    match FirstOverlap(dice, windows)
    case None => 0
    case Some(k) => Coverage(dice, windows[k])
  }

  /** `determine_small_straight_probability` and
      `determine_large_straight_probability`: take the first window sharing a
      value with the dice; certain if it is fully covered, otherwise the mass
      in the "covered" state after `r` rerolls starting from its coverage. It
      is a probability whenever the chain never gains mass from that start. */
  function StraightProbability(dice: seq<int>, r: nat, windows: seq<seq<int>>, m: Matrix): (p: real)
    requires WindowsFit(windows, m) && NonNegativeEntries(m) && LowerTriangular(m)
    ensures p >= 0.0
    ensures FirstOverlap(dice, windows).None? ==> p == 0.0
    ensures StraightCovered(dice, windows, |m|) ==> p == 1.0
    ensures r == 0 ==> (p == 1.0 <==> StraightCovered(dice, windows, |m|))
    ensures 0 < FirstCoverage(dice, windows) < |m| ==>
      p == Project(m, r, FirstCoverage(dice, windows) - 1)[|m| - 1]
    ensures FirstCoverage(dice, windows) > 0 && SubStochasticFrom(m, FirstCoverage(dice, windows) - 1) ==> p <= 1.0
  {
    match FirstOverlap(dice, windows)
    case None => 0.0
    case Some(k) => FromCoverage(m, r, Coverage(dice, windows[k]))
  }

  /** The straight probability once the first overlapping window holds `state`
      values: certain when it is full, otherwise the covered-state mass from
      one below `state`. */
  function FromCoverage(m: Matrix, r: nat, state: nat): (p: real)
    requires IsSquare(m, |m|) && NonNegativeEntries(m) && LowerTriangular(m) && 0 < state <= |m|
    ensures p >= 0.0
    ensures state == |m| ==> p == 1.0
    ensures state < |m| ==> p == Project(m, r, state - 1)[|m| - 1]
    ensures r == 0 ==> (p == 1.0 <==> state == |m|)
    ensures SubStochasticFrom(m, state - 1) ==> p <= 1.0
  {
    if state == |m| then 1.0 else CoveredMass(m, r, state - 1)
  }

  /** The mass in the last ("covered") state after `r` rerolls from state `k`. */
  function CoveredMass(m: Matrix, r: nat, k: nat): (p: real)
    requires IsSquare(m, |m|) && NonNegativeEntries(m) && LowerTriangular(m) && k < |m|
    ensures p == Project(m, r, k)[|m| - 1]
    ensures p >= 0.0
    ensures r == 0 && k < |m| - 1 ==> p == 0.0
    ensures SubStochasticFrom(m, k) ==> p <= 1.0
  {
    ProjectShape(m, r, k);
    if SubStochasticFrom(m, k) then
      ProjectEntryAtMostOne(m, r, k, |m| - 1);
      Project(m, r, k)[|m| - 1]
    else Project(m, r, k)[|m| - 1]
  }

  /** The small straight, as the source computes it: a probability whenever
      the first overlapping window already holds two values, and for up to 11
      rerolls from a single value, but not beyond (`SmallStraightExceedsOne`);
      never more than 1215/1188. */
  function SmallStraightProbability(dice: seq<int>, r: nat): (p: real)
    ensures 0.0 <= p <= 1215.0 / 1188.0
    ensures StraightCovered(dice, SmallWindows, 4) ==> p == 1.0
    ensures r == 0 ==> (p == 1.0 <==> StraightCovered(dice, SmallWindows, 4))
    ensures FirstCoverage(dice, SmallWindows) != 1 ==> p <= 1.0
    ensures FirstCoverage(dice, SmallWindows) == 1 && r <= 12 ==> p == SmallFromOne(r)[3]
    ensures r <= 11 ==> p <= 1.0
  {
    SmallStraightIsChain();
    if FirstCoverage(dice, SmallWindows) == 1 then
      SmallFromStartBound(r);
      if r <= 12 then
        SmallStraightFromOne(dice, r);
        StraightProbability(dice, r, SmallWindows, Transitions.SmallStraight)
      else StraightProbability(dice, r, SmallWindows, Transitions.SmallStraight)
    else StraightProbability(dice, r, SmallWindows, Transitions.SmallStraight)
  }

  /** From a single covered value the small straight follows the table. */
  lemma SmallStraightFromOne(dice: seq<int>, r: nat)
    requires FirstCoverage(dice, SmallWindows) == 1 && r <= 12
    ensures IsChain(Transitions.SmallStraight, 4) && WindowsFit(SmallWindows, Transitions.SmallStraight)
    ensures StraightProbability(dice, r, SmallWindows, Transitions.SmallStraight) == SmallFromOne(r)[3]
    ensures r <= 11 ==> SmallFromOne(r)[3] <= 1.0
  {
    SmallStraightIsChain();
    SmallFromOneIsProject(r);
    SmallFromOneBelowOne(r);
  }

  /** The large straight: a probability for every number of rerolls, since no
      column of its matrix sums to more than 1. */
  function LargeStraightProbability(dice: seq<int>, r: nat): (p: real)
    ensures 0.0 <= p <= 1.0
    ensures StraightCovered(dice, LargeWindows, 5) ==> p == 1.0
    ensures r == 0 ==> (p == 1.0 <==> StraightCovered(dice, LargeWindows, 5))
  {
    LargeStraightIsChain();
    StraightProbability(dice, r, LargeWindows, Transitions.LargeStraight)
  }

  /** The small-straight chain started from one covered value, after `r`
      rerolls for r = 0..12, as exact fractions in lowest terms. The mass in
      the last state first exceeds 1 at r = 12. */
  function SmallFromOne(r: nat): (v: Vector)
    requires r <= 12
    ensures |v| == 4
  {
    if r == 0 then
      [1.0, 0.0, 0.0, 0.0]
    else if r == 1 then
      [1.0 / 12.0,
       175.0 / 432.0,
       97.0 / 216.0,
       1.0 / 12.0]
    else if r == 2 then
      [1.0 / 144.0,
       7175.0 / 46656.0,
       26971.0 / 46656.0,
       1471.0 / 5184.0]
    else if r == 3 then
      [1.0 / 1728.0,
       243775.0 / 5038848.0,
       1238107.0 / 2519424.0,
       67511.0 / 139968.0]
    else if r == 4 then
      [1.0 / 20736.0,
       7928375.0 / 544195584.0,
       200727751.0 / 544195584.0,
       38653411.0 / 60466176.0]
    else if r == 5 then
      [1.0 / 248832.0,
       254856175.0 / 58773123072.0,
       7769742517.0 / 29386561536.0,
       615476293.0 / 816293376.0]
    else if r == 6 then
      [1.0 / 2985984.0,
       8165731175.0 / 6347497291776.0,
       1181019059731.0 / 6347497291776.0,
       589174625431.0 / 705277476864.0]
    else if r == 7 then
      [1.0 / 35831808.0,
       261396399775.0 / 685529707511808.0,
       44537321090527.0 / 342764853755904.0,
       16993718610821.0 / 19042491875328.0]
    else if r == 8 then
      [1.0 / 429981696.0,
       8365521812375.0 / 74037208411275264.0,
       6696544271861311.0 / 74037208411275264.0,
       7668329141003371.0 / 8226356490141696.0]
    else if r == 9 then
      [1.0 / 5159780352.0,
       267704231172175.0 / 7996018508417728512.0,
       251375562785608537.0 / 3998009254208864256.0,
       26648358925012387.0 / 27763953154228224.0]
    else if r == 10 then
      [1.0 / 61917364224.0,
       8566603196095175.0 / 863569998909114679296.0,
       37722664451102358091.0 / 863569998909114679296.0,
       93940595413872240991.0 / 95952222101012742144.0]
    else if r == 11 then
      [1.0 / 743008370688.0,
       274131912462315775.0 / 93265559882184385363968.0,
       1414861198652037418147.0 / 46632779941092192681984.0,
       2570978754676212825731.0 / 2590709996727344037888.0]
    else
      [1.0 / 8916100448256.0,
       8772226690479536375.0 / 10072680467275913619308544.0,
       212245901850553739548471.0 / 10072680467275913619308544.0,
       1121038927696885176546931.0 / 1119186718586212624367616.0]
  }

  /** Up to eleven rerolls the mass in the last state stays below 1. */
  lemma SmallFromOneBelowOne(r: nat)
    requires r <= 12
    ensures r <= 11 ==> SmallFromOne(r)[3] < 1.0
    ensures r == 12 ==> SmallFromOne(r)[3] > 1.0
  {
  }

  lemma SmallFromOneStep(r: nat)
    requires r < 12
    ensures MatVec(Transitions.SmallStraight, SmallFromOne(r)) == SmallFromOne(r + 1)
  {
    SmallStraightStep(SmallFromOne(r));
  }

  /** The table is the chain's own distribution from state 0. */
  lemma {:induction false} SmallFromOneIsProject(r: nat)
    requires r <= 12
    ensures Project(Transitions.SmallStraight, r, 0) == SmallFromOne(r)
    decreases r
  {
    SmallStraightIsChain();
    if r == 0 {
      ProjectShape(Transitions.SmallStraight, 0, 0);
    } else {
      SmallFromOneIsProject(r - 1);
      ProjectStep(Transitions.SmallStraight, r - 1, 0);
      SmallFromOneStep(r - 1);
    }
  }

  /** The small-straight chain started in state 0 keeps its total mass plus
      27/1188 of the mass still in state 0 fixed at 1215/1188: each reroll gains
      27/1296 of the state-0 mass, while state 0 keeps only 108/1296 of it. */
  lemma {:induction false} SmallMassInvariant(r: nat)
    ensures Total(Project(Transitions.SmallStraight, r, 0))
      + 27.0 / 1188.0 * Project(Transitions.SmallStraight, r, 0)[0] == 1215.0 / 1188.0
    decreases r
  {
    if r == 0 {
      SmallMassStart();
    } else {
      SmallMassInvariant(r - 1);
      SmallMassNext(r - 1);
    }
  }

  lemma SmallMassNext(r: nat)
    requires Total(Project(Transitions.SmallStraight, r, 0))
      + 27.0 / 1188.0 * Project(Transitions.SmallStraight, r, 0)[0] == 1215.0 / 1188.0
    ensures Total(Project(Transitions.SmallStraight, r + 1, 0))
      + 27.0 / 1188.0 * Project(Transitions.SmallStraight, r + 1, 0)[0] == 1215.0 / 1188.0
  {
    ProjectStep(Transitions.SmallStraight, r, 0);
    SmallMassStep(Project(Transitions.SmallStraight, r, 0));
  }

  lemma SmallMassStart()
    ensures Total(Project(Transitions.SmallStraight, 0, 0))
      + 27.0 / 1188.0 * Project(Transitions.SmallStraight, 0, 0)[0] == 1215.0 / 1188.0
  {
    SmallStraightIsChain();
    ProjectShape(Transitions.SmallStraight, 0, 0);
    assert OneHot(4, 0) == [1.0, 0.0, 0.0, 0.0];
    Total4(OneHot(4, 0));
  }

  /** One reroll keeps the total plus 27/1188 of the state-0 mass. */
  lemma SmallMassStep(v: Vector)
    requires |v| == 4
    ensures |MatVec(Transitions.SmallStraight, v)| == 4
    ensures Total(MatVec(Transitions.SmallStraight, v)) + 27.0 / 1188.0 * MatVec(Transitions.SmallStraight, v)[0]
      == Total(v) + 27.0 / 1188.0 * v[0]
  {
    var w := MatVec(Transitions.SmallStraight, v);
    SmallStraightStep(v);
    Total4(v);
    Total4(w);
    assert w[0] == 108.0 / 1296.0 * v[0];
    assert Total(w) == 1323.0 / 1296.0 * v[0] + v[1] + v[2] + v[3];
  }

  /** Hence, from state 0, the mass in the covered state never exceeds 1215/1188. */
  lemma SmallFromStartBound(r: nat)
    ensures Project(Transitions.SmallStraight, r, 0)[3] <= 1215.0 / 1188.0
  {
    SmallStraightIsChain();
    var v := Project(Transitions.SmallStraight, r, 0);
    ProjectShape(Transitions.SmallStraight, r, 0);
    SmallMassInvariant(r);
    EntryAtMostTotal(v, 3);
  }

  /** With one value of the window 1-2-3-4 in hand and twelve rerolls left, the
      small-straight "probability" is 1121038927696885176546931/1119186718586212624367616,
      about 1.0017: the surplus in the first column of the matrix accumulates. */
  lemma SmallStraightExceedsOne(dice: seq<int>)
    requires dice == [1, 1, 1, 1, 1]
    ensures FirstCoverage(dice, SmallWindows) == 1
    ensures SmallStraightProbability(dice, 12) > 1.0
  {
    var w := SmallWindows[0];
    assert 1 in dice && 2 !in dice && 3 !in dice && 4 !in dice;
    assert w[1..][1..][1..][1..] == [];
    assert Coverage(dice, w[1..][1..][1..]) == 0;
    assert Coverage(dice, w[1..][1..]) == 0;
    assert Coverage(dice, w[1..]) == 0;
    assert Coverage(dice, w) == 1;
    assert FirstOverlap(dice, SmallWindows) == Some(0);
    assert SmallFromOne(12)[3] > 1.0;
  }

  /** The small straight as evidently intended: the source's value, capped at
      1. It is a probability, and it equals the source's value wherever that
      is one. */
  function SmallStraightChance(dice: seq<int>, r: nat): (p: real)
    ensures 0.0 <= p <= 1.0
    ensures SmallStraightProbability(dice, r) <= 1.0 ==> p == SmallStraightProbability(dice, r)
    ensures r <= 11 || FirstCoverage(dice, SmallWindows) != 1 ==> p == SmallStraightProbability(dice, r)
    ensures StraightCovered(dice, SmallWindows, 4) ==> p == 1.0
    ensures r == 0 ==> (p == 1.0 <==> StraightCovered(dice, SmallWindows, 4))
  {
    var q := SmallStraightProbability(dice, r);
    if q > 1.0 then 1.0 else q
  }

  /** The first-window rule misjudges `[1, 3, 4, 5, 6]`: it holds the small
      straight 3-4-5-6, yet the window 1-2-3-4 is examined first (coverage 3),
      so with no rerolls left the probability is 0. */
  lemma SmallStraightFirstWindow(dice: seq<int>)
    requires dice == [1, 3, 4, 5, 6]
    ensures Score(SmallStraight, dice) == 30
    ensures FirstOverlap(dice, SmallWindows) == Some(0)
    ensures Coverage(dice, SmallWindows[0]) == 3
    ensures SmallStraightProbability(dice, 0) == 0.0
  {
    SmallStraightHeld(dice);
    SmallFirstWindowCoverage(dice);
  }

  lemma SmallStraightHeld(dice: seq<int>)
    requires dice == [1, 3, 4, 5, 6]
    ensures Score(SmallStraight, dice) == 30
  {
    SmallStraightMeaning(dice);
    assert forall v :: v in SmallWindows[2] ==> v in dice;
  }

  lemma SmallFirstWindowCoverage(dice: seq<int>)
    requires dice == [1, 3, 4, 5, 6]
    ensures FirstOverlap(dice, SmallWindows) == Some(0)
    ensures Coverage(dice, SmallWindows[0]) == 3
  {
    assert 1 in dice && 2 !in dice && 3 in dice && 4 in dice;
    var w := SmallWindows[0];
    assert w[1..][1..][1..][1..] == [];
    assert Coverage(dice, w[1..][1..][1..]) == 1;
    assert Coverage(dice, w[1..][1..]) == 2;
    assert Coverage(dice, w[1..]) == 2;
    assert Coverage(dice, w) == 3;
  }

  /** Likewise `[2, 3, 4, 5, 6]` holds the large straight 2-6, but the window
      1-5 comes first (coverage 4), so with no rerolls left the probability is 0. */
  lemma LargeStraightFirstWindow(dice: seq<int>)
    requires dice == [2, 3, 4, 5, 6]
    ensures Score(LargeStraight, dice) == 40
    ensures FirstOverlap(dice, LargeWindows) == Some(0)
    ensures LargeStraightProbability(dice, 0) == 0.0
  {
    LargeStraightHeld(dice);
    LargeFirstWindowCoverage(dice);
  }

  lemma LargeStraightHeld(dice: seq<int>)
    requires dice == [2, 3, 4, 5, 6]
    ensures Score(LargeStraight, dice) == 40
  {
    LargeStraightMeaning(dice);
    assert forall v :: v in LargeWindows[1] ==> v in dice;
  }

  lemma LargeFirstWindowCoverage(dice: seq<int>)
    requires dice == [2, 3, 4, 5, 6]
    ensures FirstOverlap(dice, LargeWindows) == Some(0)
    ensures Coverage(dice, LargeWindows[0]) == 4
  {
    assert 1 !in dice && 2 in dice && 3 in dice && 4 in dice && 5 in dice;
    var w := LargeWindows[0];
    assert w[1..][1..][1..][1..][1..] == [];
    assert Coverage(dice, w[1..][1..][1..][1..]) == 1;
    assert Coverage(dice, w[1..][1..][1..]) == 2;
    assert Coverage(dice, w[1..][1..]) == 3;
    assert Coverage(dice, w[1..]) == 4;
    assert Coverage(dice, w) == 4;
  }

  /** The cases in which the source's value for category `c` is at most 1: the
      full house up to 20 rerolls, the small straight up to 11 rerolls or from
      a first window holding other than exactly one value, every other category
      always. */
  predicate WithinOne(dice: seq<int>, c: Category, r: nat)
  {
    (c != FullHouse || r <= 20) && (c != SmallStraight || r <= 11 || FirstCoverage(dice, SmallWindows) != 1)
  }

  /** The probability of scoring in a lower category, ignoring marks. */
  function ComboProbability(dice: seq<int>, c: Category, r: nat): (p: real)
    requires IsHand(dice)
    ensures p >= 0.0
    ensures IsUpper(c) ==> p == 0.0
    ensures c == Chance ==> p == 1.0
    ensures c == SmallStraight ==> p == SmallStraightProbability(dice, r)
    ensures WithinOne(dice, c, r) ==> p <= 1.0
    ensures c != FullHouse || r <= 20 ==> p <= 1215.0 / 1188.0
  {
    if IsUpper(c) then 0.0
    else if c == Chance then 1.0
    else if c == ThreeOfAKind || c == FourOfAKind || c == Yahtzee then KindProbability(dice, c, r)
    else ShapeProbability(dice, c, r)
  }

  /** The three categories judged on a pattern of faces rather than one face. */
  function ShapeProbability(dice: seq<int>, c: Category, r: nat): (p: real)
    requires IsHand(dice)
    requires c == FullHouse || c == SmallStraight || c == LargeStraight
    ensures p >= 0.0
    ensures c == SmallStraight ==> p == SmallStraightProbability(dice, r)
    ensures WithinOne(dice, c, r) ==> p <= 1.0
    ensures c != FullHouse || r <= 20 ==> p <= 1215.0 / 1188.0
  {
    if c == FullHouse then FullHouseProbability(dice, r)
    else if c == SmallStraight then SmallStraightProbability(dice, r)
    else LargeStraightProbability(dice, r)
  }

  /** The three categories judged on the most common face. */
  function KindProbability(dice: seq<int>, c: Category, r: nat): (p: real)
    requires IsHand(dice)
    requires c == ThreeOfAKind || c == FourOfAKind || c == Yahtzee
    ensures 0.0 <= p <= 1.0
  {
    if c == ThreeOfAKind then SimpleThreeOfAKind(dice, MostCommonFace(dice), r)
    else if c == FourOfAKind then SimpleFourOfAKind(dice, MostCommonFace(dice), r)
    else YahtzeeProbability(dice, r)
  }

  /** `lower_section_probabilities`: the probability for a lower category, 0
      when it is marked, except that the small straight is not checked for a
      mark; 0 for the upper categories; chance is certain. */
  function LowerSectionProbability(dice: seq<int>, b: Board, c: Category, r: nat): (p: real)
    requires IsHand(dice) && WellFormed(b)
    ensures p >= 0.0
    ensures IsUpper(c) ==> p == 0.0
    ensures IsMarked(b, c) && c != SmallStraight ==> p == 0.0
    ensures c == Chance && !IsMarked(b, c) ==> p == 1.0
    ensures c == SmallStraight ==> p == SmallStraightProbability(dice, r)
    ensures WithinOne(dice, c, r) ==> p <= 1.0
    ensures c != FullHouse || r <= 20 ==> p <= 1215.0 / 1188.0
  {
    if IsMarked(b, c) && c != SmallStraight then 0.0 else ComboProbability(dice, c, r)
  }

  /** Dice that already score in three of a kind, four of a kind or Yahtzee
      make that category certain, whatever the rerolls. */
  lemma AlreadyScoredIsCertain(dice: seq<int>, b: Board, c: Category, r: nat)
    requires IsHand(dice) && WellFormed(b) && !IsMarked(b, c)
    requires c == ThreeOfAKind || c == FourOfAKind || c == Yahtzee
    requires Score(c, dice) > 0
    ensures LowerSectionProbability(dice, b, c, r) == 1.0
  {
    var face := MostCommonFace(dice);
    if c == ThreeOfAKind {
      var i :| 0 <= i < |dice| && Count(dice, dice[i]) >= 3;
      assert Count(dice, face) >= 3;
      assert KindProbability(dice, c, r) == SimpleThreeOfAKind(dice, face, r);
    } else if c == FourOfAKind {
      var i :| 0 <= i < |dice| && Count(dice, dice[i]) >= 4;
      assert Count(dice, face) >= 4;
      assert KindProbability(dice, c, r) == SimpleFourOfAKind(dice, face, r);
    } else {
      assert Score(Yahtzee, dice) == 50;
    }
  }
}

=== FILE: scorecard.dfy ===
/** The scorecard: one record per category, marked at most once, with the
    35-point upper bonus and the 100-point extra-Yahtzee bonus
    (src/yahtzee_rl/scoring/scorecard.py). */
module Scorecard {
  import opened Sequences
  import opened Categories
  import opened Dice
  import opened ScoringOps

  /** One entry of `score_board`. The stored scorer and section of the source
      are functions of the category here (`Score` and `IsUpper`). */
  datatype Record = Record(marked: bool, score: int, timesAchieved: int)

  datatype Board = Board(turnNumber: int, records: map<Category, Record>)

  const Unmarked := Record(false, 0, 0)
  const UpperBonus := 35
  const UpperBonusThreshold := 63
  const ExtraYahtzeeBonus := 100

  /** Every category has a record, as the constructor guarantees. */
  predicate WellFormed(b: Board)
  {
    forall c: Category :: c in b.records
  }

  /** `Scorecard(turn_number)`: every category unmarked with score 0 and no achievements. */
  function New(turnNumber: int): (b: Board)
    ensures WellFormed(b)
    ensures b.turnNumber == turnNumber
    ensures forall c: Category :: b.records[c] == Record(false, 0, 0)
  {
    PartitionComplete();
    Board(turnNumber, map c | c in AllCategories() :: Unmarked)
  }

  /** `reset`: every record back to the unmarked state and the turn number to 0. */
  function Reset(b: Board): (r: Board)
    requires WellFormed(b)
    ensures r == New(0)
  {
    Board(0, map c | c in b.records :: Unmarked)
  }

  function IsMarked(b: Board, c: Category): bool
    requires WellFormed(b)
  {
    b.records[c].marked
  }

  /** `get_category_score`: the stored score; what a marked category adds to
      its section, and 0 while unmarked on a card played through its own
      operations. */
  function CategoryScore(b: Board, c: Category): (s: int)
    requires WellFormed(b)
    ensures IsMarked(b, c) ==> s == Contribution(b, c)
    ensures Played(b) && !IsMarked(b, c) ==> s == 0
  {
    b.records[c].score
  }

  function TimesAchieved(b: Board, c: Category): int
    requires WellFormed(b)
  {
    b.records[c].timesAchieved
  }

  /** `mark_score`: refuses (false, board unchanged) when the category is
      already marked; otherwise marks it, stores its scorer's value for the
      dice, counts one more achievement and answers true. No other record and
      not the turn number change. */
  function MarkScore(b: Board, c: Category, dice: seq<int>): (res: (bool, Board))
    requires WellFormed(b)
    ensures WellFormed(res.1)
    ensures res.0 <==> !b.records[c].marked
    ensures !res.0 ==> res.1 == b
    ensures res.0 ==> res.1.records[c] == Record(true, Score(c, dice), b.records[c].timesAchieved + 1)
    ensures forall c' :: c' != c ==> res.1.records[c'] == b.records[c']
    ensures res.1.turnNumber == b.turnNumber
  {
    var r := b.records[c];
    if r.marked then (false, b)
    else (true, b.(records := b.records[c := Record(true, Score(c, dice), r.timesAchieved + 1)]))
  }

  /** What a category adds to its section's total. */
  function Contribution(b: Board, c: Category): int
    requires WellFormed(b)
  {
    if b.records[c].marked then b.records[c].score else 0
  }

  /** Sum of the scores of the marked categories among `cats`. */
  function MarkedTotal(b: Board, cats: seq<Category>): int
    requires WellFormed(b)
  {
    if |cats| == 0 then 0 else Contribution(b, cats[0]) + MarkedTotal(b, cats[1..])
  }

  function UpperTotal(b: Board): int
    requires WellFormed(b)
  {
    MarkedTotal(b, UpperCategories())
  }

  function LowerTotal(b: Board): int
    requires WellFormed(b)
  {
    MarkedTotal(b, LowerCategories())
  }

  /** `compute_upper_score`: the marked upper total, plus 35 when it reaches 63. */
  function UpperScore(b: Board): (s: int)
    requires WellFormed(b)
    ensures s == UpperTotal(b) || s == UpperTotal(b) + UpperBonus
    ensures s == UpperTotal(b) + UpperBonus <==> UpperTotal(b) >= UpperBonusThreshold
  {
    var total := UpperTotal(b);
    if total >= UpperBonusThreshold then total + UpperBonus else total
  }

  /** `compute_lower_score`: the marked lower total, plus 100 for every Yahtzee
      achievement beyond the first. */
  function LowerScore(b: Board): (s: int)
    requires WellFormed(b)
    ensures TimesAchieved(b, Yahtzee) <= 1 ==> s == LowerTotal(b)
    ensures TimesAchieved(b, Yahtzee) >= 1 ==>
      s == LowerTotal(b) + ExtraYahtzeeBonus * (TimesAchieved(b, Yahtzee) - 1)
  {
    var n := b.records[Yahtzee].timesAchieved;
    var total := LowerTotal(b);
    if n >= 2 then total + ExtraYahtzeeBonus * (n - 1) else total
  }

  /** `compute_final_score`: the two section totals plus whatever bonuses
      apply; exactly the two totals when neither bonus does. */
  function FinalScore(b: Board): (s: int)
    requires WellFormed(b)
    ensures s == UpperTotal(b) + LowerTotal(b)
      + (if UpperTotal(b) >= UpperBonusThreshold then UpperBonus else 0)
      + (if TimesAchieved(b, Yahtzee) >= 2 then ExtraYahtzeeBonus * (TimesAchieved(b, Yahtzee) - 1) else 0)
    ensures s >= UpperTotal(b) + LowerTotal(b)
    ensures s == UpperTotal(b) + LowerTotal(b) <==>
      UpperTotal(b) < UpperBonusThreshold && TimesAchieved(b, Yahtzee) <= 1
  {
    UpperScore(b) + LowerScore(b)
  }

  /** Changing one category's record changes a section total by exactly the
      change in that category's contribution, if the category is listed. */
  lemma {:induction false} MarkedTotalUpdate(b: Board, b': Board, c: Category, cats: seq<Category>)
    requires WellFormed(b) && WellFormed(b')
    requires forall c' :: c' != c ==> b'.records[c'] == b.records[c']
    requires NoDuplicates(cats)
    ensures MarkedTotal(b', cats) ==
      MarkedTotal(b, cats) + (if c in cats then Contribution(b', c) - Contribution(b, c) else 0)
    decreases |cats|
  {
    if |cats| > 0 {
      MarkedTotalUpdate(b, b', c, cats[1..]);
      assert cats == [cats[0]] + cats[1..];
      if cats[0] == c {
        assert c !in cats[1..];
      }
    }
  }

  /** A successful mark adds the category's score to its own section's total
      and leaves the other section's total alone. */
  lemma MarkAddsToSection(b: Board, c: Category, dice: seq<int>)
    requires WellFormed(b) && !IsMarked(b, c)
    ensures var b' := MarkScore(b, c, dice).1;
      && (IsUpper(c) ==> UpperTotal(b') == UpperTotal(b) + Score(c, dice) && LowerTotal(b') == LowerTotal(b))
      && (!IsUpper(c) ==> LowerTotal(b') == LowerTotal(b) + Score(c, dice) && UpperTotal(b') == UpperTotal(b))
  {
    var b' := MarkScore(b, c, dice).1;
    PartitionComplete();
    MarkedTotalUpdate(b, b', c, UpperCategories());
    MarkedTotalUpdate(b, b', c, LowerCategories());
  }

  /** A second mark of the same category is refused and changes nothing, so the
      first score stays. */
  lemma MarkTwiceRefused(b: Board, c: Category, first: seq<int>, second: seq<int>)
    requires WellFormed(b) && !IsMarked(b, c)
    ensures var b1 := MarkScore(b, c, first).1;
      && MarkScore(b1, c, second) == (false, b1)
      && CategoryScore(b1, c) == Score(c, first)
  {
  }

  lemma {:induction false} UnmarkedTotalZero(b: Board, cats: seq<Category>)
    requires WellFormed(b) && forall c: Category :: !b.records[c].marked
    ensures MarkedTotal(b, cats) == 0
    decreases |cats|
  {
    if |cats| > 0 {
      UnmarkedTotalZero(b, cats[1..]);
    }
  }

  /** A new or reset card is worth nothing, and resetting twice is resetting once. */
  lemma FreshCardScoresZero(t: int, b: Board)
    requires WellFormed(b)
    ensures FinalScore(New(t)) == 0
    ensures FinalScore(Reset(b)) == 0
    ensures Reset(Reset(b)) == Reset(b)
    ensures forall c: Category :: CategoryScore(Reset(b), c) == 0 && !IsMarked(Reset(b), c)
  {
    UnmarkedTotalZero(New(t), UpperCategories());
    UnmarkedTotalZero(New(t), LowerCategories());
    UnmarkedTotalZero(New(0), UpperCategories());
    UnmarkedTotalZero(New(0), LowerCategories());
  }

  /** The state every card reached through `__init__`, `reset` and `mark_score`
      on five-die hands is in: an achievement is recorded exactly for marked
      categories, unmarked ones score 0, and marked scores are what a hand can
      score (an upper one at most 5, because the upper scorers count dice). */
  predicate Played(b: Board)
  {
    && WellFormed(b)
    && forall c: Category ::
      && b.records[c].timesAchieved == (if b.records[c].marked then 1 else 0)
      && (!b.records[c].marked ==> b.records[c].score == 0)
      && 0 <= b.records[c].score <= MaxScore(c)
  }

  /** The operations of the card keep it `Played`. */
  lemma PlayedPreserved(t: int, b: Board, c: Category, dice: seq<int>)
    requires Played(b) && IsHand(dice)
    ensures Played(New(t))
    ensures Played(Reset(b))
    ensures Played(MarkScore(b, c, dice).1)
  {
    ScoreBounds(c, dice);
  }

  lemma {:induction false} PlayedTotalBound(b: Board, cats: seq<Category>)
    requires Played(b)
    requires forall i :: 0 <= i < |cats| ==> IsUpper(cats[i])
    ensures 0 <= MarkedTotal(b, cats) <= 5 * |cats|
    decreases |cats|
  {
    if |cats| > 0 {
      PlayedTotalBound(b, cats[1..]);
    }
  }

  /** The most the listed categories can add up to. */
  function MaxTotal(cats: seq<Category>): nat
  {
    if |cats| == 0 then 0 else MaxScore(cats[0]) + MaxTotal(cats[1..])
  }

  /** On a played card the listed categories add up to at most their maxima. */
  lemma {:induction false} PlayedSectionBound(b: Board, cats: seq<Category>)
    requires Played(b)
    ensures 0 <= MarkedTotal(b, cats) <= MaxTotal(cats)
    decreases |cats|
  {
    if |cats| > 0 {
      PlayedSectionBound(b, cats[1..]);
    }
  }

  /** A card played through its own operations totals at most 265: 30 in the
      upper section with no bonus, 235 in the lower one with no extra Yahtzee. */
  lemma PlayedFinalScore(b: Board)
    requires Played(b)
    ensures 0 <= FinalScore(b) <= 265
  {
    PlayedCardHasNoBonus(b);
    PlayedSectionBound(b, LowerCategories());
    PlayedSectionBound(b, UpperCategories());
    assert MaxTotal(LowerCategories()) == 235;
  }

  /** Through the card's own operations neither bonus is ever awarded: the
      upper total of counted dice stays at most 30, below the 63 threshold,
      and a Yahtzee is achieved at most once because a marked category
      cannot be marked again. */
  lemma PlayedCardHasNoBonus(b: Board)
    requires Played(b)
    ensures UpperScore(b) == UpperTotal(b) <= 30
    ensures LowerScore(b) == LowerTotal(b)
  {
    PlayedTotalBound(b, UpperCategories());
  }
}

=== FILE: sequences.dfy ===
/** Generic sequence facts the model relies on: duplicate-freedom, masked
    selection (the numpy masked-array split), descending sort (Python's
    `sorted(..., reverse=True)`) and integer sums. */
module Sequences {

  predicate NoDuplicates<T(==)>(s: seq<T>)
  {
    forall i, j :: 0 <= i < j < |s| ==> s[i] != s[j]
  }

  /** The elements of `s` at the positions where `mask` holds `pick`, in order. */
  function Select<T>(s: seq<T>, mask: seq<bool>, pick: bool): seq<T>
    requires |mask| == |s|
  {
    if |s| == 0 then []
    else if mask[0] == pick then [s[0]] + Select(s[1..], mask[1..], pick)
    else Select(s[1..], mask[1..], pick)
  }

  /** The two selections split `s` with nothing lost or duplicated, and their
      lengths add up. */
  lemma {:induction false} SelectPartition<T>(s: seq<T>, mask: seq<bool>)
    requires |mask| == |s|
    ensures multiset(Select(s, mask, true)) + multiset(Select(s, mask, false)) == multiset(s)
    ensures |Select(s, mask, true)| + |Select(s, mask, false)| == |s|
    decreases |s|
  {
    if |s| > 0 {
      SelectPartition(s[1..], mask[1..]);
      assert s == [s[0]] + s[1..];
    }
  }

  /** The selection keeps the original order: its elements sit at strictly
      increasing positions of `s`, which are exactly the positions whose mask
      bit is `pick`. */
  lemma {:induction false} SelectOrder<T>(s: seq<T>, mask: seq<bool>, pick: bool) returns (idx: seq<nat>)
    requires |mask| == |s|
    ensures |idx| == |Select(s, mask, pick)|
    ensures forall k :: 0 <= k < |idx| ==> idx[k] < |s| && mask[idx[k]] == pick && Select(s, mask, pick)[k] == s[idx[k]]
    ensures forall k, l :: 0 <= k < l < |idx| ==> idx[k] < idx[l]
    ensures forall p {:trigger p in idx} :: 0 <= p < |s| && mask[p] == pick ==> p in idx
    decreases |s|
  {
    if |s| == 0 {
      idx := [];
    } else {
      var rest := SelectOrder(s[1..], mask[1..], pick);
      var shifted := Shift(rest);
      ShiftCovers(mask, pick, rest, shifted);
      ShiftSelects(s, mask, pick, rest, shifted);
      if mask[0] == pick {
        idx := PrependPositions(s, mask, pick, shifted);
      } else {
        idx := shifted;
      }
    }
  }

  /** When the first bit is `pick`, position 0 followed by the tail's positions,
      shifted, lists the selection. */
  lemma PrependPositions<T>(s: seq<T>, mask: seq<bool>, pick: bool, shifted: seq<nat>) returns (idx: seq<nat>)
    requires |mask| == |s| > 0 && mask[0] == pick
    requires |shifted| == |Select(s[1..], mask[1..], pick)|
    requires forall k :: 0 <= k < |shifted| ==>
      1 <= shifted[k] < |s| && mask[shifted[k]] == pick && Select(s[1..], mask[1..], pick)[k] == s[shifted[k]]
    requires forall k, l :: 0 <= k < l < |shifted| ==> shifted[k] < shifted[l]
    requires forall p :: 1 <= p < |mask| && mask[p] == pick ==> p in shifted
    ensures |idx| == |Select(s, mask, pick)|
    ensures forall k :: 0 <= k < |idx| ==> idx[k] < |s| && mask[idx[k]] == pick && Select(s, mask, pick)[k] == s[idx[k]]
    ensures forall k, l :: 0 <= k < l < |idx| ==> idx[k] < idx[l]
    ensures forall p {:trigger p in idx} :: 0 <= p < |s| && mask[p] == pick ==> p in idx
  {
    idx := [0] + shifted;
    PrependZeroIncreasing(shifted);
    assert Select(s, mask, pick) == [s[0]] + Select(s[1..], mask[1..], pick);
    forall p | 0 <= p < |s| && mask[p] == pick
      ensures p in idx
    {
      if p > 0 {
        assert p in shifted;
      }
    }
  }

  /** Position 0 in front of increasing positive positions keeps them increasing. */
  lemma PrependZeroIncreasing(shifted: seq<nat>)
    requires forall k :: 0 <= k < |shifted| ==> shifted[k] >= 1
    requires forall k, l :: 0 <= k < l < |shifted| ==> shifted[k] < shifted[l]
    ensures forall k, l :: 0 <= k < l < |[0] + shifted| ==> ([0] + shifted)[k] < ([0] + shifted)[l]
  {
    var idx := [0] + shifted;
    forall k, l | 0 <= k < l < |idx|
      ensures idx[k] < idx[l]
    {
      assert idx[l] == shifted[l - 1];
      if k > 0 {
        assert idx[k] == shifted[k - 1];
      }
    }
  }

  /** Every position moved one to the right. */
  function Shift(rest: seq<nat>): (shifted: seq<nat>)
    ensures |shifted| == |rest|
    ensures forall k :: 0 <= k < |rest| ==> shifted[k] == rest[k] + 1
  {
    seq(|rest|, k requires 0 <= k < |rest| => rest[k] + 1)
  }

  /** Positions into `s[1..]` shifted by one select the same elements from `s`. */
  lemma ShiftSelects<T>(s: seq<T>, mask: seq<bool>, pick: bool, rest: seq<nat>, shifted: seq<nat>)
    requires |mask| == |s| > 0 && |shifted| == |rest|
    requires forall k :: 0 <= k < |rest| ==> shifted[k] == rest[k] + 1
    requires |rest| == |Select(s[1..], mask[1..], pick)|
    requires forall k :: 0 <= k < |rest| ==>
      rest[k] < |s| - 1 && mask[1..][rest[k]] == pick && Select(s[1..], mask[1..], pick)[k] == s[1..][rest[k]]
    requires forall k, l :: 0 <= k < l < |rest| ==> rest[k] < rest[l]
    ensures forall k :: 0 <= k < |shifted| ==>
      1 <= shifted[k] < |s| && mask[shifted[k]] == pick && Select(s[1..], mask[1..], pick)[k] == s[shifted[k]]
    ensures forall k, l :: 0 <= k < l < |shifted| ==> shifted[k] < shifted[l]
  {
  }

  /** Positions of `mask[1..]` shifted by one are positions of `mask`. */
  lemma ShiftCovers(mask: seq<bool>, pick: bool, rest: seq<nat>, shifted: seq<nat>)
    requires |mask| > 0 && |shifted| == |rest|
    requires forall k :: 0 <= k < |rest| ==> shifted[k] == rest[k] + 1
    requires forall q :: 0 <= q < |mask| - 1 && mask[1..][q] == pick ==> q in rest
    ensures forall p :: 1 <= p < |mask| && mask[p] == pick ==> p in shifted
  {
    forall p | 1 <= p < |mask| && mask[p] == pick
      ensures p in shifted
    {
      assert mask[1..][p - 1] == pick;
      var k :| 0 <= k < |rest| && rest[k] == p - 1;
      assert shifted[k] == p;
    }
  }

  /** Every element is selected exactly when its mask bit says so. */
  lemma {:induction false} SelectMembers<T>(s: seq<T>, mask: seq<bool>, pick: bool, x: T)
    requires |mask| == |s|
    ensures x in Select(s, mask, pick) <==> exists i :: 0 <= i < |s| && s[i] == x && mask[i] == pick
    decreases |s|
  {
    if |s| > 0 {
      SelectMembers(s[1..], mask[1..], pick, x);
      if x in Select(s[1..], mask[1..], pick) {
        var i :| 0 <= i < |s| - 1 && s[1..][i] == x && mask[1..][i] == pick;
        assert s[i + 1] == x && mask[i + 1] == pick;
      }
      if exists i :: 0 <= i < |s| && s[i] == x && mask[i] == pick {
        var i :| 0 <= i < |s| && s[i] == x && mask[i] == pick;
        if i > 0 {
          assert s[1..][i - 1] == x && mask[1..][i - 1] == pick;
        }
      }
    }
  }

  /** When the mask treats every copy of `x` alike, the selection holds all
      copies of `x` if that bit is `pick` and none otherwise. */
  lemma {:induction false} SelectCountUniform<T>(s: seq<T>, mask: seq<bool>, pick: bool, x: T, bit: bool)
    requires |mask| == |s|
    requires forall i :: 0 <= i < |s| && s[i] == x ==> mask[i] == bit
    ensures multiset(Select(s, mask, pick))[x] == if bit == pick then multiset(s)[x] else 0
    decreases |s|
  {
    if |s| > 0 {
      SelectCountUniform(s[1..], mask[1..], pick, x, bit);
      assert s == [s[0]] + s[1..];
      assert multiset(s) == multiset([s[0]]) + multiset(s[1..]);
    }
  }

  function Sum(s: seq<int>): int
  {
    if |s| == 0 then 0 else s[0] + Sum(s[1..])
  }

  predicate SortedDesc(s: seq<int>)
  {
    forall i, j :: 0 <= i < j < |s| ==> s[i] >= s[j]
  }

  function InsertDesc(x: int, s: seq<int>): (r: seq<int>)
    requires SortedDesc(s)
    ensures SortedDesc(r)
    ensures multiset(r) == multiset(s) + multiset{x}
    ensures |r| == |s| + 1
  {
    if |s| == 0 || x >= s[0] then [x] + s
    else
      assert s == [s[0]] + s[1..];
      var t := InsertDesc(x, s[1..]);
      BoundedByHead(x, s, t);
      [s[0]] + t
  }

  /** Inserting below the head of a descending list keeps every element at most that head. */
  lemma BoundedByHead(x: int, s: seq<int>, t: seq<int>)
    requires SortedDesc(s) && |s| > 0 && x < s[0]
    requires multiset(t) == multiset(s[1..]) + multiset{x}
    ensures forall k :: 0 <= k < |t| ==> t[k] <= s[0]
  {
    forall k | 0 <= k < |t|
      ensures t[k] <= s[0]
    {
      assert t[k] in multiset(t);
      if t[k] != x {
        assert t[k] in multiset(s[1..]);
        var m := InMultiset(s[1..], t[k]);
        assert s[m + 1] == t[k];
      }
    }
  }

  /** Descending sort: the result is ordered and a permutation of the input,
      which determines it uniquely. */
  function SortDesc(s: seq<int>): (r: seq<int>)
    ensures SortedDesc(r)
    ensures multiset(r) == multiset(s)
    ensures |r| == |s|
  {
    if |s| == 0 then []
    else
      assert s == [s[0]] + s[1..];
      InsertDesc(s[0], SortDesc(s[1..]))
  }

  lemma InMultiset<T>(s: seq<T>, x: T) returns (k: nat)
    requires x in multiset(s)
    ensures k < |s| && s[k] == x
  {
    assert x in s;
    k :| 0 <= k < |s| && s[k] == x;
  }

  /** Removing one position from a sequence removes one occurrence from its multiset. */
  lemma RemoveAt<T>(s: seq<T>, i: nat)
    requires i < |s|
    ensures multiset(s[..i] + s[i + 1..]) == multiset(s) - multiset{s[i]}
  {
    assert s == s[..i] + [s[i]] + s[i + 1..];
  }

  /** The head of a descending permutation of `cs` bounds every element of `cs`. */
  lemma SortedHeadIsMax(st: seq<int>, cs: seq<int>, i: nat)
    requires SortedDesc(st) && multiset(st) == multiset(cs) && i < |cs|
    ensures |st| > 0 && st[0] >= cs[i]
  {
    assert cs[i] in multiset(cs);
    var k := InMultiset(st, cs[i]);
  }

  /** The second element of a descending permutation of `cs` is at least the
      smaller of any two entries of `cs` at different positions. */
  lemma SortedSecondBound(st: seq<int>, cs: seq<int>, i: nat, j: nat)
    requires SortedDesc(st) && multiset(st) == multiset(cs)
    requires i < |cs| && j < |cs| && i != j
    ensures |st| >= 2
    ensures st[1] >= cs[i] || st[1] >= cs[j]
  {
    assert |st| == |multiset(st)| == |multiset(cs)| == |cs|;
    var z := SurvivesHeadRemoval(st, cs, i, j);
    var k := InMultiset(st[1..], z);
    assert st[1] >= st[k + 1];
  }

  /** After the head of `st` is taken out, one of two entries of `cs` at
      different positions is still present. */
  lemma SurvivesHeadRemoval(st: seq<int>, cs: seq<int>, i: nat, j: nat) returns (z: int)
    requires multiset(st) == multiset(cs) && |st| > 0
    requires i < |cs| && j < |cs| && i != j
    ensures z == cs[i] || z == cs[j]
    ensures z in multiset(st[1..])
  {
    assert st == [st[0]] + st[1..];
    assert multiset(st[1..]) == multiset(cs) - multiset{st[0]};
    if st[0] != cs[i] {
      z := cs[i];
      assert cs[i] in multiset(cs);
    } else {
      z := cs[j];
      RemoveAt(cs, i);
      var rest := cs[..i] + cs[i + 1..];
      var j' := if j < i then j else j - 1;
      assert rest[j'] == cs[j];
      assert cs[j] in multiset(rest);
    }
  }

  /** The first two elements of a descending permutation of `cs` sit at two
      different positions of `cs`. */
  lemma SortedTopTwoFrom(st: seq<int>, cs: seq<int>) returns (i: nat, j: nat)
    requires SortedDesc(st) && multiset(st) == multiset(cs) && |st| >= 2
    ensures i < |cs| && j < |cs| && i != j
    ensures cs[i] == st[0] && cs[j] == st[1]
  {
    assert st[0] in multiset(cs);
    i := InMultiset(cs, st[0]);
    RemoveAt(cs, i);
    var rest := cs[..i] + cs[i + 1..];
    RemoveHead(st);
    assert st[1..][0] == st[1];
    var k := InMultiset(rest, st[1]);
    j := IndexBeforeRemoval(cs, i, k);
  }

  /** Dropping the head removes one occurrence of it from the multiset. */
  lemma RemoveHead<T>(s: seq<T>)
    requires |s| > 0
    ensures multiset(s[1..]) == multiset(s) - multiset{s[0]}
  {
    assert s == [s[0]] + s[1..];
  }

  /** The position in `s` of entry `k` of `s` with position `i` removed. */
  lemma IndexBeforeRemoval<T>(s: seq<T>, i: nat, k: nat) returns (j: nat)
    requires i < |s| && k < |s| - 1
    ensures j < |s| && j != i && s[j] == (s[..i] + s[i + 1..])[k]
  {
    j := if k < i then k else k + 1;
  }
}

=== FILE: transitions.dfy ===
/** The four one-reroll transition matrices, entries copied verbatim as exact
    rationals (src/yahtzee_rl/markov/probabilities.py). Entry [i][j] is the
    probability of moving from progress state j to state i in one reroll of
    the dice not yet matching, under a policy that never releases a kept die. */
module Transitions {
  import opened Matrices

  /** `runs_t_matrix`: states 0..4 stand for 1..5 dice showing the chosen face. */
  const Runs: Matrix := [
    [120.0 / 1296.0, 0.0, 0.0, 0.0, 0.0],
    [900.0 / 1296.0, 120.0 / 216.0, 0.0, 0.0, 0.0],
    [250.0 / 1296.0, 80.0 / 216.0, 25.0 / 36.0, 0.0, 0.0],
    [25.0 / 1296.0, 15.0 / 216.0, 10.0 / 36.0, 5.0 / 6.0, 0.0],
    [1.0 / 1296.0, 1.0 / 216.0, 1.0 / 36.0, 1.0 / 6.0, 1.0]
  ]

  /** `straight_t_matrix`: states 0..3 stand for 1..4 values of a small-straight window covered. */
  const SmallStraight: Matrix := [
    [108.0 / 1296.0, 0.0, 0.0, 0.0],
    [525.0 / 1296.0, 64.0 / 216.0, 0.0, 0.0],
    [582.0 / 1296.0, 122.0 / 216.0, 25.0 / 36.0, 0.0],
    [108.0 / 1296.0, 30.0 / 216.0, 11.0 / 36.0, 1.0]
  ]

  /** `large_straight_t_matrix`: states 0..4 stand for 1..5 values of a large-straight window covered. */
  const LargeStraight: Matrix := [
    [16.0 / 1296.0, 0.0, 0.0, 0.0, 0.0],
    [260.0 / 1296.0, 27.0 / 216.0, 0.0, 0.0, 0.0],
    [600.0 / 1296.0, 111.0 / 216.0, 16.0 / 36.0, 0.0, 0.0],
    [336.0 / 1296.0, 72.0 / 216.0, 18.0 / 36.0, 5.0 / 6.0, 0.0],
    [24.0 / 1296.0, 6.0 / 216.0, 2.0 / 36.0, 1.0 / 6.0, 1.0]
  ]

  /** `upper_count_t_matrix`: states 0..5 stand for 0..5 dice showing the chosen face. */
  const UpperCount: Matrix := [
    [3125.0 / 7776.0, 0.0, 0.0, 0.0, 0.0, 0.0],
    [3125.0 / 7776.0, 625.0 / 1296.0, 0.0, 0.0, 0.0, 0.0],
    [625.0 / 3888.0, 125.0 / 324.0, 125.0 / 216.0, 0.0, 0.0, 0.0],
    [125.0 / 3888.0, 25.0 / 216.0, 25.0 / 72.0, 25.0 / 36.0, 0.0, 0.0],
    [25.0 / 7776.0, 5.0 / 324.0, 5.0 / 72.0, 5.0 / 18.0, 5.0 / 6.0, 0.0],
    [1.0 / 7776.0, 1.0 / 1296.0, 1.0 / 216.0, 1.0 / 36.0, 1.0 / 6.0, 1.0]
  ]

  /** The shape every chain shares: square, non-negative, lower triangular, and
      its last state absorbing. */
  predicate IsChain(m: Matrix, n: nat)
  {
    && n > 0
    && IsSquare(m, n)
    && NonNegativeEntries(m)
    && LowerTriangular(m)
    && Column(m, n - 1) == OneHot(n, n - 1)
  }

  lemma Total5(v: Vector)
    requires |v| == 5
    ensures Total(v) == v[0] + v[1] + v[2] + v[3] + v[4]
  {
    Total4(v[..4]);
  }

  lemma Total4(v: Vector)
    requires |v| == 4
    ensures Total(v) == v[0] + v[1] + v[2] + v[3]
  {
    assert v[..3][..2] == v[..2] && v[..2][..1] == v[..1] && v[..1][..0] == [];
    assert Total(v[..1]) == v[0];
    assert Total(v[..2]) == v[0] + v[1];
    assert Total(v[..3]) == v[0] + v[1] + v[2];
  }

  lemma Dot4(a: Vector, b: Vector)
    requires |a| == 4 && |b| == 4
    ensures Dot(a, b) == a[0] * b[0] + a[1] * b[1] + a[2] * b[2] + a[3] * b[3]
  {
    assert a[..3][..2] == a[..2] && a[..2][..1] == a[..1] && a[..1][..0] == [];
    assert b[..3][..2] == b[..2] && b[..2][..1] == b[..1] && b[..1][..0] == [];
    assert Dot(a[..1], b[..1]) == a[0] * b[0];
    assert Dot(a[..2], b[..2]) == a[0] * b[0] + a[1] * b[1];
    assert Dot(a[..3], b[..3]) == a[0] * b[0] + a[1] * b[1] + a[2] * b[2];
  }

  lemma Total6(v: Vector)
    requires |v| == 6
    ensures Total(v) == v[0] + v[1] + v[2] + v[3] + v[4] + v[5]
  {
    Total5(v[..5]);
  }

  /** The runs matrix is a lower-triangular chain whose every column sums to 1,
      with "five of the face" absorbing. */
  lemma RunsIsChain()
    ensures IsChain(Runs, 5)
    ensures ColumnStochastic(Runs)
  {
    forall j | 0 <= j < 5
      ensures Total(Column(Runs, j)) == 1.0
    {
      Total5(Column(Runs, j));
    }
    assert Column(Runs, 4) == OneHot(5, 4);
  }

  /** The upper-count matrix is a lower-triangular chain whose every column sums
      to 1, with "five of the face" absorbing. */
  lemma UpperCountIsChain()
    ensures IsChain(UpperCount, 6)
    ensures ColumnStochastic(UpperCount)
  {
    forall j | 0 <= j < 6
      ensures Total(Column(UpperCount, j)) == 1.0
    {
      Total6(Column(UpperCount, j));
    }
    assert Column(UpperCount, 5) == OneHot(6, 5);
  }

  /** The small-straight matrix is a lower-triangular chain with "window
      covered" absorbing, but its first column sums to 1323/1296, not 1. */
  lemma SmallStraightIsChain()
    ensures IsChain(SmallStraight, 4)
    ensures Total(Column(SmallStraight, 0)) == 1323.0 / 1296.0
    ensures forall j :: 1 <= j < 4 ==> Total(Column(SmallStraight, j)) == 1.0
    ensures SubStochasticFrom(SmallStraight, 1) && !SubStochasticFrom(SmallStraight, 0)
  {
    forall j | 0 <= j < 4
      ensures Total(Column(SmallStraight, j)) == if j == 0 then 1323.0 / 1296.0 else 1.0
    {
      Total4(Column(SmallStraight, j));
    }
    assert Column(SmallStraight, 3) == OneHot(4, 3);
  }

  /** The large-straight matrix is a lower-triangular chain with "window
      covered" absorbing, but its first column sums to 1236/1296, not 1. */
  lemma LargeStraightIsChain()
    ensures IsChain(LargeStraight, 5)
    ensures Total(Column(LargeStraight, 0)) == 1236.0 / 1296.0
    ensures forall j :: 1 <= j < 5 ==> Total(Column(LargeStraight, j)) == 1.0
    ensures SubStochasticFrom(LargeStraight, 0)
  {
    forall j | 0 <= j < 5
      ensures Total(Column(LargeStraight, j)) == if j == 0 then 1236.0 / 1296.0 else 1.0
    {
      Total5(Column(LargeStraight, j));
    }
    assert Column(LargeStraight, 4) == OneHot(5, 4);
  }

  /** One reroll of the small-straight chain, entry by entry. */
  lemma SmallStraightStep(v: Vector)
    requires |v| == 4
    ensures MatVec(SmallStraight, v) == [
      108.0 / 1296.0 * v[0],
      525.0 / 1296.0 * v[0] + 64.0 / 216.0 * v[1],
      582.0 / 1296.0 * v[0] + 122.0 / 216.0 * v[1] + 25.0 / 36.0 * v[2],
      108.0 / 1296.0 * v[0] + 30.0 / 216.0 * v[1] + 11.0 / 36.0 * v[2] + v[3]]
  {
    Dot4(SmallStraight[0], v);
    Dot4(SmallStraight[1], v);
    Dot4(SmallStraight[2], v);
    Dot4(SmallStraight[3], v);
  }
}

=== FILE: wrappers.dfy ===
/** Failure-carrying return types shared by the whole model. */
module Wrappers {

  /** A value that may be absent. */
  datatype Option<+T> = None | Some(value: T)

  /** The value of a successful computation, or the error that stopped it
      (the Python source raises an exception in the error case). */
  datatype Result<+T, +E> = Ok(value: T) | Err(error: E)
}
